=== FILE: README.md ===
# Brand aggregation and brand matching, modelled in Dafny

This project models the data-processing core of a front end for "answer engine"
brand analysis. Several language models answer a question. Each answer is a list
of brand mentions, and each mention carries a brand label, a position, a
sentiment and a link count. The front end then has two jobs.

- **Unfocused view.** It aggregates every mention by its raw label, once for the
  current result and once for the similar historical questions. It draws the
  top five labels plus an "Otros" bucket as pie charts, and lists one table row
  per label, ordered by average position and coloured by tier.
- **Focused view.** Given a brand, it normalises labels and finds the first
  matching mention in every answer. From those matches it builds:
  - per-model match statistics;
  - a flat list of historical matches;
  - guarded averages;
  - a trend series ordered by similarity;
  - a model-comparison series.

The modules follow the source files.

| module | file | models |
|---|---|---|
| `Wrappers` | wrappers.dfy | `Option` |
| `Sequences` | sequences.dfy | `FlatMap`, which concatenates per-element images |
| `AssocLists` | assoc_lists.dfy | JavaScript plain objects as insertion-ordered association lists; `Upsert` is the "initialise if missing, then update" idiom; `GroupFold` is the reference definition of a keyed fold |
| `Stats` | stats.dfy | sums, means and ratios with the zero guards the components use |
| `StableSort` | stable_sort.dfy | `Array.prototype.sort`, which is stable since ECMAScript 2019, as a stable insertion sort on a real-valued key |
| `Records` | records.dfy | the input records: a result maps model names to a value that is either an array of mentions or something else (`Array.isArray`); a historical result optionally carries `processed_responses` |
| `Normalization` | normalization.dfy | `normalizeBrandName`, `findBrandInList` and `String.prototype.trim` |
| `Aggregation` | aggregation.dfy | the `brandAggregation` memo of `useBrandAggregation` |
| `Charts` | charts.dfy | `processData` and the `chartData` memo |
| `AggregationTable` | table.dfy | the row derivation, sorting and colour tiers of `BrandAggregation` |
| `Focus` | focus.dfy | the computation `BrandFocusAnalysis` performs before rendering, and its no-data condition |
| `InheritedKeys` | inherited_keys.dfy | the aggregation memo as written, where labels that name `Object.prototype` properties throw (see Findings) |

Sentiments, averages and percentages are Dafny `real`. Counts, positions and
link counts are `int`.

## Model

| member | source | states |
|---|---|---|
| `Normalization.Normalize` | src/utils/brandNormalization.js:2-11 | an empty label gives the empty key, and every character of any key is in `[a-z0-9]`, so no punctuation, whitespace, capital or accent survives |
| `Normalization.NormalizeIsPerChar` | src/utils/brandNormalization.js:5-10 | the whole chain (lower-case, NFD, strip marks, keep `[a-z0-9]`, trim) equals concatenating each character's own image |
| `Normalization.NormalizeAppend` | src/utils/brandNormalization.js:5-10 | the key of a concatenation is the concatenation of the keys |
| `Normalization.NormalizeIdempotent` | src/utils/brandNormalization.js:5-10 | normalising a key again leaves it unchanged |
| `Normalization.NormalizeIgnoresCase` | src/utils/brandNormalization.js:6 | swapping the ASCII case of any one character of the input leaves the key unchanged |
| `Normalization.TrimIsNoOp` | src/utils/brandNormalization.js:9-10 | the final `trim` never changes anything, because the string it sees already holds only `[a-z0-9]` |
| `Normalization.Trim` | src/utils/brandNormalization.js:10 | the result is the input with its leading and trailing ECMAScript whitespace removed; it is empty exactly when the input is all whitespace, and otherwise starts and ends on non-whitespace |
| `Normalization.NormalizeIgnoresTrim` | src/components/BrandFocusAnalysis.jsx:36 | trimming a label before normalising it does not change its key |
| `Normalization.WhitespaceNormalizesToEmpty` | src/utils/brandNormalization.js:9-10 | a label made only of whitespace has the empty key |
| `Normalization.AsciiNormalize` | src/utils/brandNormalization.js:6-9 | on ASCII input the key is the input lower-cased with every non-alphanumeric character dropped |
| `Normalization.AccentedCharImage` | src/utils/brandNormalization.js:7-8 | "é" and "É" both normalise to "e": decomposition followed by stripping the mark removes the accent |
| `Normalization.CafeExample` | src/utils/brandNormalization.js:5-10 | "Café", "CAFÉ" and "cafe" all share the key "cafe" |
| `Normalization.CocaColaExample` | src/utils/brandNormalization.js:9 | "Coca-Cola!" has the key "cocacola" |
| `Normalization.IndexOfKey` | src/utils/brandNormalization.js:17-19 | `Array.prototype.find` by key: the index of the first element whose key equals the target; none exactly when no element's key does |
| `Normalization.FindBrand` | src/utils/brandNormalization.js:14-19 | none exactly when no mention's normalised brand equals the normalised target; otherwise it returns a mention of the list that matches, and every earlier mention does not match |
| `Normalization.FoundInNonEmpty` | src/utils/brandNormalization.js:14-19 | a match is never found in an empty list |
| `Records.ArrayEntries` | src/hooks/useBrandAggregation.js:16-17 | the entries kept are exactly the model entries whose value is an array; no entry is invented |
| `Records.ArrayEntriesAppend` | src/hooks/useBrandAggregation.js:16-17 | the array-valued entries are visited in the order of `Object.entries`: those of a concatenation are those of the first part followed by those of the second |
| `Records.ResponsesOf` | src/hooks/useBrandAggregation.js:46-48 | a historical result contributes exactly its array-valued answers, each tagged with the result's question and similarity; a result without `processed_responses` contributes none |
| `Records.HistoricalResponses` | src/hooks/useBrandAggregation.js:45-48 | an answer is streamed exactly when some historical result contributes it |
| `Records.HistoricalResponsesAppend` | src/hooks/useBrandAggregation.js:45 | the historical results are streamed in order, so the stream of a concatenation is the concatenation of the streams |
| `Records.ResultWithoutResponsesAddsNothing` | src/hooks/useBrandAggregation.js:46 | removing a historical result that lacks `processed_responses` leaves the answer stream unchanged |
| `AssocLists.Find` | src/hooks/useBrandAggregation.js:20 | the position of a key in an object is its first occurrence; none exactly when the key is absent |
| `AssocLists.Get` | src/hooks/useBrandAggregation.js:20 | a lookup is none exactly when the key is absent, and otherwise returns a value stored under that key |
| `AssocLists.Upsert` | src/hooks/useBrandAggregation.js:20-35 | after one update, the key holds the step applied to its old value (or to the initial value when it was missing); every other key is unchanged; a new key is appended at the end of the enumeration order; distinct keys stay distinct |
| `AssocLists.GroupFold` | src/hooks/useBrandAggregation.js:16-38 | the object built by upserting every element is, key by key, the fold of that key's elements in encounter order, and absent exactly when no element has that key; its keys are distinct |
| `Aggregation.FoldIsTallyOf` | src/hooks/useBrandAggregation.js:30-35 | folding a label's mentions gives: count and mention total equal to their number; sentiment and link totals equal to their sums; the set of their sources; their positions in encounter order |
| `Aggregation.SourcesSnoc` | src/hooks/useBrandAggregation.js:34 | one more mention adds its model to the label's model set |
| `Aggregation.PositionsSnoc` | src/hooks/useBrandAggregation.js:35 | one more mention appends its position to the label's positions |
| `Aggregation.Tallies` | src/hooks/useBrandAggregation.js:18-35 | the tally object has exactly one entry per raw label that occurs among the mentions, and each entry is the tally of exactly that label's mentions |
| `Aggregation.TallyEntriesConsistent` | src/hooks/useBrandAggregation.js:19-35 | for every label, the count equals the mention total, which equals the number of positions and is at least one |
| `Aggregation.AggregateConsistent` | src/hooks/useBrandAggregation.js:73-82 | `counts` and `details` list the same labels in the same order, and `counts[b] == details[b].totalMentions == len(details[b].positions) >= 1` |
| `Aggregation.UpsertCountSum` | src/hooks/useBrandAggregation.js:30 | each mention adds exactly one to the sum of the counts |
| `Aggregation.TalliesCountSum` | src/hooks/useBrandAggregation.js:30 | the counts sum to the number of mentions streamed |
| `Aggregation.ContributionsMembers` | src/hooks/useBrandAggregation.js:16-19 | a mention is streamed exactly when it occurs in some array-valued entry, tagged with that entry's model |
| `Aggregation.ContributionsOfGroups` | src/hooks/useBrandAggregation.js:16-19 | the same membership statement, for every mention at once |
| `Aggregation.ContributionsLength` | src/hooks/useBrandAggregation.js:16-19 | the number of mentions streamed is the sum of the array lengths |
| `Aggregation.ArrayEntriesLength` | src/hooks/useBrandAggregation.js:16-18 | the array lengths of the kept entries sum to the record count, in which non-array entries count zero |
| `Aggregation.CountsSumToRecords` | src/hooks/useBrandAggregation.js:16-35 | the current counts sum to the number of records in array-valued entries; the historical counts sum to the number of records in the array-valued answers of results with responses |
| `Aggregation.LabelsOfGroups` | src/hooks/useBrandAggregation.js:16-20 | a label has an entry exactly when some array-valued entry mentions it |
| `Aggregation.SourcesOfGroups` | src/hooks/useBrandAggregation.js:34 | a source is in a label's set exactly when some array-valued entry of that source mentions the label |
| `Aggregation.SourceWitness` | src/hooks/useBrandAggregation.js:34 | every source in a label's set has an array-valued entry mentioning the label |
| `Aggregation.CurrentModelsExact` | src/hooks/useBrandAggregation.js:15-39 | a label has a current entry exactly when the current result mentions it; its `models` set holds exactly the models whose array mentions it |
| `Aggregation.RawLabelsStaySeparate` | src/hooks/useBrandAggregation.js:19-20 | two different raw labels always get two separate entries, each with count one |
| `Aggregation.NikeExample` | src/hooks/useBrandAggregation.js:19-20 | "Nike" and "NIKE" share a normalised key, yet the aggregation keeps them as two entries, because it keys by the raw label |
| `Aggregation.GroupToQuestion` | src/hooks/useBrandAggregation.js:65 | an answer in the historical stream that mentions a label comes from a historical result with that question whose responses mention the label |
| `Aggregation.QuestionToGroup` | src/hooks/useBrandAggregation.js:45-49 | every array-valued answer of a result with responses is streamed under that result's question |
| `Aggregation.HistoricalGroupsMention` | src/hooks/useBrandAggregation.js:45-65 | some streamed answer for question q mentions a label exactly when some historical result with question q has responses mentioning it |
| `Aggregation.HistoricalLabelsExact` | src/hooks/useBrandAggregation.js:45-71 | a label has a historical entry exactly when some historical result with `processed_responses` mentions it |
| `Aggregation.LabelHasMentioningResult` | src/hooks/useBrandAggregation.js:45-60 | every historical label comes from a result with responses that mentions it |
| `Aggregation.MentioningResultHasLabel` | src/hooks/useBrandAggregation.js:45-60 | every label mentioned by a result with responses gets a historical entry |
| `Aggregation.HistoricalQuestionsExact` | src/hooks/useBrandAggregation.js:65 | a label's `questions` set holds exactly the questions of the historical results whose responses mention it |
| `Aggregation.ResultWithoutResponsesIgnored` | src/hooks/useBrandAggregation.js:46 | a historical result without `processed_responses` leaves the historical aggregate unchanged |
| `Aggregation.Aggregated` | src/hooks/useBrandAggregation.js:9 | the memo yields null exactly when there is neither a current result nor any historical result, or when the brand filter normalises to a non-empty key |
| `Charts.Ranked` | src/hooks/useBrandAggregation.js:91-92 | the entries are rearranged, never changed, into non-increasing order of count, and entries with equal counts keep their original order |
| `Charts.TopCount` | src/hooks/useBrandAggregation.js:93 | `slice(0, maxEntries)` keeps the smaller of the entry count and `maxEntries` |
| `Charts.ProcessData` | src/hooks/useBrandAggregation.js:89-118 | the output starts with the top `min(n, maxEntries)` ranked entries as slices; it has one more slice exactly when the remaining counts sum to a positive total, and that slice is "Otros" carrying exactly that sum; so there are never more than `maxEntries + 1` slices |
| `Charts.KindsAreTagged` | src/hooks/useBrandAggregation.js:95-115 | every slice, including "Otros", carries the requested data kind |
| `Charts.TopEntriesAreRanked` | src/hooks/useBrandAggregation.js:91-99 | every kept slice is an input entry, and the kept slices are in non-increasing order of value |
| `Charts.TopEntriesAreHighest` | src/hooks/useBrandAggregation.js:91-104 | no entry left out of the top slices has a higher count than any kept slice |
| `Charts.TopAndRestAreTheInput` | src/hooks/useBrandAggregation.js:91-104 | the kept entries and the remaining entries together are exactly the input entries, as a multiset |
| `Charts.RankedSplitSum` | src/hooks/useBrandAggregation.js:101-106 | the kept values plus the remaining total equal the input total |
| `Charts.OthersIffOverflow` | src/hooks/useBrandAggregation.js:101-115 | when every count is positive, "Otros" is appended exactly when there are more than `maxEntries` entries |
| `Charts.SlicesConserveTotal` | src/hooks/useBrandAggregation.js:101-115 | when no count is negative, the slice values sum to the input total |
| `Charts.SevenLabelsExample` | src/hooks/useBrandAggregation.js:89-118 | seven labels counted 10, 9, 8, 7, 6, 3, 1 give the top five plus "Otros" with 4 |
| `Charts.ChartDataOf` | src/hooks/useBrandAggregation.js:86-124 | no aggregation gives two empty chart lists; otherwise each list has at most six slices, tagged current or historical respectively |
| `Charts.CountsOfAggregate` | src/hooks/useBrandAggregation.js:73-82 | the counts object sums to the same total as the details, and every count is at least one |
| `Charts.ChartsCountEveryRecord` | src/hooks/useBrandAggregation.js:120-121 | the current pie sums to the number of current records; the historical pie sums to the number of historical records |
| `Charts.ChartsOthersIffMoreThanFive` | src/hooks/useBrandAggregation.js:120-121 | a pie has an "Otros" slice exactly when its aggregate has more than five labels |
| `StableSort.Sort` | src/components/BrandAggregation.jsx:138 | the result is a permutation of the input, ordered by the key, and elements with equal keys keep their relative order |
| `StableSort.InsertionSortCorrect` | src/components/BrandAggregation.jsx:138 | insertion sort permutes, orders by key, and keeps ties in their original order |
| `StableSort.SortSortedIsIdentity` | src/components/BrandAggregation.jsx:138 | sorting an already-ordered sequence leaves it unchanged |
| `StableSort.SortKeepsSum` | src/hooks/useBrandAggregation.js:102-106 | sorting does not change any sum over the elements |
| `Stats.MeanOrZero` | src/components/BrandAggregation.jsx:125-127 | the mean is zero for no positions; otherwise the mean times the number of positions is their sum |
| `Stats.RatioOrZero` | src/components/BrandFocusAnalysis.jsx:135-140 | the ratio is zero for a zero count; otherwise the ratio times the count is the total |
| `Stats.MeanBounds` | src/components/BrandAggregation.jsx:125-127 | a mean lies between any lower and upper bound of its values |
| `Stats.SumByAppend` | src/hooks/useBrandAggregation.js:106 | a sum over a concatenation is the sum of the sums |
| `AggregationTable.AggregateOfIsConsistent` | src/components/BrandAggregation.jsx:124-128 | every label in `counts` has its details at the same place, with a positive mention total, so the sentiment division never divides by zero |
| `AggregationTable.RowOf` | src/components/BrandAggregation.jsx:123-136 | a row copies the label, count, links and sources; its mean position times the number of positions is their sum (zero for none); its mean sentiment times the mention total is the total sentiment |
| `AggregationTable.UnsortedRows` | src/components/BrandAggregation.jsx:122-137 | one row per entry of `counts`, in enumeration order, each derived from that entry's details |
| `AggregationTable.Rows` | src/components/BrandAggregation.jsx:122-138 | the rows are a permutation of the unsorted rows, non-decreasing in mean position, with rows of equal mean position in enumeration order |
| `AggregationTable.EveryLabelHasARow` | src/components/BrandAggregation.jsx:122-138 | every label of the aggregate has a row |
| `AggregationTable.EveryRowIsALabel` | src/components/BrandAggregation.jsx:122-138 | every row is the row derived from some label of the aggregate |
| `AggregationTable.NoLabelTwice` | src/components/BrandAggregation.jsx:122-138 | no two rows share a label |
| `AggregationTable.RowMeanWithinPositions` | src/components/BrandAggregation.jsx:125-127 | a row's mean position lies between the lowest and highest of its positions |
| `AggregationTable.TierOf` | src/components/BrandAggregation.jsx:153-155 | success exactly for at most 3, warning exactly for above 3 up to 5, info exactly for above 5 up to 10, grey exactly above 10: the tiers are disjoint and cover every position |
| `AggregationTable.TierMonotone` | src/components/BrandAggregation.jsx:226-228 | a larger mean position never gets a better tier |
| `AggregationTable.RowTiersDescend` | src/components/BrandAggregation.jsx:138-155 | down the sorted table, the tiers never improve |
| `AggregationTable.TablesOf` | src/components/BrandAggregation.jsx:20 | no tables exactly when the aggregation is null; otherwise one row per label in each table, both sorted by mean position |
| `AggregationTable.QuestionsCountIsDistinctQuestions` | src/components/BrandAggregation.jsx:210 | the set whose size `questionsCount` shows is exactly the set of distinct questions whose historical responses mention the label |
| `AggregationTable.MentioningQuestions` | src/components/BrandAggregation.jsx:210 | the questions whose historical responses mention a label |
| `Focus.Analyse` | src/components/BrandFocusAnalysis.jsx:33-173 | nothing exactly when the brand is blank after trimming; otherwise the target is the trimmed brand, the summary counts every historical match once, the comparison has one entry per historical model, and the trend is empty unless there are at least two matches |
| `Focus.TrimDoesNotChangeMatches` | src/components/BrandFocusAnalysis.jsx:34-36 | matching against the trimmed brand finds the same mention as matching against the raw brand |
| `Focus.FoundAnswerIsNonEmpty` | src/components/BrandFocusAnalysis.jsx:45-52 | a matched answer is non-empty, so `1 / totalMentions * 100` never divides by zero |
| `Focus.CurrentStatsOf` | src/components/BrandFocusAnalysis.jsx:45-53 | `currentModelStats` is computed but never rendered or read again by the component; the answer's total is its length; brand mentions are 1 exactly when the answer holds a match and 0 otherwise; the percentage is 100 divided by the length when matched and 0 otherwise |
| `Focus.CurrentStats` | src/components/BrandFocusAnalysis.jsx:42-67 | `currentModelStats` (computed, never rendered): there is one entry per model whose value is an array, and it holds that answer's statistics |
| `Focus.CurrentStatsExact` | src/components/BrandFocusAnalysis.jsx:43-53 | in `currentModelStats` (computed, never rendered), a model with an array answer has exactly that answer's statistics |
| `Focus.CurrentEntry` | src/components/BrandFocusAnalysis.jsx:55-64 | an array-valued answer yields a record exactly when it contains a match; the record carries the model, the position, sentiment and link count of the first matching mention, the answer's length and 100 divided by that length |
| `Focus.CurrentMatches` | src/components/BrandFocusAnalysis.jsx:55-64 | `currentBrandData` holds exactly the match records of the array-valued answers that contain a match, at most one per entry |
| `Focus.CurrentMatchesAppend` | src/components/BrandFocusAnalysis.jsx:43-64 | `currentBrandData` follows the model order of the result: the records of two consecutive runs of entries are those of the first run followed by those of the second |
| `Focus.CurrentMatchesOfOne` | src/components/BrandFocusAnalysis.jsx:44-64 | one model entry contributes its record exactly when its value is an array containing a match, and nothing otherwise |
| `Focus.MatchedModelsAreListed` | src/components/BrandFocusAnalysis.jsx:49-64 | a model is listed in `currentBrandData` exactly when its statistics show one brand mention |
| `Focus.CurrentMatchModelsDistinct` | src/components/BrandFocusAnalysis.jsx:42-67 | no model appears twice in `currentBrandData` |
| `Focus.NoCurrentMatches` | src/components/BrandFocusAnalysis.jsx:55-64 | `currentBrandData` is empty exactly when no array-valued current answer contains a match |
| `Focus.RunningStats` | src/components/BrandFocusAnalysis.jsx:80-98 | one entry per model that answered in any historical result; its total is the sum of that model's answer lengths across all results, never reset per result; its brand mentions count that model's answers containing a match |
| `Focus.RunningEntry` | src/components/BrandFocusAnalysis.jsx:96-98 | before the final pass, every model's brand mentions lie between zero and its total, and its percentage is still zero |
| `Focus.CountAnswersFold` | src/components/BrandFocusAnalysis.jsx:88-98 | accumulating one model's answers gives the sum of their lengths and the number that contain a match |
| `Focus.MatchedAtMostRecords` | src/components/BrandFocusAnalysis.jsx:96-98 | a model never has more matched answers than records |
| `Focus.Percent` | src/components/BrandFocusAnalysis.jsx:127 | the percentage times the total is 100 times the part, and it lies in [0, 100] when the part does not exceed the total |
| `Focus.FinishedPercentage` | src/components/BrandFocusAnalysis.jsx:124-129 | after the final pass, a model's percentage lies in [0, 100]; it is 0 exactly when none of its answers matched, and 100 exactly when its matched answers equal its records, i.e. every non-empty answer it gave is a single record that matches; empty answers add to neither count |
| `Focus.RepeatedMentionGivesFifty` | src/components/BrandFocusAnalysis.jsx:96-129 | an answer naming the brand twice is two records and one matched answer, so its model gets 50 |
| `Focus.EmptyAnswerKeepsFullPercentage` | src/components/BrandFocusAnalysis.jsx:96-129 | a matching one-mention answer beside an empty answer is one record and one matched answer, so its model gets 100 |
| `Focus.HistoricalStats` | src/components/BrandFocusAnalysis.jsx:123-129 | the same models in the same order as before the final pass; every percentage lies in [0, 100]; it is brand mentions over total times 100 for a positive total, and 0 otherwise |
| `Focus.HistoricalTotals` | src/components/BrandFocusAnalysis.jsx:88-98 | a model has historical statistics exactly when it answered some historical result; they hold its summed answer lengths and its number of matched answers |
| `Focus.HistoricalEntry` | src/components/BrandFocusAnalysis.jsx:97-109 | a historical answer yields a record exactly when it contains a match; the record carries the answer's model, question and similarity, the position, sentiment and link count of the first matching mention, the answer's length and 100 divided by that length |
| `Focus.HistoricalMatches` | src/components/BrandFocusAnalysis.jsx:80-109 | `historicalBrandData` holds exactly the records of the historical answers that contain a match, at most one per answer |
| `Focus.HistoricalMatchesAppend` | src/components/BrandFocusAnalysis.jsx:80-109 | `historicalBrandData` follows the order of the previous results: the records of two consecutive runs of results are those of the first run followed by those of the second |
| `Focus.NoHistoricalMatches` | src/components/BrandFocusAnalysis.jsx:97-109 | `historicalBrandData` is empty exactly when no historical result has an answer containing a match |
| `Focus.Summarize` | src/components/BrandFocusAnalysis.jsx:111-116 | the summary counts each match once, lists their positions in order, sums their sentiments and links, and collects exactly their questions |
| `Focus.AccumulateFold` | src/components/BrandFocusAnalysis.jsx:111-116 | the running aggregation over the matches equals the summary described for `Focus.Summarize` |
| `Focus.SummaryQuestions` | src/components/BrandFocusAnalysis.jsx:105-116 | a question is in the summary exactly when some historical result with that question has an answer containing a match |
| `Focus.Averages` | src/components/BrandFocusAnalysis.jsx:131-140 | each average is 0 when its count is 0; otherwise it times the count gives the total |
| `Focus.AveragesOverMatches` | src/components/BrandFocusAnalysis.jsx:131-140 | with no matches all three averages are 0; otherwise position, sentiment and link averages times the number of matches give the sums over the matches |
| `Focus.AveragePositionBounds` | src/components/BrandFocusAnalysis.jsx:132-134 | the average historical position lies between the lowest and highest matched position |
| `Focus.SortedMatchesIsSort` | src/components/BrandFocusAnalysis.jsx:158 | the similarity sort of the matches is the stable sort by similarity |
| `Focus.Trend` | src/components/BrandFocusAnalysis.jsx:155-165 | empty for at most one match; otherwise one point per match, indexed 1..n, in non-decreasing similarity |
| `Focus.TrendFollowsSortedMatches` | src/components/BrandFocusAnalysis.jsx:156-165 | the trend follows the matches sorted by similarity, a permutation that keeps ties in their order of discovery |
| `Focus.ComparisonCopiesStats` | src/components/BrandFocusAnalysis.jsx:168-173 | each comparison entry copies its model's three statistics; every model has an entry; no model has two |
| `Focus.NoDataIffNothingMatches` | src/components/BrandFocusAnalysis.jsx:442 | the no-data message shows exactly when no current answer and no historical answer contains a match |
| `Focus.KeyedBrandSelectsAnalysis` | src/hooks/useBrandAggregation.js:9 | for a brand with a non-empty key the aggregation memo yields null and the analyser returns a value |
| `Focus.BlankBrandSelectsAggregation` | src/components/BrandFocusAnalysis.jsx:34 | for a blank brand with some data present, the aggregation memo yields an aggregation and the analyser returns nothing |
| `InheritedKeys.TalliesAsWritten` | src/hooks/useBrandAggregation.js:18-35 | the loop as written throws exactly when some mention's label names an `Object.prototype` property; otherwise it builds the intended tallies |
| `InheritedKeys.AsWrittenFold` | src/hooks/useBrandAggregation.js:20-35 | the fold behind `InheritedKeys.TalliesAsWritten` |
| `InheritedKeys.AggregatedAsWritten` | src/hooks/useBrandAggregation.js:9-82 | the memo as written throws exactly when the guard lets the inputs through and a current or historical label names an inherited property; when it returns, it returns the intended aggregation |
| `InheritedKeys.ConstructorLabelThrows` | src/hooks/useBrandAggregation.js:20-34 | one answer mentioning "constructor" makes the memo as written throw |
| `InheritedKeys.ConstructorLabelCountedOnce` | src/hooks/useBrandAggregation.js:20-34 | the intended aggregation counts that same label once |
| `InheritedKeys.OneMentionStream` | src/hooks/useBrandAggregation.js:16-19 | a result with one array-valued answer of one mention streams exactly that mention |

## Left out

- Network hooks, the page component, React memo caching and all markup are
  I/O or rendering, so they are not part of this model.
- The `positionChartData` and `sentimentChartData` projections at
  src/components/BrandFocusAnalysis.jsx:143-153 are left out. They only rename
  fields of the current matches for the charts.
- Number formatting (`toFixed`) and IEEE-754 arithmetic are left out.
  Sentiments, averages and percentages are exact reals.
- `Normalization.Normalize`: Unicode lower-casing and NFD are modelled by a
  table. It covers ASCII, the Latin-1 letters and the few code points whose
  lower case lands in Latin-1. Every other character is its own image.
- JavaScript lists integer-like object keys before all other keys. This is
  not modelled: objects enumerate in insertion order.
- Result objects are assumed to hold distinct model names, as every object
  parsed from JSON does. The members that need it require `DistinctKeys`.
- An absent brand is modelled as the empty string, since both are falsy.
  An absent `similarPreviousResults` is modelled as the empty list. The source
  throws on it at src/hooks/useBrandAggregation.js:45 when a current result is
  present; that crash is not modelled.
- Missing or non-numeric `sentiment`, `position` or `link_count` fields are
  not modelled: every mention carries all four fields. Likewise every previous
  result carries a `question` string and a numeric `similarity_score`. In the
  source a missing `similarity_score` makes the comparator
  `a.similarity - b.similarity` at src/components/BrandFocusAnalysis.jsx:158
  return `NaN`, which the sort treats as a tie, and line 164 then shows
  "NaN"; a missing `question` adds `undefined` to the questions set at
  line 116.
- `Focus.RunningStats`: model names are modelled as ordinary keys. In the
  source, the test `if (!historicalModelStats[model])` at
  src/components/BrandFocusAnalysis.jsx:88 is false for a model named after an
  inherited `Object.prototype` property. The initialisation is then skipped,
  and lines 96-98 write `NaN` onto the inherited value. For "__proto__" that
  value is `Object.prototype` itself. Nothing throws, but the model never
  becomes an own key, so `Object.keys` at line 168 leaves it out of
  `modelComparisonData`. Inherited names are modelled only for the
  aggregation memo (see Findings).
- Which views the page mounts is not modelled. src/pages/Home.jsx:138 shows
  the aggregation only when there are similar previous results and the brand
  is blank after trimming. A current result without similar results, or a
  brand such as "!!!" whose key is empty, gets an aggregation from the memo
  that the page never shows. Home.jsx does not mount `BrandFocusAnalysis`
  at all. The model states what the memo and the analyser return.
- `AggregationTable.RowOf`: a row keeps its models as a set. The current
  table shows `Array.from(details.models).join(', ')`
  (src/components/BrandAggregation.jsx:135), which lists the models in the
  order they were first added; that order and the joined string are not
  modelled.
- `AggregationTable.RowOf` requires a positive mention total. Every entry
  the aggregation builds has one (`AggregationTable.AggregateOfIsConsistent`).
- `Focus.Analyse` states only the shape of the analysis. Each of its parts
  is stated in full by its own member above.

## Findings

| source | as written | input that shows it | evidently intended | confidence | as-written member | corrected member |
|---|---|---|---|---|---|---|
| src/hooks/useBrandAggregation.js:20-34 | `if (!brandCounts[brandName])` also sees the properties every plain object inherits, so for a label like "constructor" the initialisation is skipped and `brandDetails[brandName].models.add` throws on `undefined`; the historical loop at lines 51-65 does the same | a current result `{ gpt: [{ brand: "constructor", position: 1, sentiment: 0.5, link_count: 0 }] }` with no brand filter | every label starts its own entry and is counted once | not executed | `InheritedKeys.ConstructorLabelThrows` | `InheritedKeys.ConstructorLabelCountedOnce` |

=== FILE: aggregation.dfy ===
/**
 * The unfocused brand aggregation (`useBrandAggregation`, the
 * `brandAggregation` memo): every mention of every array-valued model answer
 * is tallied under its raw `brand` label, once for the current result (the
 * tally remembers the models) and once for the similar previous results
 * (the tally remembers the questions).
 */
module Aggregation {
  import opened Wrappers
  import opened AssocLists
  import opened Stats
  import opened Records
  import opened Normalization

  /**
   * One mention as the tally consumes it: its raw label, the figures it adds,
   * and its source, which is the model name for the current result and the
   * question for a historical one.
   */
  datatype Contribution = Contribution(brand: string, sentiment: real, links: int, position: int, source: string)

  function Contribute(source: string, m: Mention): Contribution {
    Contribution(m.brand, m.sentiment, m.linkCount, m.position, source)
  }

  /** `results.forEach(item => ...)` for one source's array. */
  function Tagged(source: string, items: seq<Mention>): (cs: seq<Contribution>)
    ensures |cs| == |items|
  {
    seq(|items|, j requires 0 <= j < |items| => Contribute(source, items[j]))
  }

  /** The mentions of every source's array, source by source, each tagged with its source. */
  function Contributions(groups: seq<(string, seq<Mention>)>): seq<Contribution> {
    if |groups| == 0 then [] else Tagged(groups[0].0, groups[0].1) + Contributions(groups[1..])
  }

  /** The current result's stream: `Object.entries(currentResult)`, arrays only, tagged with the model. */
  function CurrentContributions(rs: ResultSet): seq<Contribution> {
    Contributions(ArrayEntries(rs))
  }

  /** The answer arrays of the historical walk, each tagged with its result's question. */
  function QuestionArrays(xs: seq<Response>): (r: seq<(string, seq<Mention>)>)
    ensures |r| == |xs|
  {
    seq(|xs|, i requires 0 <= i < |xs| => (xs[i].question, xs[i].items))
  }

  /** The historical stream: every array of every result with `processed_responses`, tagged with the question. */
  function HistoricalContributions(hs: seq<HistoricalResult>): seq<Contribution> {
    Contributions(QuestionArrays(HistoricalResponses(hs)))
  }

  /**
   * `brandCounts[b]` together with `brandDetails[b]`: the number of mentions
   * (kept twice by the source, as the count and as `totalMentions`), the
   * sentiment and link sums, the set of sources and the positions in
   * encounter order.
   */
  datatype Tally = Tally(count: nat, totalMentions: nat, totalSentiment: real, totalLinks: int,
                         sources: set<string>, positions: seq<int>)

  /** The entry created the first time a label is seen. */
  const Fresh := Tally(0, 0, 0.0, 0, {}, [])

  /** The six updates the loop body makes for one mention. */
  function Bump(t: Tally, c: Contribution): Tally {
    Tally(t.count + 1, t.totalMentions + 1, t.totalSentiment + c.sentiment, t.totalLinks + c.links,
          t.sources + {c.source}, t.positions + [c.position])
  }

  function BrandOf(c: Contribution): string {
    c.brand
  }

  function SentimentOf(c: Contribution): real {
    c.sentiment
  }

  function LinksOf(c: Contribution): int {
    c.links
  }

  /**
   * What the tally of a label should be, stated directly from that label's
   * mentions `g`: their number, the sums of their sentiments and link counts,
   * the set of their sources and the list of their positions.
   */
  function TallyOf(g: seq<Contribution>): Tally {
    Tally(|g|, |g|, RealSumBy(g, SentimentOf), SumBy(g, LinksOf), SourcesOf(g), PositionsOf(g))
  }

  /** The sources the mentions `g` come from. */
  function SourcesOf(g: seq<Contribution>): set<string> {
    set c | c in g :: c.source
  }

  /** The positions of the mentions `g`, in order. */
  function PositionsOf(g: seq<Contribution>): (r: seq<int>)
    ensures |r| == |g|
  {
    seq(|g|, i requires 0 <= i < |g| => g[i].position)
  }

  lemma {:induction false} SourcesSnoc(g: seq<Contribution>, c: Contribution)
    ensures SourcesOf(g + [c]) == SourcesOf(g) + {c.source}
  {
    forall x ensures x in SourcesOf(g + [c]) <==> x in SourcesOf(g) + {c.source} {
      if x in SourcesOf(g + [c]) {
        var d :| d in g + [c] && d.source == x;
        if d != c {
          assert d in g;
        }
      }
      if x in SourcesOf(g) {
        var d :| d in g && d.source == x;
        assert d in g + [c];
      }
    }
  }

  lemma {:induction false} PositionsSnoc(g: seq<Contribution>, c: Contribution)
    ensures PositionsOf(g + [c]) == PositionsOf(g) + [c.position]
  {
    forall i | 0 <= i < |g| + 1 ensures PositionsOf(g + [c])[i] == (PositionsOf(g) + [c.position])[i] {
      if i < |g| {
        assert (g + [c])[i] == g[i];
      }
    }
  }

  /** Folding `Bump` over a label's mentions yields the tally stated directly. */
  lemma {:induction false} FoldIsTallyOf(g: seq<Contribution>)
    ensures FoldSeq(g, Fresh, Bump) == TallyOf(g)
  {
    if |g| > 0 {
      var prefix := g[..|g| - 1];
      var last := g[|g| - 1];
      assert g == prefix + [last];
      FoldIsTallyOf(prefix);
      assert FoldSeq(g, Fresh, Bump) == Bump(FoldSeq(prefix, Fresh, Bump), last);
      SumByAppend(prefix, [last], LinksOf);
      RealSumByAppend(prefix, [last], SentimentOf);
      SourcesSnoc(prefix, last);
      PositionsSnoc(prefix, last);
    }
  }

  /**
   * The two accumulators of one loop (`brandCounts` and `brandDetails` share
   * their keys) as one association list from raw label to tally: a label has
   * an entry exactly when some mention carries it, and the entry is the tally
   * of that label's mentions.
   */
  function Tallies(cs: seq<Contribution>): (r: AssocList<string, Tally>)
    ensures DistinctKeys(r)
    ensures forall b :: Get(r, b).Some? <==> exists c :: c in cs && c.brand == b
    ensures forall b :: Get(r, b).Some? ==> Get(r, b).value == TallyOf(Group(cs, BrandOf, b))
  {
    var r := GroupFold(cs, BrandOf, Fresh, Bump);
    forall b ensures Get(r, b).Some? <==> exists c :: c in cs && c.brand == b
      ensures Get(r, b).Some? ==> Get(r, b).value == TallyOf(Group(cs, BrandOf, b))
    {
      var g := Group(cs, BrandOf, b);
      FoldIsTallyOf(g);
      if |g| > 0 {
        assert g[0] in g;
      }
    }
    r
  }

  /** Every entry of a tally list has at least one mention, counted consistently. */
  lemma {:induction false} TallyEntriesConsistent(cs: seq<Contribution>)
    ensures forall i :: 0 <= i < |Tallies(cs)| ==>
      var t := Tallies(cs)[i].1;
      t.count == t.totalMentions == |t.positions| >= 1
  {
    var r := Tallies(cs);
    forall i | 0 <= i < |r| ensures r[i].1.count == r[i].1.totalMentions == |r[i].1.positions| >= 1 {
      GetAt(r, i);
    }
  }

  function CountOf(e: (string, Tally)): int {
    e.1.count
  }

  /** Adding one mention adds one to the total count. */
  lemma {:induction false} UpsertCountSum(a: AssocList<string, Tally>, c: Contribution)
    ensures SumBy(Upsert(a, c.brand, Fresh, Bump, c), CountOf) == SumBy(a, CountOf) + 1
  {
    match Find(a, c.brand)
    case Some(i) =>
      SumByUpdate(a, i, (c.brand, Bump(a[i].1, c)), CountOf);
    case None =>
      SumByAppend(a, [(c.brand, Bump(Fresh, c))], CountOf);
  }

  /** The counts of all labels add up to the number of mentions. */
  lemma {:induction false} TalliesCountSum(cs: seq<Contribution>)
    ensures SumBy(Tallies(cs), CountOf) == |cs|
  {
    if |cs| > 0 {
      var prefix := cs[..|cs| - 1];
      var last := cs[|cs| - 1];
      TalliesCountSum(prefix);
      assert GroupFold(cs, BrandOf, Fresh, Bump)
          == Upsert(GroupFold(prefix, BrandOf, Fresh, Bump), last.brand, Fresh, Bump, last);
      UpsertCountSum(GroupFold(prefix, BrandOf, Fresh, Bump), last);
    }
  }

  // ----- the two streams -----

  lemma {:induction false} ContributionsMembers(groups: seq<(string, seq<Mention>)>, c: Contribution)
    ensures c in Contributions(groups) <==>
      exists g, m :: g in groups && m in g.1 && c == Contribute(g.0, m)
  {
    if |groups| > 0 {
      var head := Tagged(groups[0].0, groups[0].1);
      var rest := groups[1..];
      ContributionsMembers(rest, c);
      assert groups == [groups[0]] + rest;
      if c in head {
        var j :| 0 <= j < |head| && head[j] == c;
        assert groups[0] in groups && groups[0].1[j] in groups[0].1;
      }
      if exists g, m :: g in groups && m in g.1 && c == Contribute(g.0, m) {
        var g, m :| g in groups && m in g.1 && c == Contribute(g.0, m);
        if g == groups[0] {
          var j :| 0 <= j < |g.1| && g.1[j] == m;
          assert head[j] == c;
        } else {
          assert g in rest;
        }
      }
    }
  }

  function ArrayLength(g: (string, seq<Mention>)): int {
    |g.1|
  }

  lemma {:induction false} ContributionsLength(groups: seq<(string, seq<Mention>)>)
    ensures |Contributions(groups)| == SumBy(groups, ArrayLength)
  {
    if |groups| > 0 {
      ContributionsLength(groups[1..]);
    }
  }

  /** Only array-valued entries contribute, each with its length. */
  lemma {:induction false} ArrayEntriesLength(rs: ResultSet)
    ensures SumBy(ArrayEntries(rs), ArrayLength) == RecordCount(rs)
  {
    if |rs| > 0 {
      ArrayEntriesLength(rs[1..]);
      var head := if rs[0].1.Mentions? then [(rs[0].0, rs[0].1.items)] else [];
      SumByAppend(head, ArrayEntries(rs[1..]), ArrayLength);
    }
  }

  lemma {:induction false} ContributionsOfGroups(groups: seq<(string, seq<Mention>)>)
    ensures forall c :: c in Contributions(groups) <==>
      exists g, m :: g in groups && m in g.1 && c == Contribute(g.0, m)
  {
    forall c ensures c in Contributions(groups) <==> exists g, m :: g in groups && m in g.1 && c == Contribute(g.0, m) {
      ContributionsMembers(groups, c);
    }
  }

  /**
   * For any list of tagged arrays, label `b` has a tally exactly when some
   * array mentions it.
   */
  lemma {:induction false} LabelsOfGroups(groups: seq<(string, seq<Mention>)>, b: string)
    ensures Get(Tallies(Contributions(groups)), b).Some? <==>
      exists g :: g in groups && MentionedBy(g.1, b)
  {
    var cs := Contributions(groups);
    ContributionsOfGroups(groups);
    if exists c :: c in cs && c.brand == b {
      var c :| c in cs && c.brand == b;
      var g, m :| g in groups && m in g.1 && c == Contribute(g.0, m);
      var j :| 0 <= j < |g.1| && g.1[j] == m;
      assert MentionedBy(g.1, b);
    }
    if exists g :: g in groups && MentionedBy(g.1, b) {
      var g :| g in groups && MentionedBy(g.1, b);
      var j :| 0 <= j < |g.1| && g.1[j].brand == b;
      assert Contribute(g.0, g.1[j]) in cs;
    }
  }

  /**
   * For any list of tagged arrays, the sources of label `b` are exactly the
   * tags of the arrays that mention it.
   */
  lemma {:induction false} SourcesOfGroups(groups: seq<(string, seq<Mention>)>, b: string, x: string)
    ensures x in TallyOf(Group(Contributions(groups), BrandOf, b)).sources <==>
      exists g :: g in groups && g.0 == x && MentionedBy(g.1, b)
  {
    var gr := Group(Contributions(groups), BrandOf, b);
    if x in TallyOf(gr).sources {
      SourceWitness(groups, b, x);
    }
    if exists g :: g in groups && g.0 == x && MentionedBy(g.1, b) {
      var g :| g in groups && g.0 == x && MentionedBy(g.1, b);
      var j :| 0 <= j < |g.1| && g.1[j].brand == b;
      ContributionsMembers(groups, Contribute(g.0, g.1[j]));
      assert Contribute(g.0, g.1[j]) in gr;
    }
  }

  lemma {:induction false} SourceWitness(groups: seq<(string, seq<Mention>)>, b: string, x: string)
    requires x in TallyOf(Group(Contributions(groups), BrandOf, b)).sources
    ensures exists g :: g in groups && g.0 == x && MentionedBy(g.1, b)
  {
    var gr := Group(Contributions(groups), BrandOf, b);
    var c :| c in gr && c.source == x;
    ContributionsMembers(groups, c);
    var g, m :| g in groups && m in g.1 && c == Contribute(g.0, m);
    var j :| 0 <= j < |g.1| && g.1[j] == m;
    assert g.0 == x && MentionedBy(g.1, b);
  }

  // ----- the aggregation -----

  /** `{counts, details}` for one of the two streams. */
  datatype Aggregate = Aggregate(counts: AssocList<string, int>, details: AssocList<string, Tally>)

  /** The memo's result: `{current, historical}`. */
  datatype BrandAggregation = BrandAggregation(current: Aggregate, historical: Aggregate)

  function CountEntry(b: string, t: Tally): int {
    t.count
  }

  function AggregateOf(cs: seq<Contribution>): Aggregate {
    var t := Tallies(cs);
    Aggregate(MapValues(t, CountEntry), t)
  }

  /**
   * The memo: null when there is nothing to aggregate (no current result and
   * no previous results) or when a brand filter with a non-empty key is set,
   * since the focused analysis is shown then instead.
   */
  function Aggregated(current: Option<ResultSet>, hs: seq<HistoricalResult>, brand: string): (r: Option<BrandAggregation>)
    ensures r.None? <==> (current.None? && |hs| == 0) || Normalize(brand) != ""
  {
    if (current.None? && |hs| == 0) || Normalize(brand) != "" then None
    else
      var cur := if current.Some? then CurrentContributions(current.value) else [];
      Some(BrandAggregation(AggregateOf(cur), AggregateOf(HistoricalContributions(hs))))
  }

  /**
   * In either aggregate the count and the details have the same keys, and for
   * every key `counts[b] == totalMentions == |positions| >= 1`.
   */
  lemma {:induction false} AggregateConsistent(cs: seq<Contribution>)
    ensures var a := AggregateOf(cs);
      |a.counts| == |a.details| &&
      forall i :: 0 <= i < |a.details| ==>
        a.counts[i].0 == a.details[i].0 &&
        a.counts[i].1 == a.details[i].1.totalMentions == |a.details[i].1.positions| >= 1
  {
    TallyEntriesConsistent(cs);
  }

  /**
   * The current aggregate: a label has an entry exactly when some model's
   * array mentions it, and its models are exactly those models.
   */
  lemma {:induction false} CurrentModelsExact(rs: ResultSet, b: string, model: string)
    ensures Get(AggregateOf(CurrentContributions(rs)).details, b).Some? <==> SetMentions(rs, b)
    ensures Get(AggregateOf(CurrentContributions(rs)).details, b).Some? ==>
      (model in Get(AggregateOf(CurrentContributions(rs)).details, b).value.sources <==>
       exists items :: (model, Mentions(items)) in rs && MentionedBy(items, b))
  {
    var groups := ArrayEntries(rs);
    LabelsOfGroups(groups, b);
    SourcesOfGroups(groups, b, model);
    if exists g :: g in groups && MentionedBy(g.1, b) {
      var g :| g in groups && MentionedBy(g.1, b);
      assert (g.0, Mentions(g.1)) in rs;
    }
    if SetMentions(rs, b) {
      var e :| e in rs && e.1.Mentions? && MentionedBy(e.1.items, b);
      assert (e.0, e.1.items) in groups;
    }
    if exists items :: (model, Mentions(items)) in rs && MentionedBy(items, b) {
      var items :| (model, Mentions(items)) in rs && MentionedBy(items, b);
      assert (model, items) in groups;
    }
  }

  /**
   * One historical result `hs[i]` with question `q` has responses in which
   * some array mentions `b`.
   */
  ghost predicate QuestionMentions(hs: seq<HistoricalResult>, q: string, b: string) {
    exists i :: 0 <= i < |hs| && hs[i].question == q && hs[i].responses.Some? && SetMentions(hs[i].responses.value, b)
  }

  /** A tagged array of the historical walk comes from a result that has responses. */
  lemma {:induction false} GroupToQuestion(hs: seq<HistoricalResult>, k: nat, b: string)
    requires k < |HistoricalResponses(hs)|
    requires MentionedBy(HistoricalResponses(hs)[k].items, b)
    ensures QuestionMentions(hs, HistoricalResponses(hs)[k].question, b)
  {
    var x := HistoricalResponses(hs)[k];
    assert x in HistoricalResponses(hs);
    var i :| 0 <= i < |hs| && x in ResponsesOf(hs[i]);
    assert (x.model, Mentions(x.items)) in hs[i].responses.value;
  }

  /** Each array of a result that has responses is a tagged array of the historical walk. */
  lemma {:induction false} QuestionToGroup(hs: seq<HistoricalResult>, i: nat, e: (string, ModelValue))
    requires i < |hs| && hs[i].responses.Some? && e in hs[i].responses.value && e.1.Mentions?
    ensures (hs[i].question, e.1.items) in QuestionArrays(HistoricalResponses(hs))
  {
    var xs := HistoricalResponses(hs);
    var x := Response(e.0, e.1.items, hs[i].question, hs[i].similarity);
    assert x in ResponsesOf(hs[i]);
    assert x in xs;
    var k :| 0 <= k < |xs| && xs[k] == x;
    assert QuestionArrays(xs)[k] == (hs[i].question, e.1.items);
  }

  /** The tagged arrays of the historical walk are the answers of the results that have responses. */
  lemma {:induction false} HistoricalGroupsMention(hs: seq<HistoricalResult>, b: string, q: string)
    ensures (exists g :: g in QuestionArrays(HistoricalResponses(hs)) && g.0 == q && MentionedBy(g.1, b))
        <==> QuestionMentions(hs, q, b)
  {
    var groups := QuestionArrays(HistoricalResponses(hs));
    if exists g :: g in groups && g.0 == q && MentionedBy(g.1, b) {
      var g :| g in groups && g.0 == q && MentionedBy(g.1, b);
      var k :| 0 <= k < |groups| && groups[k] == g;
      GroupToQuestion(hs, k, b);
    }
    if QuestionMentions(hs, q, b) {
      var i :| 0 <= i < |hs| && hs[i].question == q && hs[i].responses.Some? && SetMentions(hs[i].responses.value, b);
      var e :| e in hs[i].responses.value && e.1.Mentions? && MentionedBy(e.1.items, b);
      QuestionToGroup(hs, i, e);
    }
  }

  /**
   * The historical aggregate has an entry for a label exactly when some
   * result with responses mentions it in some array.
   */
  lemma {:induction false} HistoricalLabelsExact(hs: seq<HistoricalResult>, b: string)
    ensures Get(AggregateOf(HistoricalContributions(hs)).details, b).Some? <==>
      exists i :: 0 <= i < |hs| && hs[i].responses.Some? && SetMentions(hs[i].responses.value, b)
  {
    if Get(AggregateOf(HistoricalContributions(hs)).details, b).Some? {
      LabelHasMentioningResult(hs, b);
    }
    if exists i :: 0 <= i < |hs| && hs[i].responses.Some? && SetMentions(hs[i].responses.value, b) {
      var i :| 0 <= i < |hs| && hs[i].responses.Some? && SetMentions(hs[i].responses.value, b);
      MentioningResultHasLabel(hs, b, i);
    }
  }

  lemma {:induction false} LabelHasMentioningResult(hs: seq<HistoricalResult>, b: string)
    requires Get(AggregateOf(HistoricalContributions(hs)).details, b).Some?
    ensures exists i :: 0 <= i < |hs| && hs[i].responses.Some? && SetMentions(hs[i].responses.value, b)
  {
    var groups := QuestionArrays(HistoricalResponses(hs));
    LabelsOfGroups(groups, b);
    var g :| g in groups && MentionedBy(g.1, b);
    HistoricalGroupsMention(hs, b, g.0);
  }

  lemma {:induction false} MentioningResultHasLabel(hs: seq<HistoricalResult>, b: string, i: nat)
    requires i < |hs| && hs[i].responses.Some? && SetMentions(hs[i].responses.value, b)
    ensures Get(AggregateOf(HistoricalContributions(hs)).details, b).Some?
  {
    var groups := QuestionArrays(HistoricalResponses(hs));
    LabelsOfGroups(groups, b);
    HistoricalGroupsMention(hs, b, hs[i].question);
  }

  /**
   * The questions of a historical entry are exactly the questions of the
   * results whose responses mention the label.
   */
  lemma {:induction false} HistoricalQuestionsExact(hs: seq<HistoricalResult>, b: string, q: string)
    requires Get(AggregateOf(HistoricalContributions(hs)).details, b).Some?
    ensures q in Get(AggregateOf(HistoricalContributions(hs)).details, b).value.sources <==> QuestionMentions(hs, q, b)
  {
    var groups := QuestionArrays(HistoricalResponses(hs));
    SourcesOfGroups(groups, b, q);
    HistoricalGroupsMention(hs, b, q);
  }

  /** A previous result without `processed_responses` changes neither historical map. */
  lemma {:induction false} ResultWithoutResponsesIgnored(a: seq<HistoricalResult>, h: HistoricalResult, b: seq<HistoricalResult>)
    requires h.responses.None?
    ensures AggregateOf(HistoricalContributions(a + [h] + b)) == AggregateOf(HistoricalContributions(a + b))
  {
    ResultWithoutResponsesAddsNothing(a, h, b);
  }

  /**
   * Labels are not normalised: two mentions whose raw labels differ get
   * separate entries, even when their keys agree (as for "Nike" and "NIKE").
   */
  lemma {:induction false} RawLabelsStaySeparate(c1: Contribution, c2: Contribution)
    requires c1.brand != c2.brand
    ensures |Tallies([c1, c2])| == 2
    ensures Get(Tallies([c1, c2]), c1.brand).value.count == 1
    ensures Get(Tallies([c1, c2]), c2.brand).value.count == 1
  {
    var cs := [c1, c2];
    assert cs[..1] == [c1] && [c1][..0] == [];
    var first := GroupFold([c1], BrandOf, Fresh, Bump);
    assert first == Upsert([], c1.brand, Fresh, Bump, c1);
    assert |Keys(first)| == 1;
    assert Get(first, c2.brand).None?;
    assert Tallies(cs) == Upsert(first, c2.brand, Fresh, Bump, c2);
    assert |Keys(Tallies(cs))| == 2;
    assert Group(cs, BrandOf, c1.brand) == [c1];
    assert Group(cs, BrandOf, c2.brand) == [c2];
  }

  lemma {:induction false} NikeExample(s1: string, s2: string)
    requires s1 == "Nike" && s2 == "NIKE"
    ensures Normalize(s1) == Normalize(s2)
    ensures |Tallies([Contribution(s1, 0.5, 1, 1, "gpt"), Contribution(s2, 0.5, 1, 2, "gpt")])| == 2
  {
    KeyOfFour(s1, 'N', 'i', 'k', 'e');
    KeyOfFour(s2, 'N', 'I', 'K', 'E');
    UpperCharImage('N');
    UpperCharImage('I');
    UpperCharImage('K');
    UpperCharImage('E');
    KeyCharIsFixed('i');
    KeyCharIsFixed('k');
    KeyCharIsFixed('e');
    RawLabelsStaySeparate(Contribution(s1, 0.5, 1, 1, "gpt"), Contribution(s2, 0.5, 1, 2, "gpt"));
  }

  /** The number of mention records across the array-valued answers of the walk. */
  function ResponseLength(x: Response): int {
    |x.items|
  }

  /**
   * The current counts sum to the number of records in the array-valued
   * entries; the historical counts to the number of records in the arrays
   * of the results that have responses.
   */
  lemma {:induction false} CountsSumToRecords(rs: ResultSet, hs: seq<HistoricalResult>)
    ensures SumBy(AggregateOf(CurrentContributions(rs)).details, CountOf) == RecordCount(rs)
    ensures SumBy(AggregateOf(HistoricalContributions(hs)).details, CountOf)
         == SumBy(HistoricalResponses(hs), ResponseLength)
  {
    TalliesCountSum(CurrentContributions(rs));
    ContributionsLength(ArrayEntries(rs));
    ArrayEntriesLength(rs);
    var xs := HistoricalResponses(hs);
    TalliesCountSum(HistoricalContributions(hs));
    ContributionsLength(QuestionArrays(xs));
    SumByPointwise(QuestionArrays(xs), ArrayLength, xs, ResponseLength);
  }
}

=== FILE: assoc_lists.dfy ===
/**
 * Insertion-ordered association lists: the model of a JavaScript plain object
 * used as a dictionary (`obj[key] = value`, `Object.entries(obj)`), whose
 * entries enumerate in insertion order.
 *
 * `GroupFold` is the accumulation pattern every core loop uses: walk a stream
 * of events, and for each event look its key up, start it from an initial
 * value when it is missing, and fold the event into it.
 */
module AssocLists {
  import opened Wrappers

  type AssocList<K, V> = seq<(K, V)>

  /** No key occurs twice, as in a JavaScript object. */
  ghost predicate DistinctKeys<K, V>(a: AssocList<K, V>) {
    forall i, j :: 0 <= i < j < |a| ==> a[i].0 != a[j].0
  }

  function Keys<K, V>(a: AssocList<K, V>): (ks: seq<K>)
    ensures |ks| == |a|
    ensures forall i :: 0 <= i < |a| ==> ks[i] == a[i].0
  {
    seq(|a|, i requires 0 <= i < |a| => a[i].0)
  }

  /** The index of the first entry with key `k`, if any. */
  function Find<K(==), V>(a: AssocList<K, V>, k: K): (r: Option<nat>)
    ensures r.Some? ==> r.value < |a| && a[r.value].0 == k
    ensures r.Some? ==> forall j :: 0 <= j < r.value ==> a[j].0 != k
    ensures r.None? <==> forall j :: 0 <= j < |a| ==> a[j].0 != k
  {
    if |a| == 0 then None
    else if a[0].0 == k then Some(0)
    else match Find(a[1..], k)
      case None => None
      case Some(i) => Some(i + 1)
  }

  /** `obj[k]`, with `None` for a missing key. */
  function Get<K(==), V>(a: AssocList<K, V>, k: K): (r: Option<V>)
    ensures r.None? <==> forall j :: 0 <= j < |a| ==> a[j].0 != k
    ensures r.Some? ==> exists j :: 0 <= j < |a| && a[j] == (k, r.value)
  {
    match Find(a, k)
    case None => None
    case Some(i) => Some(a[i].1)
  }

  /** `Find` looks only at the keys of the entries before any fresh tail. */
  lemma {:induction false} FindAgrees<K, V, W>(a: AssocList<K, V>, b: AssocList<K, W>, k: K)
    requires |a| <= |b|
    requires forall j :: 0 <= j < |a| ==> b[j].0 == a[j].0
    requires forall j :: |a| <= j < |b| ==> b[j].0 != k
    ensures Find(b, k) == Find(a, k)
  {
  }

  /**
   * The `if (!obj[k]) obj[k] = init; obj[k] = step(obj[k], e)` idiom: the
   * entry for `k` is folded with `e` (started from `init` when missing, and
   * then appended at the end), and no other key changes.
   */
  function Upsert<K(==,!new), V, E>(a: AssocList<K, V>, k: K, init: V, step: (V, E) -> V, e: E): (r: AssocList<K, V>)
    ensures Get(r, k) == Some(step(Get(a, k).GetOr(init), e))
    ensures forall k' :: k' != k ==> Get(r, k') == Get(a, k')
    ensures Get(a, k).Some? ==> Keys(r) == Keys(a)
    ensures Get(a, k).None? ==> Keys(r) == Keys(a) + [k]
    ensures DistinctKeys(a) ==> DistinctKeys(r)
  {
    match Find(a, k)
    case Some(i) =>
      var r := a[i := (k, step(a[i].1, e))];
      forall k' ensures Find(r, k') == Find(a, k') {
        FindAgrees(a, r, k');
      }
      assert Keys(r) == Keys(a);
      r
    case None =>
      var r := a + [(k, step(init, e))];
      forall k' | k' != k ensures Find(r, k') == Find(a, k') {
        FindAgrees(a, r, k');
      }
      assert r[|a|].0 == k;
      assert Find(r, k) == Some(|a|);
      assert Keys(r) == Keys(a) + [k];
      r
  }

  /** The events of `es` whose key is `k`, in stream order. */
  function Group<K(==), E(!new)>(es: seq<E>, keyOf: E -> K, k: K): (g: seq<E>)
    ensures |g| <= |es|
    ensures forall e :: e in g <==> e in es && keyOf(e) == k
  {
    if |es| == 0 then []
    else
      var last := es[|es| - 1];
      Group(es[..|es| - 1], keyOf, k) + (if keyOf(last) == k then [last] else [])
  }

  /** Left fold of `step` over `xs`, starting from `init`. */
  function FoldSeq<V, E>(xs: seq<E>, init: V, step: (V, E) -> V): V {
    if |xs| == 0 then init
    else step(FoldSeq(xs[..|xs| - 1], init, step), xs[|xs| - 1])
  }

  /**
   * Accumulates a stream of events into an association list, one entry per
   * distinct key in order of first appearance. The incremental result agrees
   * with the per-key reference: the entry for `k` exists exactly when some
   * event has key `k`, and then it is the fold of that key's events alone.
   */
  function GroupFold<K(==,!new), V, E(!new)>(es: seq<E>, keyOf: E -> K, init: V, step: (V, E) -> V): (r: AssocList<K, V>)
    ensures DistinctKeys(r)
    ensures |r| <= |es|
    ensures forall k :: Get(r, k) == (if |Group(es, keyOf, k)| == 0 then None
                                      else Some(FoldSeq(Group(es, keyOf, k), init, step)))
  {
    if |es| == 0 then []
    else
      var acc := GroupFold(es[..|es| - 1], keyOf, init, step);
      var r := Upsert(acc, keyOf(es[|es| - 1]), init, step, es[|es| - 1]);
      GroupFoldStep(es, keyOf, init, step, acc, r);
      r
  }

  /** The inductive step of `GroupFold`: one more event updates only its own key. */
  lemma {:induction false} GroupFoldStep<K(!new), V, E(!new)>(es: seq<E>, keyOf: E -> K, init: V, step: (V, E) -> V,
                                               acc: AssocList<K, V>, r: AssocList<K, V>)
    requires |es| > 0
    requires forall k :: Get(acc, k) == (if |Group(es[..|es| - 1], keyOf, k)| == 0 then None
                                         else Some(FoldSeq(Group(es[..|es| - 1], keyOf, k), init, step)))
    requires r == Upsert(acc, keyOf(es[|es| - 1]), init, step, es[|es| - 1])
    ensures forall k :: Get(r, k) == (if |Group(es, keyOf, k)| == 0 then None
                                      else Some(FoldSeq(Group(es, keyOf, k), init, step)))
  {
    var prefix := es[..|es| - 1];
    var last := es[|es| - 1];
    forall k ensures Get(r, k) == (if |Group(es, keyOf, k)| == 0 then None
                                   else Some(FoldSeq(Group(es, keyOf, k), init, step)))
    {
      var g := Group(prefix, keyOf, k);
      if keyOf(last) == k {
        assert Group(es, keyOf, k) == g + [last];
        assert (g + [last])[..|g|] == g;
      } else {
        assert Group(es, keyOf, k) == g;
      }
    }
  }

  /** With distinct keys, looking up the key of entry `i` finds entry `i`. */
  lemma {:induction false} GetAt<K, V>(a: AssocList<K, V>, i: nat)
    requires DistinctKeys(a) && i < |a|
    ensures Get(a, a[i].0) == Some(a[i].1)
  {
  }

  /** Replaces every value by `f` of its entry, keeping keys and order. */
  function MapValues<K, V, W>(a: AssocList<K, V>, f: (K, V) -> W): (r: AssocList<K, W>)
    ensures |r| == |a|
    ensures forall i :: 0 <= i < |a| ==> r[i] == (a[i].0, f(a[i].0, a[i].1))
  {
    seq(|a|, i requires 0 <= i < |a| => (a[i].0, f(a[i].0, a[i].1)))
  }

  /** Mapping the values keeps every key where it was and maps its value. */
  lemma {:induction false} GetMapValues<K, V, W>(a: AssocList<K, V>, f: (K, V) -> W, k: K)
    ensures Get(MapValues(a, f), k) == if Get(a, k).Some? then Some(f(k, Get(a, k).value)) else None
  {
    FindAgrees(a, MapValues(a, f), k);
  }
}

=== FILE: charts.dfy ===
/**
 * The pie-chart data (`chartData` in `useBrandAggregation`): each count map
 * is ranked highest first, the top `maxEntries` labels are kept, and the rest
 * are lumped into one "Otros" slice when they add up to something.
 */
module Charts {
  import opened Wrappers
  import opened AssocLists
  import opened Stats
  import opened StableSort
  import opened Records
  import opened Aggregation

  /** The `type` tag of a slice. */
  datatype DataKind = Current | Historical

  /** `{name, value, type}`. */
  datatype Slice = Slice(name: string, value: int, kind: DataKind)

  /** The default and only limit the charts use. */
  const MaxEntries: nat := 5

  /** The label of the lumped slice. */
  const Others := "Otros"

  function Value(e: (string, int)): int {
    e.1
  }

  function SliceValue(s: Slice): int {
    s.value
  }

  /** The sort key that puts higher counts first. */
  function Descending(e: (string, int)): real {
    -(e.1 as real)
  }

  /**
   * `Object.entries(data).sort(([, a], [, b]) => b - a)`: a permutation of the
   * entries with non-increasing counts, where entries of equal count keep
   * their order (the sort is stable).
   */
  function Ranked(data: seq<(string, int)>): (r: seq<(string, int)>)
    ensures |r| == |data| && multiset(r) == multiset(data)
    ensures forall i, j :: 0 <= i < j < |r| ==> r[i].1 >= r[j].1
    ensures SameTies(r, data, Descending)
  {
    var r := Sort(data, Descending);
    assert forall i, j :: 0 <= i < j < |r| ==> Descending(r[i]) <= Descending(r[j]);
    r
  }

  /** How many slices `slice(0, maxEntries)` keeps. */
  function TopCount(n: nat, maxEntries: nat): (k: nat)
    ensures k <= n && k <= maxEntries
    ensures k == n || k == maxEntries
  {
    if maxEntries <= n then maxEntries else n
  }

  /** `slice(maxEntries)` of the ranked entries: what goes into "Otros". */
  function Remaining(data: seq<(string, int)>, maxEntries: nat): seq<(string, int)> {
    Ranked(data)[TopCount(|data|, maxEntries)..]
  }

  function TopSlices(ranked: seq<(string, int)>, n: nat, kind: DataKind): (r: seq<Slice>)
    requires n <= |ranked|
    ensures |r| == n
    ensures forall i :: 0 <= i < n ==> r[i] == Slice(ranked[i].0, ranked[i].1, kind)
  {
    seq(n, i requires 0 <= i < n => Slice(ranked[i].0, ranked[i].1, kind))
  }

  /**
   * `processData`: the top `maxEntries` entries by count as slices, then an
   * "Otros" slice carrying the sum of the rest exactly when that sum is
   * positive.
   */
  function ProcessData(data: seq<(string, int)>, maxEntries: nat, kind: DataKind): (r: seq<Slice>)
    ensures |r| <= maxEntries + 1
    ensures TopCount(|data|, maxEntries) <= |r| <= TopCount(|data|, maxEntries) + 1
    ensures |r| > TopCount(|data|, maxEntries) <==> SumBy(Remaining(data, maxEntries), Value) > 0
    ensures r[..TopCount(|data|, maxEntries)] == TopSlices(Ranked(data), TopCount(|data|, maxEntries), kind)
    ensures |r| > TopCount(|data|, maxEntries) ==>
      r[TopCount(|data|, maxEntries)] == Slice(Others, SumBy(Remaining(data, maxEntries), Value), kind)
  {
    var ranked := Ranked(data);
    var n := TopCount(|data|, maxEntries);
    var top := TopSlices(ranked, n, kind);
    var rest := SumBy(ranked[n..], Value);
    if rest > 0 then top + [Slice(Others, rest, kind)] else top
  }

  /**
   * The slices before "Otros" are entries of the input, in non-increasing
   * order of count.
   */
  lemma {:induction false} TopEntriesAreRanked(data: seq<(string, int)>, maxEntries: nat, kind: DataKind)
    ensures var r := ProcessData(data, maxEntries, kind);
      var n := TopCount(|data|, maxEntries);
      (forall i :: 0 <= i < n ==> (r[i].name, r[i].value) in data && r[i].kind == kind) &&
      (forall i, j :: 0 <= i < j < n ==> r[i].value >= r[j].value)
  {
    var ranked := Ranked(data);
    var n := TopCount(|data|, maxEntries);
    var r := ProcessData(data, maxEntries, kind);
    assert forall i :: 0 <= i < n ==> r[i] == Slice(ranked[i].0, ranked[i].1, kind);
    forall i | 0 <= i < n ensures (r[i].name, r[i].value) in data {
      assert ranked[i] in multiset(ranked);
    }
  }

  /** No entry left for "Otros" beats a kept one. */
  lemma {:induction false} TopEntriesAreHighest(data: seq<(string, int)>, maxEntries: nat, kind: DataKind)
    ensures var r := ProcessData(data, maxEntries, kind);
      var n := TopCount(|data|, maxEntries);
      var rest := Remaining(data, maxEntries);
      forall i, j :: 0 <= i < n && 0 <= j < |rest| ==> r[i].value >= rest[j].1
  {
    var ranked := Ranked(data);
    var n := TopCount(|data|, maxEntries);
    var r := ProcessData(data, maxEntries, kind);
    var rest := Remaining(data, maxEntries);
    forall i, j | 0 <= i < n && 0 <= j < |rest| ensures r[i].value >= rest[j].1 {
      assert r[i].value == ranked[i].1;
      assert rest[j] == ranked[n + j];
    }
  }

  /** The kept and the left entries together are exactly the input. */
  lemma {:induction false} TopAndRestAreTheInput(data: seq<(string, int)>, maxEntries: nat)
    ensures var n := TopCount(|data|, maxEntries);
      multiset(Ranked(data)[..n]) + multiset(Remaining(data, maxEntries)) == multiset(data)
  {
    var ranked := Ranked(data);
    var n := TopCount(|data|, maxEntries);
    assert ranked == ranked[..n] + ranked[n..];
  }

  /**
   * With positive counts (as every aggregate has), "Otros" is added exactly
   * when there are more than `maxEntries` labels.
   */
  lemma {:induction false} OthersIffOverflow(data: seq<(string, int)>, maxEntries: nat, kind: DataKind)
    requires forall i :: 0 <= i < |data| ==> data[i].1 >= 1
    ensures |ProcessData(data, maxEntries, kind)| == TopCount(|data|, maxEntries) + 1 <==> |data| > maxEntries
  {
    var ranked := Ranked(data);
    var n := TopCount(|data|, maxEntries);
    forall i | 0 <= i < |ranked[n..]| ensures Value(ranked[n..][i]) >= 1 {
      assert ranked[n + i] in multiset(data);
    }
    SumByAtLeastLength(ranked[n..], Value);
  }

  /**
   * With non-negative counts the slices add up to the total count: "Otros"
   * carries exactly what the top slices leave out.
   */
  lemma {:induction false} SlicesConserveTotal(data: seq<(string, int)>, maxEntries: nat, kind: DataKind)
    requires forall i :: 0 <= i < |data| ==> data[i].1 >= 0
    ensures SumBy(ProcessData(data, maxEntries, kind), SliceValue) == SumBy(data, Value)
  {
    var n := TopCount(|data|, maxEntries);
    var top := TopSlices(Ranked(data), n, kind);
    var rest := SumBy(Remaining(data, maxEntries), Value);
    RankedSplitSum(data, maxEntries, kind);
    RemainingNonNegative(data, maxEntries);
    if rest > 0 {
      assert ProcessData(data, maxEntries, kind) == top + [Slice(Others, rest, kind)];
      SumByAppend(top, [Slice(Others, rest, kind)], SliceValue);
    } else {
      assert ProcessData(data, maxEntries, kind) == top;
    }
  }

  /** The kept slices and the remaining entries together carry the whole count. */
  lemma {:induction false} RankedSplitSum(data: seq<(string, int)>, maxEntries: nat, kind: DataKind)
    ensures SumBy(TopSlices(Ranked(data), TopCount(|data|, maxEntries), kind), SliceValue)
          + SumBy(Remaining(data, maxEntries), Value) == SumBy(data, Value)
  {
    var ranked := Ranked(data);
    var n := TopCount(|data|, maxEntries);
    SumByPointwise(TopSlices(ranked, n, kind), SliceValue, ranked[..n], Value);
    assert ranked == ranked[..n] + ranked[n..];
    SumByAppend(ranked[..n], ranked[n..], Value);
    SortKeepsSum(data, Descending, Value);
  }

  lemma {:induction false} RemainingNonNegative(data: seq<(string, int)>, maxEntries: nat)
    requires forall i :: 0 <= i < |data| ==> data[i].1 >= 0
    ensures SumBy(Remaining(data, maxEntries), Value) >= 0
  {
    var ranked := Ranked(data);
    var n := TopCount(|data|, maxEntries);
    forall i | 0 <= i < |ranked[n..]| ensures Value(ranked[n..][i]) >= 0 {
      assert ranked[n + i] in multiset(data);
    }
    SumByNonNegative(ranked[n..], Value);
  }

  /** Entries already in non-increasing order of count are ranked as they stand. */
  lemma {:induction false} RankedKeepsOrdered(data: seq<(string, int)>)
    requires forall i :: 0 < i < |data| ==> data[i - 1].1 >= data[i].1
    ensures Ranked(data) == data
  {
    SortedByNeighbours(data, Descending);
    SortSortedIsIdentity(data, Descending);
  }

  lemma {:induction false} SumOfTwo(x: (string, int), y: (string, int))
    ensures SumBy([x, y], Value) == x.1 + y.1
  {
    assert [y][1..] == [];
    assert SumBy([y], Value) == y.1;
    assert [x, y][1..] == [y];
  }

  /**
   * Seven labels counted 10, 9, 8, 7, 6, 3 and 1: five slices in that order
   * and "Otros" with 3 + 1 = 4.
   */
  lemma {:induction false} SevenLabelsExample(a: string, b: string, c: string, d: string, e: string, f: string, g: string,
                                              data: seq<(string, int)>)
    requires data == [(a, 10), (b, 9), (c, 8), (d, 7), (e, 6), (f, 3), (g, 1)]
    ensures ProcessData(data, MaxEntries, Current)
         == [Slice(a, 10, Current), Slice(b, 9, Current), Slice(c, 8, Current),
             Slice(d, 7, Current), Slice(e, 6, Current), Slice(Others, 4, Current)]
  {
    SevenLabelsRanked(a, b, c, d, e, f, g, data);
    SevenLabelsTop(a, b, c, d, e, f, g, data);
    assert ProcessData(data, MaxEntries, Current) == TopSlices(data, 5, Current) + [Slice(Others, 4, Current)];
  }

  lemma {:induction false} SevenLabelsTop(a: string, b: string, c: string, d: string, e: string, f: string, g: string,
                                          data: seq<(string, int)>)
    requires data == [(a, 10), (b, 9), (c, 8), (d, 7), (e, 6), (f, 3), (g, 1)]
    ensures TopSlices(data, 5, Current)
         == [Slice(a, 10, Current), Slice(b, 9, Current), Slice(c, 8, Current),
             Slice(d, 7, Current), Slice(e, 6, Current)]
  {
  }

  lemma {:induction false} SevenLabelsRanked(a: string, b: string, c: string, d: string, e: string, f: string, g: string,
                                             data: seq<(string, int)>)
    requires data == [(a, 10), (b, 9), (c, 8), (d, 7), (e, 6), (f, 3), (g, 1)]
    ensures Ranked(data) == data
    ensures SumBy(Remaining(data, MaxEntries), Value) == 4
  {
    SevenLabelsOrdered(a, b, c, d, e, f, g, data);
    RankedKeepsOrdered(data);
    SevenLabelsRest(a, b, c, d, e, f, g, data);
  }

  lemma {:induction false} SevenLabelsOrdered(a: string, b: string, c: string, d: string, e: string, f: string, g: string,
                                              data: seq<(string, int)>)
    requires data == [(a, 10), (b, 9), (c, 8), (d, 7), (e, 6), (f, 3), (g, 1)]
    ensures forall i :: 0 < i < |data| ==> data[i - 1].1 >= data[i].1
  {
  }

  lemma {:induction false} SevenLabelsRest(a: string, b: string, c: string, d: string, e: string, f: string, g: string,
                                           data: seq<(string, int)>)
    requires data == [(a, 10), (b, 9), (c, 8), (d, 7), (e, 6), (f, 3), (g, 1)]
    requires Ranked(data) == data
    ensures SumBy(Remaining(data, MaxEntries), Value) == 4
  {
    assert Remaining(data, MaxEntries) == [(f, 3), (g, 1)];
    SumOfTwo((f, 3), (g, 1));
  }

  /** Both lists of slices; both empty when there is no aggregation. */
  datatype ChartData = ChartData(current: seq<Slice>, historical: seq<Slice>)

  /**
   * The `chartData` memo: no slices without an aggregation; otherwise at most
   * six per chart, tagged with their chart.
   */
  function ChartDataOf(agg: Option<BrandAggregation>): (r: ChartData)
    ensures agg.None? ==> r.current == [] && r.historical == []
    ensures |r.current| <= MaxEntries + 1 && |r.historical| <= MaxEntries + 1
    ensures forall i :: 0 <= i < |r.current| ==> r.current[i].kind == Current
    ensures forall i :: 0 <= i < |r.historical| ==> r.historical[i].kind == Historical
  {
    match agg
    case None => ChartData([], [])
    case Some(a) =>
      var cur := ProcessData(a.current.counts, MaxEntries, Current);
      var hist := ProcessData(a.historical.counts, MaxEntries, Historical);
      KindsAreTagged(a.current.counts, MaxEntries, Current);
      KindsAreTagged(a.historical.counts, MaxEntries, Historical);
      ChartData(cur, hist)
  }

  lemma {:induction false} KindsAreTagged(data: seq<(string, int)>, maxEntries: nat, kind: DataKind)
    ensures forall i :: 0 <= i < |ProcessData(data, maxEntries, kind)| ==> ProcessData(data, maxEntries, kind)[i].kind == kind
  {
  }

  /** The counts of an aggregate sum like its details' counts, and are positive. */
  lemma {:induction false} CountsOfAggregate(cs: seq<Contribution>)
    ensures SumBy(AggregateOf(cs).counts, Value) == SumBy(AggregateOf(cs).details, CountOf)
    ensures forall i :: 0 <= i < |AggregateOf(cs).counts| ==> AggregateOf(cs).counts[i].1 >= 1
  {
    var a := AggregateOf(cs);
    AggregateConsistent(cs);
    SumByPointwise(a.counts, Value, a.details, CountOf);
  }

  /**
   * End to end: the current chart's slices add up to the number of mention
   * records in the current result's arrays, and the historical chart's to
   * the number in the previous results' arrays.
   */
  lemma {:induction false} ChartsCountEveryRecord(current: Option<ResultSet>, hs: seq<HistoricalResult>, brand: string)
    requires Aggregated(current, hs, brand).Some?
    ensures SumBy(ChartDataOf(Aggregated(current, hs, brand)).current, SliceValue) == RecordCount(current.GetOr([]))
    ensures SumBy(ChartDataOf(Aggregated(current, hs, brand)).historical, SliceValue)
         == SumBy(HistoricalResponses(hs), ResponseLength)
  {
    var rs := current.GetOr([]);
    var a := Aggregated(current, hs, brand).value;
    assert CurrentContributions([]) == [] by {
      assert ArrayEntries([]) == [];
    }
    assert a.current == AggregateOf(CurrentContributions(rs));
    CountsOfAggregate(CurrentContributions(rs));
    CountsOfAggregate(HistoricalContributions(hs));
    CountsSumToRecords(rs, hs);
    SlicesConserveTotal(a.current.counts, MaxEntries, Current);
    SlicesConserveTotal(a.historical.counts, MaxEntries, Historical);
  }

  /** In either chart, "Otros" appears exactly when more than five labels were counted. */
  lemma {:induction false} ChartsOthersIffMoreThanFive(current: Option<ResultSet>, hs: seq<HistoricalResult>, brand: string)
    requires Aggregated(current, hs, brand).Some?
    ensures var agg := Aggregated(current, hs, brand).value;
      (|ChartDataOf(Some(agg)).current| == MaxEntries + 1 <==> |agg.current.counts| > MaxEntries) &&
      (|ChartDataOf(Some(agg)).historical| == MaxEntries + 1 <==> |agg.historical.counts| > MaxEntries)
  {
    var agg := Aggregated(current, hs, brand).value;
    var cs := if current.Some? then CurrentContributions(current.value) else [];
    assert agg.current == AggregateOf(cs);
    CountsOfAggregate(cs);
    CountsOfAggregate(HistoricalContributions(hs));
    OthersIffOverflow(agg.current.counts, MaxEntries, Current);
    OthersIffOverflow(agg.historical.counts, MaxEntries, Historical);
  }
}

=== FILE: focus.dfy ===
/**
 * What `BrandFocusAnalysis` computes before it renders, for one brand typed
 * by the user: per-model match statistics for the current result and for
 * the previous results, the flat lists of matches, the historical averages,
 * the similarity trend and the model comparison. Unlike the aggregation,
 * every lookup here goes through `findBrandInList`, so a label matches by
 * its normalised key and each model answer contributes at most its first
 * match.
 */
module Focus {
  import opened Wrappers
  import opened AssocLists
  import opened Stats
  import opened StableSort
  import opened Records
  import opened Normalization
  import Aggregation

  // ----- shared shapes -----

  /** `{totalMentions, brandMentions, brandMentionPercentage}` of one model. */
  datatype ModelStats = ModelStats(totalMentions: int, brandMentions: int, percentage: real)

  /** One entry of `currentBrandData`. */
  datatype CurrentMatch = CurrentMatch(model: string, position: int, sentiment: real, linkCount: int,
                                       totalMentions: int, percentage: real)

  /** One entry of `historicalBrandData`. */
  datatype HistoricalMatch = HistoricalMatch(model: string, position: int, sentiment: real, linkCount: int,
                                             question: string, similarity: real,
                                             totalMentions: int, percentage: real)

  /** `historicalAggregation`: the running totals over the historical matches. */
  datatype Summary = Summary(totalMentions: nat, totalSentiment: real, totalLinks: int,
                             positions: seq<int>, questions: set<string>)

  /** One point of `historicalTrendData`; the similarity is scaled to a percentage. */
  datatype TrendPoint = TrendPoint(index: int, position: int, sentiment: real, similarity: real)

  /** One entry of `modelComparisonData`. */
  datatype Comparison = Comparison(model: string, mentionPercentage: real, totalMentions: int, brandMentions: int)

  /** Everything the view derives from its three props. */
  datatype Analysis = Analysis(
    target: string,
    currentStats: AssocList<string, ModelStats>,
    currentMatches: seq<CurrentMatch>,
    historicalStats: AssocList<string, ModelStats>,
    historicalMatches: seq<HistoricalMatch>,
    summary: Summary,
    avgPosition: real,
    avgSentiment: real,
    avgLinks: real,
    trend: seq<TrendPoint>,
    comparison: seq<Comparison>,
    noData: bool)

  /** The present images of `xs` under `f`, in order. */
  function FilterMap<A(!new), B(!new)>(xs: seq<A>, f: A -> Option<B>): (r: seq<B>)
    ensures |r| <= |xs|
    ensures forall y :: y in r <==> exists x :: x in xs && f(x) == Some(y)
  {
    if |xs| == 0 then []
    else
      assert forall x :: x in xs <==> x == xs[0] || x in xs[1..] by {
        assert xs == [xs[0]] + xs[1..];
      }
      (if f(xs[0]).Some? then [f(xs[0]).value] else []) + FilterMap(xs[1..], f)
  }

  /** A filter-map keeps the order of its input: it distributes over concatenation. */
  lemma {:induction false} FilterMapAppend<A(!new), B(!new)>(xs: seq<A>, ys: seq<A>, f: A -> Option<B>)
    ensures FilterMap(xs + ys, f) == FilterMap(xs, f) + FilterMap(ys, f)
  {
    if |xs| == 0 {
      assert xs + ys == ys;
    } else {
      assert (xs + ys)[0] == xs[0];
      assert (xs + ys)[1..] == xs[1..] + ys;
      FilterMapAppend(xs[1..], ys, f);
    }
  }

  /** When `f` keeps the key of what it maps, distinct keys stay distinct. */
  lemma {:induction false} FilterMapKeepsDistinct<A(!new), B(!new), K>(xs: seq<A>, f: A -> Option<B>, ka: A -> K, kb: B -> K)
    requires forall x :: f(x).Some? ==> kb(f(x).value) == ka(x)
    requires forall i, j :: 0 <= i < j < |xs| ==> ka(xs[i]) != ka(xs[j])
    ensures forall i, j :: 0 <= i < j < |FilterMap(xs, f)| ==> kb(FilterMap(xs, f)[i]) != kb(FilterMap(xs, f)[j])
  {
    if |xs| > 0 {
      var rest := FilterMap(xs[1..], f);
      FilterMapKeepsDistinct(xs[1..], f, ka, kb);
      forall y | y in rest ensures kb(y) != ka(xs[0]) {
        var x :| x in xs[1..] && f(x) == Some(y);
        var j :| 0 <= j < |xs[1..]| && xs[1..][j] == x;
        assert xs[j + 1] == x;
      }
      if f(xs[0]).Some? {
        var r := FilterMap(xs, f);
        assert r == [f(xs[0]).value] + rest;
        forall i, j | 0 <= i < j < |r| ensures kb(r[i]) != kb(r[j]) {
          assert r[j] == rest[j - 1];
          if i > 0 {
            assert r[i] == rest[i - 1];
          }
        }
      }
    }
  }

  /** A match found by the normalised lookup can only come from a non-empty answer. */
  lemma {:induction false} FoundAnswerIsNonEmpty(items: seq<Mention>, target: string)
    requires FindBrand(items, target).Some?
    ensures |items| > 0
  {
    FoundInNonEmpty(items, target);
  }

  /** The trimmed target matches exactly what the untrimmed brand would. */
  lemma {:induction false} TrimDoesNotChangeMatches(items: seq<Mention>, brand: string)
    ensures FindBrand(items, Trim(brand)) == FindBrand(items, brand)
  {
    NormalizeIgnoresTrim(brand);
  }

  // ----- current result -----

  /** Some record of `items` has the normalised key of `target`. */
  ghost predicate HasMatch(items: seq<Mention>, target: string) {
    exists j :: 0 <= j < |items| && Normalize(items[j].brand) == Normalize(target)
  }

  /** `findBrandInList` finds something exactly when some record matches. */
  lemma {:induction false} FoundIffMatch(items: seq<Mention>, target: string)
    ensures FindBrand(items, target).Some? <==> HasMatch(items, target)
  {
  }

  /**
   * The statistics of one array-valued model answer: its length, whether it
   * has a match (0 or 1, never more), and the share of that one match.
   */
  function CurrentStatsOf(items: seq<Mention>, target: string): (s: ModelStats)
    ensures s.totalMentions == |items|
    ensures s.brandMentions == 0 || s.brandMentions == 1
    ensures s.brandMentions == 1 <==> HasMatch(items, target)
    ensures s.brandMentions == 1 ==> |items| > 0 && s.percentage == Percent(1, |items|)
    ensures s.brandMentions == 0 ==> s.percentage == 0.0
  {
    FoundIffMatch(items, target);
    if FindBrand(items, target).Some? then
      FoundAnswerIsNonEmpty(items, target);
      ModelStats(|items|, 1, Percent(1, |items|))
    else
      ModelStats(|items|, 0, 0.0)
  }

  function EntryModel(e: (string, seq<Mention>)): string {
    e.0
  }

  /**
   * `currentModelStats`: every array-valued model answer stores its
   * statistics under its model name, a later answer for the same name
   * replacing an earlier one. A model has an entry exactly when it has an
   * array-valued answer, and the entry is the statistics of one of them.
   * The component computes this object but never renders or reads it again.
   */
  function CurrentStats(rs: ResultSet, target: string): (r: AssocList<string, ModelStats>)
    ensures DistinctKeys(r)
    ensures forall m :: Get(r, m).Some? <==> exists items :: (m, Mentions(items)) in rs
    ensures forall m :: Get(r, m).Some? ==>
      exists items :: (m, Mentions(items)) in rs && Get(r, m).value == CurrentStatsOf(items, target)
  {
    var step := (s: ModelStats, e: (string, seq<Mention>)) => CurrentStatsOf(e.1, target);
    var r := GroupFold(ArrayEntries(rs), EntryModel, ModelStats(0, 0, 0.0), step);
    forall m ensures Get(r, m).Some? <==> exists items :: (m, Mentions(items)) in rs {
      OverwriteKeys(rs, target, step, m);
    }
    forall m | Get(r, m).Some?
      ensures exists items :: (m, Mentions(items)) in rs && Get(r, m).value == CurrentStatsOf(items, target)
    {
      OverwriteValue(rs, target, step, m);
    }
    r
  }

  /** The keys of the overwriting fold are the models with an array-valued answer. */
  lemma {:induction false} OverwriteKeys(rs: ResultSet, target: string,
                                          step: (ModelStats, (string, seq<Mention>)) -> ModelStats, m: string)
    ensures Get(GroupFold(ArrayEntries(rs), EntryModel, ModelStats(0, 0, 0.0), step), m).Some?
        <==> exists items :: (m, Mentions(items)) in rs
  {
    var es := ArrayEntries(rs);
    var g := Group(es, EntryModel, m);
    if exists items :: (m, Mentions(items)) in rs {
      var items :| (m, Mentions(items)) in rs;
      assert (m, items) in g;
    }
    if |g| > 0 {
      assert g[0] in g;
      assert (m, Mentions(g[0].1)) in rs;
    }
  }

  /** The overwriting fold keeps, for each model, the statistics of its last answer. */
  lemma {:induction false} OverwriteValue(rs: ResultSet, target: string,
                                           step: (ModelStats, (string, seq<Mention>)) -> ModelStats, m: string)
    requires forall s, e :: step(s, e) == CurrentStatsOf(e.1, target)
    requires Get(GroupFold(ArrayEntries(rs), EntryModel, ModelStats(0, 0, 0.0), step), m).Some?
    ensures exists items :: (m, Mentions(items)) in rs &&
                            Get(GroupFold(ArrayEntries(rs), EntryModel, ModelStats(0, 0, 0.0), step), m).value
                            == CurrentStatsOf(items, target)
  {
    var es := ArrayEntries(rs);
    var g := Group(es, EntryModel, m);
    var e := g[|g| - 1];
    assert e in g;
    assert (m, Mentions(e.1)) in rs;
  }

  /** In a result whose model names are distinct, a name carries one value. */
  lemma {:induction false} ModelsUnique(rs: ResultSet, m: string, v1: ModelValue, v2: ModelValue)
    requires DistinctKeys(rs)
    requires (m, v1) in rs && (m, v2) in rs
    ensures v1 == v2
  {
    var i :| 0 <= i < |rs| && rs[i] == (m, v1);
    var j :| 0 <= j < |rs| && rs[j] == (m, v2);
    assert i == j;
  }

  /** For a result with distinct model names, each model's entry is the statistics of its own answer. */
  lemma {:induction false} CurrentStatsExact(rs: ResultSet, target: string, m: string, items: seq<Mention>)
    requires DistinctKeys(rs)
    requires (m, Mentions(items)) in rs
    ensures Get(CurrentStats(rs, target), m) == Some(CurrentStatsOf(items, target))
  {
    var r := CurrentStats(rs, target);
    var other :| (m, Mentions(other)) in rs && Get(r, m).value == CurrentStatsOf(other, target);
    ModelsUnique(rs, m, Mentions(items), Mentions(other));
  }

  /**
   * The entry `currentBrandData` gets for one array-valued model answer: one
   * exactly when the answer has a match, carrying the position, sentiment
   * and link count of the first matching mention, the answer's length and
   * the one match's share of it.
   */
  function CurrentEntry(e: (string, seq<Mention>), target: string): (r: Option<CurrentMatch>)
    ensures r.Some? <==> HasMatch(e.1, target)
    ensures r.Some? ==> |e.1| > 0 && FindBrand(e.1, target).Some?
    ensures r.Some? ==>
      var m := FindBrand(e.1, target).value;
      r.value.model == e.0 && r.value.position == m.position && r.value.sentiment == m.sentiment
      && r.value.linkCount == m.linkCount && r.value.totalMentions == |e.1|
      && r.value.percentage == Percent(1, |e.1|)
  {
    FoundIffMatch(e.1, target);
    match FindBrand(e.1, target)
    case None => None
    case Some(m) =>
      FoundAnswerIsNonEmpty(e.1, target);
      Some(CurrentMatch(e.0, m.position, m.sentiment, m.linkCount, |e.1|, Percent(1, |e.1|)))
  }

  /** `currentBrandData`: one entry per array-valued model answer that has a match, in model order. */
  function CurrentMatches(rs: ResultSet, target: string): (r: seq<CurrentMatch>)
    ensures |r| <= |rs|
    ensures forall x :: x in r <==> exists e :: e in ArrayEntries(rs) && CurrentEntry(e, target) == Some(x)
  {
    FilterMap(ArrayEntries(rs), e => CurrentEntry(e, target))
  }

  /**
   * `currentBrandData` follows the model order of the result: the entries of
   * a concatenation are those of the first part, then those of the second.
   */
  lemma {:induction false} CurrentMatchesAppend(a: ResultSet, b: ResultSet, target: string)
    ensures CurrentMatches(a + b, target) == CurrentMatches(a, target) + CurrentMatches(b, target)
  {
    ArrayEntriesAppend(a, b);
    FilterMapAppend(ArrayEntries(a), ArrayEntries(b), e => CurrentEntry(e, target));
  }

  /**
   * One model entry adds one record to `currentBrandData` exactly when its
   * value is an array with a match, and nothing otherwise.
   */
  lemma {:induction false} CurrentMatchesOfOne(m: string, v: ModelValue, target: string)
    ensures CurrentMatches([(m, v)], target)
      == if v.Mentions? && HasMatch(v.items, target) then [CurrentEntry((m, v.items), target).value] else []
  {
    var rs := [(m, v)];
    assert rs[1..] == [];
    var es := ArrayEntries(rs);
    var f := e => CurrentEntry(e, target);
    if v.Mentions? {
      assert es == [(m, v.items)] + ArrayEntries([]);
      assert es[1..] == [];
      assert FilterMap(es, f) == (if f(es[0]).Some? then [f(es[0]).value] else []) + FilterMap(es[1..], f);
    } else {
      assert es == [] + ArrayEntries([]);
    }
  }

  /**
   * A model appears in `currentBrandData` exactly when its statistics record
   * one brand mention.
   */
  lemma {:induction false} MatchedModelsAreListed(rs: ResultSet, target: string, m: string)
    requires DistinctKeys(rs)
    ensures (exists x :: x in CurrentMatches(rs, target) && x.model == m) <==>
            Get(CurrentStats(rs, target), m).Some? && Get(CurrentStats(rs, target), m).value.brandMentions == 1
  {
    if exists x :: x in CurrentMatches(rs, target) && x.model == m {
      var x :| x in CurrentMatches(rs, target) && x.model == m;
      ListedModelMatched(rs, target, x);
    }
    if Get(CurrentStats(rs, target), m).Some? && Get(CurrentStats(rs, target), m).value.brandMentions == 1 {
      MatchedModelListed(rs, target, m);
    }
  }

  lemma {:induction false} ListedModelMatched(rs: ResultSet, target: string, x: CurrentMatch)
    requires DistinctKeys(rs)
    requires x in CurrentMatches(rs, target)
    ensures Get(CurrentStats(rs, target), x.model).Some?
    ensures Get(CurrentStats(rs, target), x.model).value.brandMentions == 1
  {
    var e :| e in ArrayEntries(rs) && CurrentEntry(e, target) == Some(x);
    CurrentStatsExact(rs, target, x.model, e.1);
    FoundIffMatch(e.1, target);
  }

  lemma {:induction false} MatchedModelListed(rs: ResultSet, target: string, m: string)
    requires DistinctKeys(rs)
    requires Get(CurrentStats(rs, target), m).Some? && Get(CurrentStats(rs, target), m).value.brandMentions == 1
    ensures exists x :: x in CurrentMatches(rs, target) && x.model == m
  {
    var items :| (m, Mentions(items)) in rs && Get(CurrentStats(rs, target), m).value == CurrentStatsOf(items, target);
    assert (m, items) in ArrayEntries(rs);
    FoundIffMatch(items, target);
    var x := CurrentEntry((m, items), target).value;
    assert x in CurrentMatches(rs, target);
  }

  /** The array-valued entries of a result with distinct model names have distinct names. */
  lemma {:induction false} ArrayEntriesDistinct(rs: ResultSet)
    requires DistinctKeys(rs)
    ensures DistinctKeys(ArrayEntries(rs))
  {
    if |rs| > 0 {
      var rest := ArrayEntries(rs[1..]);
      assert DistinctKeys(rs[1..]);
      ArrayEntriesDistinct(rs[1..]);
      forall e | e in rest ensures e.0 != rs[0].0 {
        var j :| 0 <= j < |rs[1..]| && rs[1..][j] == (e.0, Mentions(e.1));
        assert rs[j + 1].0 == e.0;
      }
      var r := ArrayEntries(rs);
      if rs[0].1.Mentions? {
        forall i, j | 0 <= i < j < |r| ensures r[i].0 != r[j].0 {
          assert r[j] == rest[j - 1];
          if i > 0 {
            assert r[i] == rest[i - 1];
          }
        }
      }
    }
  }

  /** No model appears twice in `currentBrandData` when the result's model names are distinct. */
  lemma {:induction false} CurrentMatchModelsDistinct(rs: ResultSet, target: string)
    requires DistinctKeys(rs)
    ensures forall i, j :: 0 <= i < j < |CurrentMatches(rs, target)| ==>
      CurrentMatches(rs, target)[i].model != CurrentMatches(rs, target)[j].model
  {
    ArrayEntriesDistinct(rs);
    var es := ArrayEntries(rs);
    var f := e => CurrentEntry(e, target);
    var ka := (e: (string, seq<Mention>)) => e.0;
    var kb := (x: CurrentMatch) => x.model;
    assert forall i, j :: 0 <= i < j < |es| ==> ka(es[i]) != ka(es[j]);
    FilterMapKeepsDistinct(es, f, ka, kb);
    assert CurrentMatches(rs, target) == FilterMap(es, f);
  }

  // ----- previous results -----

  function ResponseModel(x: Response): string {
    x.model
  }

  function ResponseSize(x: Response): int {
    |x.items|
  }

  /** 1 when the answer has a match for `target`, else 0. */
  function Hit(x: Response, target: string): nat {
    if FindBrand(x.items, target).Some? then 1 else 0
  }

  /** The number of answers in `xs` that have a match for `target`. */
  function MatchedAnswers(xs: seq<Response>, target: string): nat {
    if |xs| == 0 then 0 else Hit(xs[0], target) + MatchedAnswers(xs[1..], target)
  }

  lemma {:induction false} MatchedAnswersAppend(a: seq<Response>, b: seq<Response>, target: string)
    ensures MatchedAnswers(a + b, target) == MatchedAnswers(a, target) + MatchedAnswers(b, target)
  {
    if |a| == 0 {
      assert a + b == b;
    } else {
      assert (a + b)[1..] == a[1..] + b;
      MatchedAnswersAppend(a[1..], b, target);
    }
  }

  /** Only a non-empty answer can match, so matched answers never outnumber records. */
  lemma {:induction false} MatchedAtMostRecords(xs: seq<Response>, target: string)
    ensures MatchedAnswers(xs, target) <= SumBy(xs, ResponseSize)
  {
    if |xs| > 0 {
      MatchedAtMostRecords(xs[1..], target);
      if FindBrand(xs[0].items, target).Some? {
        FoundAnswerIsNonEmpty(xs[0].items, target);
      }
    }
  }

  /**
   * One historical answer of a model: its length is added to the model's
   * `totalMentions` (never reset between results), and a match adds one
   * to `brandMentions`; the percentage is left for the final pass.
   */
  function CountAnswer(s: ModelStats, x: Response, target: string): ModelStats {
    ModelStats(s.totalMentions + |x.items|,
               s.brandMentions + Hit(x, target),
               s.percentage)
  }

  const Zero := ModelStats(0, 0, 0.0)

  /** Folding the answers of one model sums their lengths and counts their matches. */
  lemma {:induction false} CountAnswersFold(g: seq<Response>, target: string, step: (ModelStats, Response) -> ModelStats)
    requires forall s, x :: step(s, x) == CountAnswer(s, x, target)
    ensures FoldSeq(g, Zero, step) == ModelStats(SumBy(g, ResponseSize), MatchedAnswers(g, target), 0.0)
  {
    CountedRecords(g, target, step);
    CountedMatches(g, target, step);
    CountedPercentage(g, target, step);
  }

  lemma {:induction false} CountedRecords(g: seq<Response>, target: string, step: (ModelStats, Response) -> ModelStats)
    requires forall s, x :: step(s, x) == CountAnswer(s, x, target)
    ensures FoldSeq(g, Zero, step).totalMentions == SumBy(g, ResponseSize)
  {
    if |g| > 0 {
      var front, last := g[..|g| - 1], g[|g| - 1];
      CountedRecords(front, target, step);
      assert g == front + [last];
      assert FoldSeq(g, Zero, step) == CountAnswer(FoldSeq(front, Zero, step), last, target);
      SumByAppend(front, [last], ResponseSize);
      assert SumBy([last], ResponseSize) == |last.items|;
    }
  }

  lemma {:induction false} CountedMatches(g: seq<Response>, target: string, step: (ModelStats, Response) -> ModelStats)
    requires forall s, x :: step(s, x) == CountAnswer(s, x, target)
    ensures FoldSeq(g, Zero, step).brandMentions == MatchedAnswers(g, target)
  {
    if |g| > 0 {
      var front, last := g[..|g| - 1], g[|g| - 1];
      CountedMatches(front, target, step);
      assert g == front + [last];
      assert FoldSeq(g, Zero, step) == CountAnswer(FoldSeq(front, Zero, step), last, target);
      MatchedAnswersAppend(front, [last], target);
      assert MatchedAnswers([last], target) == Hit(last, target);
    }
  }

  lemma {:induction false} CountedPercentage(g: seq<Response>, target: string, step: (ModelStats, Response) -> ModelStats)
    requires forall s, x :: step(s, x) == CountAnswer(s, x, target)
    ensures FoldSeq(g, Zero, step).percentage == 0.0
  {
    if |g| > 0 {
      var front, last := g[..|g| - 1], g[|g| - 1];
      CountedPercentage(front, target, step);
      assert FoldSeq(g, Zero, step) == CountAnswer(FoldSeq(front, Zero, step), last, target);
    }
  }

  /**
   * `brandMentions / totalMentions * 100` when the model had any records;
   * a model without records keeps the percentage it started with. From a
   * running entry (no more matches than records, percentage 0) the result
   * lies in [0, 100].
   */
  function Finish(m: string, s: ModelStats): (r: ModelStats)
    ensures r.totalMentions == s.totalMentions && r.brandMentions == s.brandMentions
    ensures s.totalMentions > 0 ==> r.percentage == Percent(s.brandMentions, s.totalMentions)
    ensures s.totalMentions <= 0 ==> r.percentage == s.percentage
  {
    if s.totalMentions > 0 then
      s.(percentage := Percent(s.brandMentions, s.totalMentions))
    else s
  }

  /**
   * The final pass on a running entry (no more matches than records,
   * percentage still 0) gives a percentage in [0, 100] that is 0 exactly
   * when nothing matched and 100 exactly when the matched answers equal the
   * records, i.e. every non-empty answer the model gave is a single matching
   * record; empty answers add to neither count. An answer `[m, m]` matches
   * once over two records and so gives 50 (`RepeatedMentionGivesFifty`),
   * while `[m]` beside `[]` gives 100 (`EmptyAnswerKeepsFullPercentage`).
   */
  lemma {:induction false} FinishedPercentage(m: string, s: ModelStats)
    requires 0 <= s.brandMentions <= s.totalMentions && s.percentage == 0.0
    ensures 0.0 <= Finish(m, s).percentage <= 100.0
    ensures Finish(m, s).percentage == 0.0 <==> s.brandMentions == 0
    ensures Finish(m, s).percentage == 100.0 <==> 0 < s.brandMentions == s.totalMentions
  {
    if s.totalMentions > 0 {
      var p, n, k := Finish(m, s).percentage, s.totalMentions as real, s.brandMentions as real;
      assert p * n == k * 100.0;
      if p == 0.0 {
        assert k * 100.0 == 0.0;
      }
      if p == 100.0 {
        assert 100.0 * n == k * 100.0;
      }
      if k == n {
        assert (p - 100.0) * n == 0.0;
      }
    }
  }

  /** One answer naming the brand twice is one match over two records: 50. */
  lemma {:induction false} RepeatedMentionGivesFifty(model: string, m: Mention, q: string, sim: real)
    ensures var xs := [Response(model, [m, m], q, sim)];
      SumBy(xs, ResponseSize) == 2 && MatchedAnswers(xs, m.brand) == 1 &&
      Finish(model, ModelStats(SumBy(xs, ResponseSize), MatchedAnswers(xs, m.brand), 0.0)).percentage == 50.0
  {
    var xs := [Response(model, [m, m], q, sim)];
    assert FindBrand([m, m], m.brand).Some?;
    assert xs[1..] == [];
    assert SumBy(xs, ResponseSize) == 2;
  }

  /** An empty answer beside a single matching one adds to neither count: 100. */
  lemma {:induction false} EmptyAnswerKeepsFullPercentage(model: string, m: Mention, q1: string, s1: real, q2: string, s2: real)
    ensures var xs := [Response(model, [m], q1, s1), Response(model, [], q2, s2)];
      SumBy(xs, ResponseSize) == 1 && MatchedAnswers(xs, m.brand) == 1 &&
      Finish(model, ModelStats(SumBy(xs, ResponseSize), MatchedAnswers(xs, m.brand), 0.0)).percentage == 100.0
  {
    var xs := [Response(model, [m], q1, s1), Response(model, [], q2, s2)];
    assert FindBrand([m], m.brand).Some?;
    assert FindBrand([], m.brand).None?;
    var rest := [Response(model, [], q2, s2)];
    assert xs[1..] == rest && rest[1..] == [];
    assert SumBy(rest, ResponseSize) == 0 && MatchedAnswers(rest, m.brand) == 0;
    assert SumBy(xs, ResponseSize) == 1 && MatchedAnswers(xs, m.brand) == 1;
    FinishedPercentage(model, ModelStats(1, 1, 0.0));
  }

  /**
   * `k / n * 100`: the percentage `k` is of `n`, which times `n` gives
   * `k` hundredfold, and lies in [0, 100] when `0 <= k <= n`.
   */
  function Percent(k: int, n: int): (p: real)
    requires n > 0
    ensures p * (n as real) == (k as real) * 100.0
    ensures 0 <= k <= n ==> 0.0 <= p <= 100.0
  {
    var q := k as real / n as real;
    assert q * (n as real) == k as real;
    assert 0 <= k <= n ==> q <= 1.0;
    q * 100.0
  }

  /**
   * `historicalModelStats` before the final pass: one entry per model that
   * answered in some previous result with responses, holding the number of
   * records over all that model's answers and the number of those answers
   * with a match.
   */
  function RunningStats(hs: seq<HistoricalResult>, target: string): (r: AssocList<string, ModelStats>)
    ensures DistinctKeys(r)
    ensures forall m :: Get(r, m).Some? <==> exists x :: x in HistoricalResponses(hs) && x.model == m
    ensures forall m :: Get(r, m).Some? ==>
      Get(r, m).value == ModelStats(SumBy(Group(HistoricalResponses(hs), ResponseModel, m), ResponseSize),
                                    MatchedAnswers(Group(HistoricalResponses(hs), ResponseModel, m), target), 0.0)
  {
    var xs := HistoricalResponses(hs);
    var step := (s: ModelStats, x: Response) => CountAnswer(s, x, target);
    var r := GroupFold(xs, ResponseModel, Zero, step);
    forall m ensures Get(r, m).Some? <==> exists x :: x in xs && x.model == m {
      var g := Group(xs, ResponseModel, m);
      if |g| > 0 {
        assert g[0] in g;
      }
    }
    forall m | Get(r, m).Some?
      ensures Get(r, m).value == ModelStats(SumBy(Group(xs, ResponseModel, m), ResponseSize),
                                            MatchedAnswers(Group(xs, ResponseModel, m), target), 0.0)
    {
      CountAnswersFold(Group(xs, ResponseModel, m), target, step);
    }
    r
  }

  /** Every running entry has no more matched answers than records, and percentage 0. */
  lemma {:induction false} RunningEntry(hs: seq<HistoricalResult>, target: string, i: nat)
    requires i < |RunningStats(hs, target)|
    ensures var s := RunningStats(hs, target)[i].1;
      0 <= s.brandMentions <= s.totalMentions && s.percentage == 0.0
  {
    var r := RunningStats(hs, target);
    GetAt(r, i);
    MatchedAtMostRecords(Group(HistoricalResponses(hs), ResponseModel, r[i].0), target);
  }

  /**
   * `historicalModelStats` after the final pass: the same models in the
   * same order, each percentage now the ratio of matched answers to
   * records, in [0, 100], and still 0 for a model without records.
   */
  function HistoricalStats(hs: seq<HistoricalResult>, target: string): (r: AssocList<string, ModelStats>)
    ensures |r| == |RunningStats(hs, target)|
    ensures forall i :: 0 <= i < |r| ==> r[i].0 == RunningStats(hs, target)[i].0
    ensures DistinctKeys(r)
    ensures forall i :: 0 <= i < |r| ==> 0.0 <= r[i].1.percentage <= 100.0
    ensures forall i :: 0 <= i < |r| && r[i].1.totalMentions > 0 ==>
      r[i].1.percentage == Percent(r[i].1.brandMentions, r[i].1.totalMentions)
    ensures forall i :: 0 <= i < |r| && r[i].1.totalMentions == 0 ==> r[i].1.percentage == 0.0
  {
    var running := RunningStats(hs, target);
    var r := MapValues(running, Finish);
    forall i | 0 <= i < |r|
      ensures r[i].0 == running[i].0
      ensures 0.0 <= r[i].1.percentage <= 100.0
      ensures r[i].1.totalMentions > 0 ==> r[i].1.percentage == Percent(r[i].1.brandMentions, r[i].1.totalMentions)
      ensures r[i].1.totalMentions == 0 ==> r[i].1.percentage == 0.0
    {
      var s := running[i].1;
      RunningEntry(hs, target, i);
      assert r[i] == (running[i].0, Finish(running[i].0, s));
    }
    r
  }

  /**
   * A model's historical totals are not reset per result: its
   * `totalMentions` is the number of records over all its answers in all
   * previous results, and its `brandMentions` the number of those answers
   * that have a match.
   */
  lemma {:induction false} HistoricalTotals(hs: seq<HistoricalResult>, target: string, m: string)
    ensures Get(HistoricalStats(hs, target), m).Some? <==> exists x :: x in HistoricalResponses(hs) && x.model == m
    ensures Get(HistoricalStats(hs, target), m).Some? ==>
      Get(HistoricalStats(hs, target), m).value.totalMentions
        == SumBy(Group(HistoricalResponses(hs), ResponseModel, m), ResponseSize) &&
      Get(HistoricalStats(hs, target), m).value.brandMentions
        == MatchedAnswers(Group(HistoricalResponses(hs), ResponseModel, m), target)
  {
    GetMapValues(RunningStats(hs, target), Finish, m);
  }

  /**
   * The entry `historicalBrandData` gets for one historical answer: one
   * exactly when the answer has a match, carrying the answer's model,
   * question and similarity, the position, sentiment and link count of the
   * first matching mention, the answer's length and the match's share of it.
   */
  function HistoricalEntry(x: Response, target: string): (r: Option<HistoricalMatch>)
    ensures r.Some? <==> FindBrand(x.items, target).Some?
    ensures r.Some? <==> HasMatch(x.items, target)
    ensures r.Some? ==> |x.items| > 0
    ensures r.Some? ==>
      var m := FindBrand(x.items, target).value;
      r.value.model == x.model && r.value.question == x.question && r.value.similarity == x.similarity
      && r.value.position == m.position && r.value.sentiment == m.sentiment && r.value.linkCount == m.linkCount
      && r.value.totalMentions == |x.items| && r.value.percentage == Percent(1, |x.items|)
  {
    FoundIffMatch(x.items, target);
    match FindBrand(x.items, target)
    case None => None
    case Some(m) =>
      FoundAnswerIsNonEmpty(x.items, target);
      Some(HistoricalMatch(x.model, m.position, m.sentiment, m.linkCount, x.question, x.similarity,
                           |x.items|, Percent(1, |x.items|)))
  }

  /**
   * `historicalBrandData` in encounter order: one entry per answer with a
   * match, over the previous results that carry responses.
   */
  function HistoricalMatches(hs: seq<HistoricalResult>, target: string): (r: seq<HistoricalMatch>)
    ensures |r| <= |HistoricalResponses(hs)|
    ensures forall y :: y in r <==> exists x :: x in HistoricalResponses(hs) && HistoricalEntry(x, target) == Some(y)
  {
    FilterMap(HistoricalResponses(hs), x => HistoricalEntry(x, target))
  }

  /**
   * `historicalBrandData` follows the order of the previous results: the
   * matches of a concatenation are those of the first part, then those of
   * the second.
   */
  lemma {:induction false} HistoricalMatchesAppend(a: seq<HistoricalResult>, b: seq<HistoricalResult>, target: string)
    ensures HistoricalMatches(a + b, target) == HistoricalMatches(a, target) + HistoricalMatches(b, target)
  {
    HistoricalResponsesAppend(a, b);
    FilterMapAppend(HistoricalResponses(a), HistoricalResponses(b), x => HistoricalEntry(x, target));
  }

  function MatchPosition(x: HistoricalMatch): int { x.position }

  function MatchSentiment(x: HistoricalMatch): real { x.sentiment }

  function MatchLinks(x: HistoricalMatch): int { x.linkCount }

  /** One match added to `historicalAggregation`: `totalMentions++`, the sums, `positions.push`, `questions.add`. */
  function Accumulate(s: Summary, x: HistoricalMatch): Summary {
    Summary(s.totalMentions + 1, s.totalSentiment + x.sentiment, s.totalLinks + x.linkCount,
            s.positions + [x.position], s.questions + {x.question})
  }

  const NoMatches := Summary(0, 0.0, 0, [], {})

  /**
   * `historicalAggregation` after the walk: as many mentions as matches,
   * one position per match in match order, the sums of their sentiments and
   * link counts, and the set of their questions.
   */
  function Summarize(ms: seq<HistoricalMatch>): (r: Summary)
    ensures r.totalMentions == |ms| == |r.positions|
    ensures forall i :: 0 <= i < |ms| ==> r.positions[i] == ms[i].position
    ensures r.totalSentiment == RealSumBy(ms, MatchSentiment)
    ensures r.totalLinks == SumBy(ms, MatchLinks)
    ensures forall q :: q in r.questions <==> exists x :: x in ms && x.question == q
  {
    AccumulateFold(ms);
    FoldSeq(ms, NoMatches, Accumulate)
  }

  /** The walk's running totals agree with the per-list definitions, one match at a time. */
  lemma {:induction false} AccumulateFold(ms: seq<HistoricalMatch>)
    ensures FoldSeq(ms, NoMatches, Accumulate).totalMentions == |ms| == |FoldSeq(ms, NoMatches, Accumulate).positions|
    ensures forall i :: 0 <= i < |ms| ==> FoldSeq(ms, NoMatches, Accumulate).positions[i] == ms[i].position
    ensures FoldSeq(ms, NoMatches, Accumulate).totalSentiment == RealSumBy(ms, MatchSentiment)
    ensures FoldSeq(ms, NoMatches, Accumulate).totalLinks == SumBy(ms, MatchLinks)
    ensures forall q :: q in FoldSeq(ms, NoMatches, Accumulate).questions <==> exists x :: x in ms && x.question == q
  {
    AccumulatedPositions(ms);
    AccumulatedSums(ms);
    AccumulatedQuestions(ms);
  }

  lemma {:induction false} AccumulatedPositions(ms: seq<HistoricalMatch>)
    ensures FoldSeq(ms, NoMatches, Accumulate).totalMentions == |ms| == |FoldSeq(ms, NoMatches, Accumulate).positions|
    ensures forall i :: 0 <= i < |ms| ==> FoldSeq(ms, NoMatches, Accumulate).positions[i] == ms[i].position
  {
    if |ms| > 0 {
      var front, last := ms[..|ms| - 1], ms[|ms| - 1];
      AccumulatedPositions(front);
      var before := FoldSeq(front, NoMatches, Accumulate);
      assert FoldSeq(ms, NoMatches, Accumulate) == Accumulate(before, last);
      forall i | 0 <= i < |ms| ensures Accumulate(before, last).positions[i] == ms[i].position {
        if i < |front| {
          assert ms[i] == front[i];
        }
      }
    }
  }

  lemma {:induction false} AccumulatedSums(ms: seq<HistoricalMatch>)
    ensures FoldSeq(ms, NoMatches, Accumulate).totalSentiment == RealSumBy(ms, MatchSentiment)
    ensures FoldSeq(ms, NoMatches, Accumulate).totalLinks == SumBy(ms, MatchLinks)
  {
    if |ms| > 0 {
      var front, last := ms[..|ms| - 1], ms[|ms| - 1];
      AccumulatedSums(front);
      assert ms == front + [last];
      assert FoldSeq(ms, NoMatches, Accumulate) == Accumulate(FoldSeq(front, NoMatches, Accumulate), last);
      RealSumByAppend(front, [last], MatchSentiment);
      SumByAppend(front, [last], MatchLinks);
      assert RealSumBy([last], MatchSentiment) == last.sentiment;
      assert SumBy([last], MatchLinks) == last.linkCount;
    }
  }

  lemma {:induction false} AccumulatedQuestions(ms: seq<HistoricalMatch>)
    ensures forall q :: q in FoldSeq(ms, NoMatches, Accumulate).questions <==> exists x :: x in ms && x.question == q
  {
    if |ms| > 0 {
      var front, last := ms[..|ms| - 1], ms[|ms| - 1];
      AccumulatedQuestions(front);
      assert ms == front + [last];
      var r := FoldSeq(ms, NoMatches, Accumulate);
      assert r == Accumulate(FoldSeq(front, NoMatches, Accumulate), last);
      forall q ensures q in r.questions <==> exists x :: x in ms && x.question == q {
        if q in r.questions && q != last.question {
          var x :| x in front && x.question == q;
          assert x in ms;
        }
        if q == last.question {
          assert last in ms;
        }
        if q !in r.questions {
          forall x | x in ms ensures x.question != q {
            if x != last {
              assert x in front;
            }
          }
        }
      }
    }
  }

  /**
   * The overall averages: the mean position (0 without positions), and the
   * mean sentiment and mean link count per match (0 without matches).
   */
  function Averages(s: Summary): (r: (real, real, real))
    ensures |s.positions| == 0 ==> r.0 == 0.0
    ensures |s.positions| > 0 ==> r.0 * (|s.positions| as real) == Sum(s.positions) as real
    ensures s.totalMentions == 0 ==> r.1 == 0.0 && r.2 == 0.0
    ensures s.totalMentions > 0 ==> r.1 * (s.totalMentions as real) == s.totalSentiment
    ensures s.totalMentions > 0 ==> r.2 * (s.totalMentions as real) == s.totalLinks as real
  {
    (MeanOrZero(s.positions), RatioOrZero(s.totalSentiment, s.totalMentions),
     RatioOrZero(s.totalLinks as real, s.totalMentions))
  }

  /**
   * Over the historical matches, the averages are 0 when there are none and
   * otherwise the sums over the matches divided by their number.
   */
  lemma {:induction false} AveragesOverMatches(ms: seq<HistoricalMatch>)
    ensures |ms| == 0 ==> Averages(Summarize(ms)) == (0.0, 0.0, 0.0)
    ensures |ms| > 0 ==> Averages(Summarize(ms)).0 * (|ms| as real) == SumBy(ms, MatchPosition) as real
    ensures |ms| > 0 ==> Averages(Summarize(ms)).1 * (|ms| as real) == RealSumBy(ms, MatchSentiment)
    ensures |ms| > 0 ==> Averages(Summarize(ms)).2 * (|ms| as real) == SumBy(ms, MatchLinks) as real
  {
    var s := Summarize(ms);
    SumByPointwise(s.positions, Id, ms, MatchPosition);
  }

  /** When every match has its position in [lo, hi], so has their mean. */
  lemma {:induction false} AveragePositionBounds(ms: seq<HistoricalMatch>, lo: int, hi: int)
    requires |ms| > 0
    requires forall i :: 0 <= i < |ms| ==> lo <= ms[i].position <= hi
    ensures lo as real <= Averages(Summarize(ms)).0 <= hi as real
  {
    MeanBounds(Summarize(ms).positions, lo, hi);
  }

  // ----- trend and comparison -----

  function Similarity(x: HistoricalMatch): real {
    x.similarity
  }

  /**
   * `historicalBrandData` after the view's in-place sort, which runs only
   * when there are at least two matches.
   */
  function SortedMatches(ms: seq<HistoricalMatch>): seq<HistoricalMatch> {
    if |ms| > 1 then Sort(ms, Similarity) else ms
  }

  /**
   * Skipping the sort for fewer than two matches changes nothing: the list
   * is always the stable sort of the matches by similarity.
   */
  lemma {:induction false} SortedMatchesIsSort(ms: seq<HistoricalMatch>)
    ensures SortedMatches(ms) == Sort(ms, Similarity)
  {
    if |ms| <= 1 {
      SortSortedIsIdentity(ms, Similarity);
    }
  }

  /** The `index`-th point of the trend, from one match; the similarity becomes a percentage. */
  function PointOf(index: int, x: HistoricalMatch): TrendPoint {
    TrendPoint(index, x.position, x.sentiment, x.similarity * 100.0)
  }

  /** The points of a list of matches, numbered from 1 in list order. */
  function Points(s: seq<HistoricalMatch>): (r: seq<TrendPoint>)
    ensures |r| == |s|
    ensures forall i :: 0 <= i < |r| ==> r[i] == PointOf(i + 1, s[i])
  {
    seq(|s|, i requires 0 <= i < |s| => PointOf(i + 1, s[i]))
  }

  /**
   * `historicalTrendData`: empty with at most one match; otherwise one
   * point per match, in ascending order of similarity, numbered 1..n.
   */
  function Trend(ms: seq<HistoricalMatch>): (r: seq<TrendPoint>)
    ensures |ms| <= 1 ==> r == []
    ensures |ms| > 1 ==> |r| == |ms|
    ensures forall i :: 0 <= i < |r| ==> r[i].index == i + 1
    ensures forall i, j :: 0 <= i < j < |r| ==> r[i].similarity <= r[j].similarity
  {
    if |ms| > 1 then
      var sorted := Sort(ms, Similarity);
      var r := Points(sorted);
      forall i, j | 0 <= i < j < |r| ensures r[i].similarity <= r[j].similarity {
        assert Similarity(sorted[i]) <= Similarity(sorted[j]);
      }
      r
    else []
  }

  /**
   * With two or more matches, the trend is the point list of the sorted
   * matches: a permutation of the matches, ascending by similarity, with
   * equal similarities kept in match order.
   */
  lemma {:induction false} TrendFollowsSortedMatches(ms: seq<HistoricalMatch>)
    requires |ms| > 1
    ensures forall i :: 0 <= i < |Trend(ms)| ==> Trend(ms)[i] == PointOf(i + 1, SortedMatches(ms)[i])
    ensures multiset(SortedMatches(ms)) == multiset(ms)
    ensures SortedBy(SortedMatches(ms), Similarity)
    ensures SameTies(SortedMatches(ms), ms, Similarity)
  {
  }

  /** `modelComparisonData`: the statistics of each model, in the order the models were first met. */
  function Comparisons(stats: AssocList<string, ModelStats>): (r: seq<Comparison>)
    ensures |r| == |stats|
  {
    seq(|stats|, i requires 0 <= i < |stats| =>
      Comparison(stats[i].0, stats[i].1.percentage, stats[i].1.totalMentions, stats[i].1.brandMentions))
  }

  /**
   * One comparison entry per model of the statistics: every entry copies
   * the three statistics stored under its model, and every model has an
   * entry.
   */
  lemma {:induction false} ComparisonCopiesStats(stats: AssocList<string, ModelStats>)
    requires DistinctKeys(stats)
    ensures forall i :: 0 <= i < |Comparisons(stats)| ==>
      var c := Comparisons(stats)[i];
      Get(stats, c.model) == Some(ModelStats(c.totalMentions, c.brandMentions, c.mentionPercentage))
    ensures forall m :: Get(stats, m).Some? ==> exists i :: 0 <= i < |Comparisons(stats)| && Comparisons(stats)[i].model == m
    ensures forall i, j :: 0 <= i < j < |Comparisons(stats)| ==> Comparisons(stats)[i].model != Comparisons(stats)[j].model
  {
    forall i | 0 <= i < |stats| ensures Get(stats, stats[i].0) == Some(stats[i].1) {
      GetAt(stats, i);
    }
    forall m | Get(stats, m).Some? ensures exists i :: 0 <= i < |Comparisons(stats)| && Comparisons(stats)[i].model == m {
      var j :| 0 <= j < |stats| && stats[j] == (m, Get(stats, m).value);
      assert Comparisons(stats)[j].model == m;
    }
  }

  // ----- the view -----

  /**
   * The whole computation: nothing when the brand is absent or blank;
   * otherwise, with the trimmed brand as the match target, the statistics,
   * matches, averages, trend and comparison, and whether there is no match
   * at all (the view's no-data message).
   */
  function Analyse(current: Option<ResultSet>, hs: seq<HistoricalResult>, brand: string): (r: Option<Analysis>)
    ensures r.None? <==> Trim(brand) == ""
    ensures r.Some? ==> r.value.target == Trim(brand) && |r.value.target| > 0
    ensures r.Some? ==> r.value.summary.totalMentions == |r.value.historicalMatches| == |r.value.summary.positions|
    ensures r.Some? ==> |r.value.comparison| == |r.value.historicalStats|
    ensures r.Some? ==> |r.value.trend| == (if |r.value.historicalMatches| > 1 then |r.value.historicalMatches| else 0)
  {
    var target := Trim(brand);
    if target == "" then None
    else
      var rs := if current.Some? then current.value else [];
      var ms := HistoricalMatches(hs, target);
      var summary := Summarize(ms);
      var avg := Averages(summary);
      var stats := HistoricalStats(hs, target);
      var currentMatches := CurrentMatches(rs, target);
      var trend := Trend(ms);
      var comparison := Comparisons(stats);
      assert |comparison| == |stats|;
      assert |trend| == (if |ms| > 1 then |ms| else 0);
      Some(Analysis(target, CurrentStats(rs, target), currentMatches, stats, SortedMatches(ms), summary,
                    avg.0, avg.1, avg.2, trend, comparison, |currentMatches| == 0 && |ms| == 0))
  }

  /** Some array-valued answer of `rs` has a match for `target`. */
  ghost predicate AnswerMatches(rs: ResultSet, target: string) {
    exists e :: e in rs && e.1.Mentions? && FindBrand(e.1.items, target).Some?
  }

  /** A previous result has responses, and one of its answers has a match. */
  ghost predicate ResultMatches(h: HistoricalResult, target: string) {
    h.responses.Some? && AnswerMatches(h.responses.value, target)
  }

  /** A filter-map is empty exactly when nothing is kept. */
  lemma {:induction false} FilterMapEmpty<A(!new), B(!new)>(xs: seq<A>, f: A -> Option<B>)
    ensures |FilterMap(xs, f)| == 0 <==> forall x :: x in xs ==> f(x).None?
  {
    var r := FilterMap(xs, f);
    if |r| > 0 {
      assert r[0] in r;
    }
  }

  /** `currentBrandData` is empty exactly when no array-valued answer has a match. */
  lemma {:induction false} NoCurrentMatches(rs: ResultSet, target: string)
    ensures |CurrentMatches(rs, target)| == 0 <==> !AnswerMatches(rs, target)
  {
    var es := ArrayEntries(rs);
    var f := e => CurrentEntry(e, target);
    FilterMapEmpty(es, f);
    if AnswerMatches(rs, target) {
      var e :| e in rs && e.1.Mentions? && FindBrand(e.1.items, target).Some?;
      assert (e.0, e.1.items) in es;
      assert f((e.0, e.1.items)).Some?;
    }
    if exists e :: e in es && f(e).Some? {
      var e :| e in es && f(e).Some?;
      assert (e.0, Mentions(e.1)) in rs;
    }
  }

  /** `historicalBrandData` is empty exactly when no previous result has an answer with a match. */
  lemma {:induction false} NoHistoricalMatches(hs: seq<HistoricalResult>, target: string)
    ensures |HistoricalMatches(hs, target)| == 0 <==> forall i :: 0 <= i < |hs| ==> !ResultMatches(hs[i], target)
  {
    var xs := HistoricalResponses(hs);
    var f := x => HistoricalEntry(x, target);
    FilterMapEmpty(xs, f);
    if exists i :: 0 <= i < |hs| && ResultMatches(hs[i], target) {
      var i :| 0 <= i < |hs| && ResultMatches(hs[i], target);
      var x := MatchingAnswer(hs, i, target);
      assert f(x).Some?;
    }
    if exists x :: x in xs && f(x).Some? {
      var x :| x in xs && f(x).Some?;
      var i := AnswerSource(hs, x);
      assert (x.model, Mentions(x.items)) in hs[i].responses.value;
    }
  }

  /** A matching answer of result `i` is an answer of the historical walk, tagged with that result's question. */
  lemma {:induction false} MatchingAnswer(hs: seq<HistoricalResult>, i: nat, target: string) returns (x: Response)
    requires i < |hs| && ResultMatches(hs[i], target)
    ensures x in HistoricalResponses(hs) && x.question == hs[i].question && FindBrand(x.items, target).Some?
  {
    var e :| e in hs[i].responses.value && e.1.Mentions? && FindBrand(e.1.items, target).Some?;
    assert (e.0, e.1.items) in ArrayEntries(hs[i].responses.value);
    x := Response(e.0, e.1.items, hs[i].question, hs[i].similarity);
    assert x in ResponsesOf(hs[i]);
  }

  /** Every answer of the historical walk comes from some result with responses, and carries its question. */
  lemma {:induction false} AnswerSource(hs: seq<HistoricalResult>, x: Response) returns (i: nat)
    requires x in HistoricalResponses(hs)
    ensures i < |hs| && hs[i].responses.Some? && x.question == hs[i].question
    ensures (x.model, Mentions(x.items)) in hs[i].responses.value
  {
    i :| 0 <= i < |hs| && x in ResponsesOf(hs[i]);
  }

  /**
   * `historicalAggregation.questions` holds exactly the questions of the
   * previous results that have an answer with a match.
   */
  lemma {:induction false} SummaryQuestions(hs: seq<HistoricalResult>, target: string, q: string)
    ensures q in Summarize(HistoricalMatches(hs, target)).questions <==>
      exists i :: 0 <= i < |hs| && hs[i].question == q && ResultMatches(hs[i], target)
  {
    if q in Summarize(HistoricalMatches(hs, target)).questions {
      QuestionHasMatchingResult(hs, target, q);
    }
    if exists i :: 0 <= i < |hs| && hs[i].question == q && ResultMatches(hs[i], target) {
      var i :| 0 <= i < |hs| && hs[i].question == q && ResultMatches(hs[i], target);
      MatchingResultHasQuestion(hs, target, i);
    }
  }

  lemma {:induction false} QuestionHasMatchingResult(hs: seq<HistoricalResult>, target: string, q: string)
    requires q in Summarize(HistoricalMatches(hs, target)).questions
    ensures exists i :: 0 <= i < |hs| && hs[i].question == q && ResultMatches(hs[i], target)
  {
    var ms := HistoricalMatches(hs, target);
    var m :| m in ms && m.question == q;
    var x :| x in HistoricalResponses(hs) && HistoricalEntry(x, target) == Some(m);
    assert FindBrand(x.items, target).Some? && x.question == q;
    var i := AnswerSource(hs, x);
    assert (x.model, Mentions(x.items)) in hs[i].responses.value;
    assert ResultMatches(hs[i], target);
  }

  lemma {:induction false} MatchingResultHasQuestion(hs: seq<HistoricalResult>, target: string, i: nat)
    requires i < |hs| && ResultMatches(hs[i], target)
    ensures hs[i].question in Summarize(HistoricalMatches(hs, target)).questions
  {
    var x := MatchingAnswer(hs, i, target);
    var m := HistoricalEntry(x, target).value;
    assert m.question == hs[i].question;
    assert m in HistoricalMatches(hs, target);
  }

  /**
   * The no-data message shows exactly when neither the current result nor
   * any previous result has an answer with a match.
   */
  lemma {:induction false} NoDataIffNothingMatches(current: Option<ResultSet>, hs: seq<HistoricalResult>, brand: string)
    requires Trim(brand) != ""
    ensures Analyse(current, hs, brand).value.noData <==>
      (current.None? || !AnswerMatches(current.value, Trim(brand))) &&
      forall i :: 0 <= i < |hs| ==> !ResultMatches(hs[i], Trim(brand))
  {
    var rs := if current.Some? then current.value else [];
    NoCurrentMatches(rs, Trim(brand));
    NoHistoricalMatches(hs, Trim(brand));
  }

  /**
   * A brand with a non-empty key makes the aggregation memo yield null,
   * while the analyser, whose brand then cannot be blank, returns a value.
   */
  lemma {:induction false} KeyedBrandSelectsAnalysis(current: Option<ResultSet>, hs: seq<HistoricalResult>, brand: string)
    requires Normalize(brand) != ""
    ensures Aggregation.Aggregated(current, hs, brand).None?
    ensures Analyse(current, hs, brand).Some?
  {
    if Trim(brand) == "" {
      WhitespaceNormalizesToEmpty(brand);
    }
  }

  /**
   * For a blank brand the analyser returns nothing, while the aggregation
   * memo yields an aggregation whenever there is any result to aggregate.
   */
  lemma {:induction false} BlankBrandSelectsAggregation(current: Option<ResultSet>, hs: seq<HistoricalResult>, brand: string)
    requires Trim(brand) == ""
    requires current.Some? || |hs| > 0
    ensures Aggregation.Aggregated(current, hs, brand).Some?
    ensures Analyse(current, hs, brand).None?
  {
    WhitespaceNormalizesToEmpty(brand);
  }
}

=== FILE: inherited_keys.dfy ===
/**
 * The aggregation memo as it is written, keyed by plain JavaScript objects.
 * `if (!brandCounts[b])` also sees the properties every plain object
 * inherits from `Object.prototype`: for a label such as "constructor" or
 * "toString" the lookup finds a truthy function, the initialisation is
 * skipped, and `brandDetails[b].models.add(...)` then reads `add` of
 * `undefined` and throws. The intended behaviour, where every label starts
 * its own entry, is `Aggregation.Aggregated`.
 */
module InheritedKeys {
  import opened Wrappers
  import opened AssocLists
  import opened Records
  import opened Normalization
  import opened Aggregation

  /**
   * The properties of `Object.prototype` in ECMAScript, including the
   * legacy accessor helpers and `__proto__`. Reading any of them from a
   * plain object gives a function or an object, so `!obj[b]` is false.
   */
  const Inherited: set<string> := {
    "constructor", "__proto__", "__defineGetter__", "__defineSetter__", "__lookupGetter__",
    "__lookupSetter__", "hasOwnProperty", "isPrototypeOf", "propertyIsEnumerable",
    "toLocaleString", "toString", "valueOf"
  }

  /**
   * One iteration of the tally loop as written: a label naming an inherited
   * property skips the initialisation and then throws (None); any other
   * label is upserted as intended. Once thrown, the loop stays thrown.
   */
  function StepAsWritten(acc: Option<AssocList<string, Tally>>, c: Contribution): Option<AssocList<string, Tally>> {
    if acc.None? || c.brand in Inherited then None
    else Some(Upsert(acc.value, c.brand, Fresh, Bump, c))
  }

  /**
   * The tally loop as written: it throws exactly when some mention carries
   * an inherited name, and otherwise builds the intended tallies.
   */
  function TalliesAsWritten(cs: seq<Contribution>): (r: Option<AssocList<string, Tally>>)
    ensures r.None? <==> exists c :: c in cs && c.brand in Inherited
    ensures r.Some? ==> r.value == Tallies(cs)
  {
    AsWrittenFold(cs);
    FoldSeq(cs, Some([]), StepAsWritten)
  }

  lemma {:induction false} AsWrittenFold(cs: seq<Contribution>)
    ensures FoldSeq(cs, Some([]), StepAsWritten).None? <==> exists c :: c in cs && c.brand in Inherited
    ensures FoldSeq(cs, Some([]), StepAsWritten).Some? ==>
      FoldSeq(cs, Some([]), StepAsWritten).value == GroupFold(cs, BrandOf, Fresh, Bump)
  {
    if |cs| > 0 {
      var front, last := cs[..|cs| - 1], cs[|cs| - 1];
      AsWrittenFold(front);
      assert cs == front + [last];
      assert forall c :: c in cs <==> c in front || c == last;
    }
  }

  /**
   * The memo as written: `None` when it throws, otherwise what it returns.
   * It throws exactly when the guard lets the inputs through and some
   * mention of the current or the historical stream carries an inherited
   * name; when it returns, it returns the intended aggregation.
   */
  function AggregatedAsWritten(current: Option<ResultSet>, hs: seq<HistoricalResult>, brand: string)
    : (r: Option<Option<BrandAggregation>>)
    ensures r.None? <==>
      Aggregated(current, hs, brand).Some? &&
      ((current.Some? && exists c :: c in CurrentContributions(current.value) && c.brand in Inherited) ||
       exists c :: c in HistoricalContributions(hs) && c.brand in Inherited)
    ensures r.Some? ==> r.value == Aggregated(current, hs, brand)
  {
    if (current.None? && |hs| == 0) || Normalize(brand) != "" then Some(None)
    else
      var cur := if current.Some? then CurrentContributions(current.value) else [];
      match (TalliesAsWritten(cur), TalliesAsWritten(HistoricalContributions(hs)))
      case (Some(t1), Some(t2)) =>
        Some(Some(BrandAggregation(Aggregate(MapValues(t1, CountEntry), t1), Aggregate(MapValues(t2, CountEntry), t2))))
      case _ => None
  }

  /**
   * One current answer with a single mention labelled "constructor": the
   * memo as written throws.
   */
  lemma {:induction false} ConstructorLabelThrows(rs: ResultSet)
    requires rs == [("gpt", Mentions([Mention("constructor", 1, 0.5, 0)]))]
    ensures AggregatedAsWritten(Some(rs), [], "").None?
  {
    var m := Mention("constructor", 1, 0.5, 0);
    OneMentionStream(rs, "gpt", m);
    assert Contribute("gpt", m) in CurrentContributions(rs);
  }

  /** The same answer, aggregated as intended: the label is counted once. */
  lemma {:induction false} ConstructorLabelCountedOnce(rs: ResultSet)
    requires rs == [("gpt", Mentions([Mention("constructor", 1, 0.5, 0)]))]
    ensures Aggregated(Some(rs), [], "").Some?
    ensures Get(Aggregated(Some(rs), [], "").value.current.counts, "constructor") == Some(1)
  {
    var m := Mention("constructor", 1, 0.5, 0);
    var c := Contribute("gpt", m);
    OneMentionStream(rs, "gpt", m);
    var cs := CurrentContributions(rs);
    assert c in cs;
    assert Group(cs, BrandOf, "constructor") == [c] by {
      assert cs[..0] == [];
    }
    GetMapValues(Tallies(cs), CountEntry, "constructor");
  }

  /** A result with one array-valued answer holding one mention streams that one mention. */
  lemma {:induction false} OneMentionStream(rs: ResultSet, model: string, m: Mention)
    requires rs == [(model, Mentions([m]))]
    ensures CurrentContributions(rs) == [Contribute(model, m)]
  {
    assert ArrayEntries(rs) == [(model, [m])] by {
      assert rs[1..] == [];
    }
    assert Tagged(model, [m]) == [Contribute(model, m)];
    assert [(model, [m])][1..] == [];
    assert Contributions([(model, [m])]) == Tagged(model, [m]) + Contributions([]);
  }
}

=== FILE: normalization.dfy ===
/**
 * Brand-name normalisation and matching (src/utils/brandNormalization.js).
 *
 * `Normalize` turns a raw brand label into a comparison key: lower-case it,
 * decompose accented letters (Unicode NFD), drop combining diacritical marks
 * (U+0300..U+036F), keep only `[a-z0-9]`, then trim. Every stage works
 * character by character, so the whole pipeline is a concatenation of
 * per-character images (`NormChar`), which is what the lemmas below use.
 */
module Normalization {
  import opened Wrappers
  import opened Records
  import opened Sequences

  // ----- character classes -----

  predicate IsAsciiUpper(c: char) { 'A' <= c <= 'Z' }

  predicate IsAsciiLower(c: char) { 'a' <= c <= 'z' }

  /** `[a-z0-9]`: the only characters a normalised key may contain. */
  predicate IsKeyChar(c: char) { 'a' <= c <= 'z' || '0' <= c <= '9' }

  /** The combining diacritical marks block, U+0300..U+036F. */
  predicate IsCombiningMark(c: char) { '\U{0300}' <= c <= '\U{036F}' }

  /**
   * What `String.prototype.trim` removes: ECMAScript WhiteSpace (TAB, VT,
   * FF, SPACE, NBSP, ZWNBSP and the Zs category) and LineTerminator (LF, CR,
   * LS, PS).
   */
  predicate IsJsWhitespace(c: char) {
    c == '\t' || c == '\n' || c == '\U{000B}' || c == '\U{000C}' || c == '\r' || c == ' '
    || c == '\U{00A0}' || c == '\U{1680}' || '\U{2000}' <= c <= '\U{200A}'
    || c == '\U{2028}' || c == '\U{2029}' || c == '\U{202F}' || c == '\U{205F}'
    || c == '\U{3000}' || c == '\U{FEFF}'
  }

  // ----- per-character stages -----

  /**
   * `toLowerCase` on one character: ASCII and Latin-1 capitals, plus the
   * few code points outside Latin-1 whose lower case lands in it (capital I
   * with dot above becomes "i" followed by U+0307). Other characters are
   * left as they are.
   */
  function LowerChar(c: char): string {
    if IsAsciiUpper(c) || ('\U{00C0}' <= c <= '\U{00DE}' && c != '\U{00D7}') then [(c as int + 32) as char]
    else if c == '\U{0130}' then "i\U{0307}"
    else if c == '\U{0178}' then "\U{00FF}"
    else if c == '\U{212A}' then "k"
    else if c == '\U{212B}' then "\U{00E5}"
    else [c]
  }

  /**
   * Canonical decomposition (NFD) of one character: the lower-case Latin-1
   * letters carrying a diacritic become the base letter followed by its
   * combining mark. Other characters are left as they are.
   */
  function DecomposeChar(c: char): string {
    match c
    case '\U{00E0}' => "a\U{0300}"
    case '\U{00E1}' => "a\U{0301}"
    case '\U{00E2}' => "a\U{0302}"
    case '\U{00E3}' => "a\U{0303}"
    case '\U{00E4}' => "a\U{0308}"
    case '\U{00E5}' => "a\U{030A}"
    case '\U{00E7}' => "c\U{0327}"
    case '\U{00E8}' => "e\U{0300}"
    case '\U{00E9}' => "e\U{0301}"
    case '\U{00EA}' => "e\U{0302}"
    case '\U{00EB}' => "e\U{0308}"
    case '\U{00EC}' => "i\U{0300}"
    case '\U{00ED}' => "i\U{0301}"
    case '\U{00EE}' => "i\U{0302}"
    case '\U{00EF}' => "i\U{0308}"
    case '\U{00F1}' => "n\U{0303}"
    case '\U{00F2}' => "o\U{0300}"
    case '\U{00F3}' => "o\U{0301}"
    case '\U{00F4}' => "o\U{0302}"
    case '\U{00F5}' => "o\U{0303}"
    case '\U{00F6}' => "o\U{0308}"
    case '\U{00F9}' => "u\U{0300}"
    case '\U{00FA}' => "u\U{0301}"
    case '\U{00FB}' => "u\U{0302}"
    case '\U{00FC}' => "u\U{0308}"
    case '\U{00FD}' => "y\U{0301}"
    case '\U{00FF}' => "y\U{0308}"
    case _ => [c]
  }

  /** `replace(/[̀-ͯ]/g, '')` on one character. */
  function StripMarkChar(c: char): string {
    if IsCombiningMark(c) then "" else [c]
  }

  /** `replace(/[^a-z0-9]/g, '')` on one character. */
  function KeepKeyChar(c: char): string {
    if IsKeyChar(c) then [c] else ""
  }

  // ----- string stages -----

  /** The output of `replace(/[^a-z0-9]/g, '')` holds key characters only. */
  lemma {:induction false} KeepKeyCharsOnlyKeys(s: string)
    ensures forall i :: 0 <= i < |FlatMap(KeepKeyChar, s)| ==> IsKeyChar(FlatMap(KeepKeyChar, s)[i])
  {
    if |s| > 0 {
      KeepKeyCharsOnlyKeys(s[1..]);
    }
  }

  /** Everything but the trim: lower-case, decompose, strip marks, keep `[a-z0-9]`. */
  function Filtered(s: string): string {
    FlatMap(KeepKeyChar, FlatMap(StripMarkChar, FlatMap(DecomposeChar, FlatMap(LowerChar, s))))
  }

  /** The pipeline applied to a single character. */
  function NormChar(c: char): string {
    Filtered([c])
  }

  // ----- trimming -----

  /** The index of the first non-whitespace character of `s` at or after `i`, or `|s|`. */
  function SkipLeading(s: string, i: nat): (r: nat)
    requires i <= |s|
    ensures i <= r <= |s|
    ensures forall k :: i <= k < r ==> IsJsWhitespace(s[k])
    ensures r < |s| ==> !IsJsWhitespace(s[r])
    decreases |s| - i
  {
    if i == |s| || !IsJsWhitespace(s[i]) then i else SkipLeading(s, i + 1)
  }

  /** The end of `s[lo..j]` once trailing whitespace is cut off. */
  function SkipTrailing(s: string, lo: nat, j: nat): (r: nat)
    requires lo <= j <= |s|
    ensures lo <= r <= j
    ensures forall k :: r <= k < j ==> IsJsWhitespace(s[k])
    ensures r > lo ==> !IsJsWhitespace(s[r - 1])
  {
    if j == lo || !IsJsWhitespace(s[j - 1]) then j else SkipTrailing(s, lo, j - 1)
  }

  /** Where the trimmed string starts in `s`. */
  function TrimStart(s: string): nat {
    SkipLeading(s, 0)
  }

  /** Where the trimmed string ends in `s`. */
  function TrimEnd(s: string): nat {
    SkipTrailing(s, TrimStart(s), |s|)
  }

  /**
   * `String.prototype.trim`: the slice of `s` between its first and its last
   * non-whitespace character, everything cut off on either side being
   * whitespace; empty exactly when `s` is all whitespace.
   */
  function Trim(s: string): (r: string)
    ensures TrimStart(s) <= TrimEnd(s) <= |s| && r == s[TrimStart(s)..TrimEnd(s)]
    ensures forall i :: 0 <= i < TrimStart(s) ==> IsJsWhitespace(s[i])
    ensures forall i :: TrimEnd(s) <= i < |s| ==> IsJsWhitespace(s[i])
    ensures |r| > 0 ==> !IsJsWhitespace(r[0]) && !IsJsWhitespace(r[|r| - 1])
    ensures |r| == 0 <==> forall i :: 0 <= i < |s| ==> IsJsWhitespace(s[i])
  {
    TrimBoundaries(s);
    s[TrimStart(s)..TrimEnd(s)]
  }

  lemma {:induction false} TrimBoundaries(s: string)
    ensures var lo, hi := TrimStart(s), TrimEnd(s);
      hi > lo ==> !IsJsWhitespace(s[lo]) && !IsJsWhitespace(s[hi - 1])
    ensures var lo, hi := TrimStart(s), TrimEnd(s);
      hi == lo <==> forall i :: 0 <= i < |s| ==> IsJsWhitespace(s[i])
  {
  }

  // ----- normalisation -----

  /**
   * `normalizeBrandName`: a falsy (empty) label gives the empty key;
   * otherwise the pipeline's result, which holds only `[a-z0-9]`.
   */
  function Normalize(s: string): (r: string)
    ensures |s| == 0 ==> r == ""
    ensures forall i :: 0 <= i < |r| ==> IsKeyChar(r[i])
  {
    if |s| == 0 then ""
    else
      var f := Filtered(s);
      KeepKeyCharsOnlyKeys(FlatMap(StripMarkChar, FlatMap(DecomposeChar, FlatMap(LowerChar, s))));
      Trim(f)
  }

  /** Whether `s` is already a comparison key. */
  predicate IsKey(s: string) {
    forall i :: 0 <= i < |s| ==> IsKeyChar(s[i])
  }

  /** The final `trim()` never removes anything: a key holds no whitespace. */
  lemma {:induction false} TrimIsNoOp(s: string)
    ensures Trim(Filtered(s)) == Filtered(s)
  {
    var f := Filtered(s);
    KeepKeyCharsOnlyKeys(FlatMap(StripMarkChar, FlatMap(DecomposeChar, FlatMap(LowerChar, s))));
    TrimKeepsKeys(f);
  }

  lemma {:induction false} TrimKeepsKeys(t: string)
    requires IsKey(t)
    ensures Trim(t) == t
  {
    var r := Trim(t);
    if |t| > 0 {
      assert IsKeyChar(t[0]) && IsKeyChar(t[|t| - 1]);
    }
  }

  /** The pipeline is the concatenation of its per-character images. */
  lemma {:induction false} FilteredIsPerChar(s: string)
    ensures Filtered(s) == FlatMap(NormChar, s)
  {
    if |s| > 0 {
      var c, rest := s[0], s[1..];
      FilteredIsPerChar(rest);
      FilteredAppend([c], rest);
      assert s == [c] + rest;
    }
  }

  lemma {:induction false} FilteredAppend(a: string, b: string)
    ensures Filtered(a + b) == Filtered(a) + Filtered(b)
  {
    FlatMapAppend(LowerChar, a, b);
    var la, lb := FlatMap(LowerChar, a), FlatMap(LowerChar, b);
    FlatMapAppend(DecomposeChar, la, lb);
    var da, db := FlatMap(DecomposeChar, la), FlatMap(DecomposeChar, lb);
    FlatMapAppend(StripMarkChar, da, db);
    var sa, sb := FlatMap(StripMarkChar, da), FlatMap(StripMarkChar, db);
    FlatMapAppend(KeepKeyChar, sa, sb);
  }

  /** The whole normaliser is per-character too. */
  lemma {:induction false} NormalizeIsPerChar(s: string)
    ensures Normalize(s) == FlatMap(NormChar, s)
  {
    FilteredIsPerChar(s);
    if |s| > 0 {
      TrimIsNoOp(s);
    }
  }

  lemma {:induction false} NormalizeAppend(a: string, b: string)
    ensures Normalize(a + b) == Normalize(a) + Normalize(b)
  {
    NormalizeIsPerChar(a);
    NormalizeIsPerChar(b);
    NormalizeIsPerChar(a + b);
    FlatMapAppend(NormChar, a, b);
  }

  /** Characters that neither `LowerChar` nor `DecomposeChar` rewrites. */
  predicate OutsideTables(c: char) {
    !IsAsciiUpper(c) && !('\U{00C0}' <= c <= '\U{00FF}')
    && c != '\U{0130}' && c != '\U{0178}' && c != '\U{212A}' && c != '\U{212B}'
  }

  /** Outside the tables, a character survives exactly when it is a key character. */
  lemma {:induction false} PlainCharImage(c: char)
    requires OutsideTables(c)
    ensures NormChar(c) == KeepKeyChar(c)
  {
    assert LowerChar(c) == [c];
    assert FlatMap(LowerChar, [c]) == [c];
    assert DecomposeChar(c) == [c];
    assert FlatMap(DecomposeChar, [c]) == [c];
    if IsCombiningMark(c) {
      assert FlatMap(StripMarkChar, [c]) == "";
    } else {
      assert FlatMap(StripMarkChar, [c]) == [c];
      assert FlatMap(KeepKeyChar, [c]) == KeepKeyChar(c);
    }
  }

  /** A key character normalises to itself. */
  lemma {:induction false} KeyCharIsFixed(c: char)
    requires IsKeyChar(c)
    ensures NormChar(c) == [c]
  {
    PlainCharImage(c);
  }

  /** Whitespace normalises to nothing. */
  lemma {:induction false} WhitespaceVanishes(c: char)
    requires IsJsWhitespace(c)
    ensures NormChar(c) == ""
  {
    PlainCharImage(c);
  }

  /** Normalisation is idempotent: a key is its own normal form. */
  lemma {:induction false} NormalizeIdempotent(s: string)
    ensures Normalize(Normalize(s)) == Normalize(s)
  {
    var k := Normalize(s);
    NormalizeIsPerChar(k);
    forall i | 0 <= i < |k| ensures NormChar(k[i]) == [k[i]] {
      KeyCharIsFixed(k[i]);
    }
    FlatMapIdentity(NormChar, k);
  }

  /** Flips the case of an ASCII letter; other characters are unchanged. */
  function SwapAsciiCase(c: char): (d: char)
    ensures IsAsciiUpper(c) ==> IsAsciiLower(d)
    ensures IsAsciiLower(c) ==> IsAsciiUpper(d)
  {
    if IsAsciiUpper(c) then (c as int + 32) as char
    else if IsAsciiLower(c) then (c as int - 32) as char
    else c
  }

  lemma {:induction false} SwapCaseSameImage(c: char)
    ensures NormChar(SwapAsciiCase(c)) == NormChar(c)
  {
    var d := SwapAsciiCase(c);
    if IsAsciiUpper(c) {
      assert FlatMap(LowerChar, [c]) == [d];
      assert FlatMap(LowerChar, [d]) == [d];
    } else if IsAsciiLower(c) {
      assert FlatMap(LowerChar, [d]) == [c];
      assert FlatMap(LowerChar, [c]) == [c];
    }
  }

  /** Changing the case of any one letter leaves the key unchanged. */
  lemma {:induction false} NormalizeIgnoresCase(s: string, i: nat)
    requires i < |s|
    ensures Normalize(s[i := SwapAsciiCase(s[i])]) == Normalize(s)
  {
    var t := s[i := SwapAsciiCase(s[i])];
    assert s == s[..i] + [s[i]] + s[i + 1..];
    assert t == s[..i] + [t[i]] + s[i + 1..];
    NormalizeAppend(s[..i] + [s[i]], s[i + 1..]);
    NormalizeAppend(s[..i], [s[i]]);
    NormalizeAppend(s[..i] + [t[i]], s[i + 1..]);
    NormalizeAppend(s[..i], [t[i]]);
    NormalizeIsPerChar([s[i]]);
    NormalizeIsPerChar([t[i]]);
    SwapCaseSameImage(s[i]);
    assert FlatMap(NormChar, [s[i]]) == NormChar(s[i]);
    assert FlatMap(NormChar, [t[i]]) == NormChar(t[i]);
  }

  /** Trimming the label first does not change its key. */
  lemma {:induction false} NormalizeIgnoresTrim(s: string)
    ensures Normalize(Trim(s)) == Normalize(s)
  {
    var r := Trim(s);
    var lo, hi := TrimStart(s), TrimEnd(s);
    var front, back := s[..lo], s[hi..];
    assert s == front + r + back;
    forall i | 0 <= i < |front| ensures NormChar(front[i]) == "" {
      assert front[i] == s[i];
      WhitespaceVanishes(front[i]);
    }
    forall i | 0 <= i < |back| ensures NormChar(back[i]) == "" {
      assert back[i] == s[hi + i];
      WhitespaceVanishes(back[i]);
    }
    FlatMapErases(NormChar, front);
    FlatMapErases(NormChar, back);
    FlatMapAround(NormChar, front, r, back);
    NormalizeIsPerChar(s);
    NormalizeIsPerChar(r);
  }

  /** A label made only of whitespace has the empty key. */
  lemma {:induction false} WhitespaceNormalizesToEmpty(w: string)
    requires forall i :: 0 <= i < |w| ==> IsJsWhitespace(w[i])
    ensures Normalize(w) == ""
  {
    NormalizeIsPerChar(w);
    forall i | 0 <= i < |w| ensures NormChar(w[i]) == "" {
      WhitespaceVanishes(w[i]);
    }
    FlatMapErases(NormChar, w);
  }

  // ----- matching -----

  /** The index of the first item whose key (by `keyOf`) is `key`. */
  function IndexOfKey<T>(items: seq<T>, keyOf: T -> string, key: string): (r: Option<nat>)
    ensures r.Some? ==> r.value < |items| && keyOf(items[r.value]) == key
    ensures r.Some? ==> forall j :: 0 <= j < r.value ==> keyOf(items[j]) != key
    ensures r.None? <==> forall j :: 0 <= j < |items| ==> keyOf(items[j]) != key
  {
    if |items| == 0 then None
    else if keyOf(items[0]) == key then Some(0)
    else match IndexOfKey(items[1..], keyOf, key)
      case None => None
      case Some(i) => Some(i + 1)
  }

  function MentionKey(m: Mention): string {
    Normalize(m.brand)
  }

  /**
   * `findBrandInList`: the first record whose normalised brand equals the
   * normalised target; none when no record's does (in particular, on an
   * empty list).
   */
  function FindBrand(items: seq<Mention>, target: string): (r: Option<Mention>)
    ensures r.None? <==> forall j :: 0 <= j < |items| ==> Normalize(items[j].brand) != Normalize(target)
    ensures r.Some? ==> exists i :: 0 <= i < |items| && items[i] == r.value
                                    && Normalize(r.value.brand) == Normalize(target)
                                    && forall j :: 0 <= j < i ==> Normalize(items[j].brand) != Normalize(target)
  {
    match IndexOfKey(items, MentionKey, Normalize(target))
    case None => None
    case Some(i) => Some(items[i])
  }

  /** A match comes from a non-empty list. */
  lemma {:induction false} FoundInNonEmpty(items: seq<Mention>, target: string)
    requires FindBrand(items, target).Some?
    ensures |items| > 0
  {
  }

  /** An ASCII capital normalises to its lower-case letter. */
  lemma {:induction false} UpperCharImage(c: char)
    requires IsAsciiUpper(c)
    ensures NormChar(c) == [(c as int + 32) as char]
  {
    var d := (c as int + 32) as char;
    assert FlatMap(LowerChar, [c]) == [d];
    PlainCharImage(d);
    assert FlatMap(DecomposeChar, [d]) == [d];
    assert FlatMap(StripMarkChar, [d]) == [d];
    assert FlatMap(KeepKeyChar, [d]) == [d];
  }

  /** What the normaliser does to an ASCII character. */
  function AsciiKey(c: char): string {
    if IsAsciiUpper(c) then [(c as int + 32) as char]
    else if IsKeyChar(c) then [c]
    else ""
  }

  /** On ASCII text the normaliser lower-cases letters, keeps digits and drops everything else. */
  lemma {:induction false} AsciiNormalize(s: string)
    requires forall i :: 0 <= i < |s| ==> s[i] < '\U{0080}'
    ensures Normalize(s) == FlatMap(AsciiKey, s)
  {
    forall i | 0 <= i < |s| ensures NormChar(s[i]) == AsciiKey(s[i]) {
      AsciiCharImage(s[i]);
    }
    FlatMapCongruent(NormChar, AsciiKey, s);
    NormalizeIsPerChar(s);
  }

  lemma {:induction false} AsciiCharImage(c: char)
    requires c < '\U{0080}'
    ensures NormChar(c) == AsciiKey(c)
  {
    if IsAsciiUpper(c) {
      UpperCharImage(c);
    } else {
      PlainCharImage(c);
    }
  }

  lemma {:induction false} FlatMapCongruent(f: char -> string, g: char -> string, s: string)
    requires forall i :: 0 <= i < |s| ==> f(s[i]) == g(s[i])
    ensures FlatMap(f, s) == FlatMap(g, s)
  {
    if |s| > 0 {
      FlatMapCongruent(f, g, s[1..]);
    }
  }

  /** "é" (precomposed) normalises to "e": decomposed to "e" + U+0301, the mark then dropped. */
  lemma {:induction false} AccentedCharImage()
    ensures NormChar('\U{00E9}') == "e"
    ensures NormChar('\U{00C9}') == "e"
  {
    assert FlatMap(LowerChar, ['\U{00E9}']) == ['\U{00E9}'];
    assert FlatMap(LowerChar, ['\U{00C9}']) == ['\U{00E9}'];
    assert FlatMap(DecomposeChar, ['\U{00E9}']) == "e\U{0301}";
    assert FlatMap(StripMarkChar, "e\U{0301}") == "e";
    assert FlatMap(KeepKeyChar, "e") == "e";
  }

  /** Accents and case are ignored: "Café", "CAFÉ" and "cafe" share the key "cafe". */
  lemma {:induction false} CafeExample(s1: string, s2: string, s3: string)
    requires s1 == "Caf\U{00E9}" && s2 == "CAF\U{00C9}" && s3 == "cafe"
    ensures Normalize(s1) == Normalize(s2) == Normalize(s3) == "cafe"
  {
    KeyOfFour(s1, 'C', 'a', 'f', '\U{00E9}');
    KeyOfFour(s2, 'C', 'A', 'F', '\U{00C9}');
    KeyOfFour(s3, 'c', 'a', 'f', 'e');
    CafeImages();
  }

  lemma {:induction false} CafeImages()
    ensures NormChar('C') + NormChar('a') + NormChar('f') + NormChar('\U{00E9}') == "cafe"
    ensures NormChar('C') + NormChar('A') + NormChar('F') + NormChar('\U{00C9}') == "cafe"
    ensures NormChar('c') + NormChar('a') + NormChar('f') + NormChar('e') == "cafe"
  {
    AccentedCharImage();
    UpperCharImage('C');
    UpperCharImage('A');
    UpperCharImage('F');
    KeyCharIsFixed('a');
    KeyCharIsFixed('f');
    KeyCharIsFixed('c');
    KeyCharIsFixed('e');
  }

  lemma {:induction false} KeyOfFour(s: string, a: char, b: char, c: char, d: char)
    requires s == [a, b, c, d]
    ensures Normalize(s) == NormChar(a) + NormChar(b) + NormChar(c) + NormChar(d)
  {
    NormalizeIsPerChar(s);
    FlatMapOfFour(NormChar, a, b, c, d);
  }

  lemma {:induction false} FlatMapSingle(f: char -> string, c: char)
    ensures FlatMap(f, [c]) == f(c)
  {
    assert [c][1..] == [];
  }

  /** Punctuation is dropped: "Coca-Cola!" has the key "cocacola". */
  lemma {:induction false} CocaColaExample(s: string)
    requires s == "Coca-Cola!"
    ensures Normalize(s) == "cocacola"
  {
    AsciiNormalize(s);
    CocaColaKeys(s);
  }

  lemma {:induction false} CocaColaKeys(s: string)
    requires s == "Coca-Cola!"
    ensures FlatMap(AsciiKey, s) == "cocacola"
  {
    var coca, cola := s[..4], s[5..9];
    assert s == coca + ['-'] + cola + ['!'];
    FlatMapAppend(AsciiKey, coca + ['-'] + cola, ['!']);
    FlatMapAppend(AsciiKey, coca + ['-'], cola);
    FlatMapAppend(AsciiKey, coca, ['-']);
    FlatMapSingle(AsciiKey, '-');
    FlatMapSingle(AsciiKey, '!');
    assert coca == ['C', 'o', 'c', 'a'] && cola == ['C', 'o', 'l', 'a'];
    assert AsciiKey('C') == "c" && AsciiKey('o') == "o" && AsciiKey('a') == "a";
    assert AsciiKey('c') == "c" && AsciiKey('l') == "l";
    assert AsciiKey('-') == "" && AsciiKey('!') == "";
    assert FlatMap(AsciiKey, coca) == "coca" by {
      FlatMapOfFour(AsciiKey, 'C', 'o', 'c', 'a');
    }
    assert FlatMap(AsciiKey, cola) == "cola" by {
      FlatMapOfFour(AsciiKey, 'C', 'o', 'l', 'a');
    }
    assert "coca" + "" + "cola" + "" == "cocacola";
  }

  lemma {:induction false} FlatMapOfFour(f: char -> string, a: char, b: char, c: char, d: char)
    ensures FlatMap(f, [a, b, c, d]) == f(a) + f(b) + f(c) + f(d)
  {
    assert [a, b, c, d] == [a] + [b] + [c] + [d];
    FlatMapAppend(f, [a] + [b] + [c], [d]);
    FlatMapAppend(f, [a] + [b], [c]);
    FlatMapAppend(f, [a], [b]);
    FlatMapSingle(f, a);
    FlatMapSingle(f, b);
    FlatMapSingle(f, c);
    FlatMapSingle(f, d);
  }

}

=== FILE: records.dfy ===
/**
 * The backend's payload shapes, and the traversals every analysis shares:
 * `Object.entries(resultSet)` keeping the array-valued entries only, and the
 * walk over the historical results that carry `processed_responses`.
 */
module Records {
  import opened Wrappers
  import opened Stats
  import opened Sequences

  /** One brand's appearance in one model's answer: `{brand, position, sentiment, link_count}`. */
  datatype Mention = Mention(brand: string, position: int, sentiment: real, linkCount: int)

  /** The value stored under a model name: an array of mentions, or something else (`Array.isArray` is false). */
  datatype ModelValue = Mentions(items: seq<Mention>) | NotAnArray

  /** `{model: value, ...}` as `Object.entries` enumerates it. */
  type ResultSet = seq<(string, ModelValue)>

  /** `{question, similarity_score, processed_responses}`; the responses may be absent. */
  datatype HistoricalResult = HistoricalResult(question: string, similarity: real, responses: Option<ResultSet>)

  /** One array-valued model answer inside a historical result, tagged with that result's question and similarity. */
  datatype Response = Response(model: string, items: seq<Mention>, question: string, similarity: real)

  /** Some mention in `items` carries exactly the raw label `b`. */
  ghost predicate MentionedBy(items: seq<Mention>, b: string) {
    exists j :: 0 <= j < |items| && items[j].brand == b
  }

  /** Some array-valued entry of `rs` mentions the raw label `b`. */
  ghost predicate SetMentions(rs: ResultSet, b: string) {
    exists e :: e in rs && e.1.Mentions? && MentionedBy(e.1.items, b)
  }

  /** The number of mentions a value contributes: its length when it is an array, else none. */
  function RecordsIn(v: ModelValue): nat {
    if v.Mentions? then |v.items| else 0
  }

  function RecordsInEntry(e: (string, ModelValue)): int {
    RecordsIn(e.1)
  }

  /** The total number of mention records across the array-valued entries of `rs`. */
  function RecordCount(rs: ResultSet): int {
    SumBy(rs, RecordsInEntry)
  }

  /**
   * `Object.entries(rs)` restricted to the entries for which `Array.isArray`
   * holds, in order: exactly the array-valued entries of `rs`.
   */
  function ArrayEntries(rs: ResultSet): (r: seq<(string, seq<Mention>)>)
    ensures forall e :: e in r <==> (e.0, Mentions(e.1)) in rs
    ensures |r| <= |rs|
  {
    if |rs| == 0 then []
    else
      var head := if rs[0].1.Mentions? then [(rs[0].0, rs[0].1.items)] else [];
      assert forall e :: e in rs <==> e == rs[0] || e in rs[1..] by {
        assert rs == [rs[0]] + rs[1..];
      }
      head + ArrayEntries(rs[1..])
  }

  /** `Object.entries` walks a result in order, so the array-valued entries of a concatenation concatenate. */
  lemma {:induction false} ArrayEntriesAppend(a: ResultSet, b: ResultSet)
    ensures ArrayEntries(a + b) == ArrayEntries(a) + ArrayEntries(b)
  {
    if |a| == 0 {
      assert a + b == b;
    } else {
      assert (a + b)[0] == a[0];
      assert (a + b)[1..] == a[1..] + b;
      ArrayEntriesAppend(a[1..], b);
    }
  }

  /** The array-valued answers of one historical result, tagged with its question and similarity. */
  function ResponsesOf(h: HistoricalResult): (r: seq<Response>)
    ensures forall x :: x in r <==>
      h.responses.Some? && x.question == h.question && x.similarity == h.similarity
      && (x.model, x.items) in ArrayEntries(h.responses.value)
  {
    if h.responses.None? then []
    else
      var es := ArrayEntries(h.responses.value);
      var r := seq(|es|, i requires 0 <= i < |es| => Response(es[i].0, es[i].1, h.question, h.similarity));
      assert forall x :: x in r ==> (x.model, x.items) in es by {
        forall x | x in r ensures (x.model, x.items) in es {
          var i :| 0 <= i < |r| && r[i] == x;
          assert es[i] == (x.model, x.items);
        }
      }
      assert forall e :: e in es ==> Response(e.0, e.1, h.question, h.similarity) in r by {
        forall e | e in es ensures Response(e.0, e.1, h.question, h.similarity) in r {
          var i :| 0 <= i < |es| && es[i] == e;
          assert r[i] == Response(e.0, e.1, h.question, h.similarity);
        }
      }
      r
  }

  /**
   * The nested walk `similarPreviousResults.forEach(h => if (h.processed_responses)
   * Object.entries(...).forEach(...))`: every array-valued answer of every
   * historical result that has responses, in order.
   */
  function HistoricalResponses(hs: seq<HistoricalResult>): (r: seq<Response>)
    ensures forall x :: x in r <==> exists i :: 0 <= i < |hs| && x in ResponsesOf(hs[i])
  {
    FlatMapMembers(ResponsesOf, hs);
    FlatMap(ResponsesOf, hs)
  }

  /** The walk over historical results distributes over concatenation. */
  lemma {:induction false} HistoricalResponsesAppend(a: seq<HistoricalResult>, b: seq<HistoricalResult>)
    ensures HistoricalResponses(a + b) == HistoricalResponses(a) + HistoricalResponses(b)
  {
    FlatMapAppend(ResponsesOf, a, b);
  }

  /**
   * A historical result without `processed_responses` adds nothing,
   * wherever it stands in the list.
   */
  lemma {:induction false} ResultWithoutResponsesAddsNothing(a: seq<HistoricalResult>, h: HistoricalResult, b: seq<HistoricalResult>)
    requires h.responses.None?
    ensures HistoricalResponses(a + [h] + b) == HistoricalResponses(a + b)
  {
    assert HistoricalResponses([h]) == [] by {
      assert ResponsesOf(h) == [];
      assert [h][1..] == [];
      assert FlatMap(ResponsesOf, [h]) == ResponsesOf(h) + FlatMap(ResponsesOf, []);
    }
    HistoricalResponsesAppend(a + [h], b);
    HistoricalResponsesAppend(a, [h]);
    HistoricalResponsesAppend(a, b);
    assert HistoricalResponses(a + [h]) == HistoricalResponses(a);
  }
}

=== FILE: sequences.dfy ===
/** Generic traversals over sequences shared by the string and the record walks. */
module Sequences {

  /** Applies `f` to every element and concatenates the results in order. */
  function FlatMap<A, B>(f: A -> seq<B>, s: seq<A>): seq<B> {
    if |s| == 0 then [] else f(s[0]) + FlatMap(f, s[1..])
  }

  lemma {:induction false} FlatMapAppend<A, B>(f: A -> seq<B>, a: seq<A>, b: seq<A>)
    ensures FlatMap(f, a + b) == FlatMap(f, a) + FlatMap(f, b)
  {
    if |a| == 0 {
      assert a + b == b;
    } else {
      assert (a + b)[1..] == a[1..] + b;
      FlatMapAppend(f, a[1..], b);
    }
  }

  /** Something is in the concatenation exactly when it is in the image of some element. */
  lemma {:induction false} FlatMapMembers<A, B>(f: A -> seq<B>, s: seq<A>)
    ensures forall x :: x in FlatMap(f, s) <==> exists i :: 0 <= i < |s| && x in f(s[i])
  {
    if |s| > 0 {
      FlatMapMembers(f, s[1..]);
      forall x ensures x in FlatMap(f, s) <==> exists i :: 0 <= i < |s| && x in f(s[i]) {
        if x in FlatMap(f, s[1..]) {
          var i :| 0 <= i < |s[1..]| && x in f(s[1..][i]);
          assert s[1..][i] == s[i + 1];
        } else if x !in f(s[0]) {
          forall i | 1 <= i < |s| ensures x !in f(s[i]) {
            assert s[1..][i - 1] == s[i];
          }
        }
      }
    }
  }

  /** A rewrite that leaves every element of `s` alone leaves `s` alone. */
  lemma {:induction false} FlatMapIdentity<T>(f: T -> seq<T>, s: seq<T>)
    requires forall i :: 0 <= i < |s| ==> f(s[i]) == [s[i]]
    ensures FlatMap(f, s) == s
  {
    if |s| > 0 {
      FlatMapIdentity(f, s[1..]);
      assert s == [s[0]] + s[1..];
    }
  }

  /** A rewrite that erases every element of `s` erases `s`. */
  lemma {:induction false} FlatMapErases<A, B>(f: A -> seq<B>, s: seq<A>)
    requires forall i :: 0 <= i < |s| ==> f(s[i]) == []
    ensures FlatMap(f, s) == []
  {
    if |s| > 0 {
      FlatMapErases(f, s[1..]);
    }
  }

  /** Parts that map to nothing on either side do not change the concatenation. */
  lemma {:induction false} FlatMapAround<A, B>(f: A -> seq<B>, front: seq<A>, s: seq<A>, back: seq<A>)
    requires FlatMap(f, front) == [] && FlatMap(f, back) == []
    ensures FlatMap(f, front + s + back) == FlatMap(f, s)
  {
    FlatMapAppend(f, front + s, back);
    FlatMapAppend(f, front, s);
    assert FlatMap(f, front + s + back) == [] + FlatMap(f, s) + [];
  }
}

=== FILE: stable_sort.dfy ===
/**
 * A stable sort by a real-valued key: the model of
 * `Array.prototype.sort((a, b) => key(a) - key(b))`, which ECMAScript 2019
 * and later require to be stable.
 */
module StableSort {
  import opened Stats

  /** Non-decreasing by `key`. */
  ghost predicate SortedBy<T>(s: seq<T>, key: T -> real) {
    forall i, j :: 0 <= i < j < |s| ==> key(s[i]) <= key(s[j])
  }

  /** The elements of `s` whose key is `k`, in their order in `s`. */
  function KeyFilter<T>(s: seq<T>, key: T -> real, k: real): seq<T> {
    if |s| == 0 then []
    else (if key(s[0]) == k then [s[0]] else []) + KeyFilter(s[1..], key, k)
  }

  /**
   * Stability: for every key value, the elements carrying it appear in the
   * same relative order in `r` as in `s`.
   */
  ghost predicate SameTies<T>(r: seq<T>, s: seq<T>, key: T -> real) {
    forall k :: KeyFilter(r, key, k) == KeyFilter(s, key, k)
  }

  lemma {:induction false} KeyFilterAppend<T>(a: seq<T>, b: seq<T>, key: T -> real, k: real)
    ensures KeyFilter(a + b, key, k) == KeyFilter(a, key, k) + KeyFilter(b, key, k)
  {
    if |a| == 0 {
      assert a + b == b;
    } else {
      assert (a + b)[0] == a[0] && (a + b)[1..] == a[1..] + b;
      KeyFilterAppend(a[1..], b, key, k);
      var head := if key(a[0]) == k then [a[0]] else [];
      var fa, fb := KeyFilter(a[1..], key, k), KeyFilter(b, key, k);
      assert KeyFilter(a + b, key, k) == head + (fa + fb);
      assert head + (fa + fb) == (head + fa) + fb;
    }
  }

  lemma {:induction false} KeyFilterSingle<T>(x: T, key: T -> real, k: real)
    ensures KeyFilter([x], key, k) == if key(x) == k then [x] else []
  {
    assert [x][1..] == [];
  }

  /** A key that no element carries filters to nothing. */
  lemma {:induction false} KeyFilterAbsent<T>(s: seq<T>, key: T -> real, k: real)
    requires forall i :: 0 <= i < |s| ==> key(s[i]) != k
    ensures KeyFilter(s, key, k) == []
  {
    if |s| > 0 {
      KeyFilterAbsent(s[1..], key, k);
    }
  }

  /** Inserts `x` into `s` after every element whose key is at most `key(x)`. */
  function Insert<T>(x: T, s: seq<T>, key: T -> real): (r: seq<T>)
    ensures |r| == |s| + 1
  {
    if |s| == 0 then [x]
    else if key(x) < key(s[0]) then [x] + s
    else [s[0]] + Insert(x, s[1..], key)
  }

  lemma {:induction false} InsertPermutes<T>(x: T, s: seq<T>, key: T -> real)
    ensures multiset(Insert(x, s, key)) == multiset(s) + multiset{x}
  {
    if |s| > 0 && key(x) >= key(s[0]) {
      InsertPermutes(x, s[1..], key);
      assert s == [s[0]] + s[1..];
    }
  }

  lemma {:induction false} SortedTail<T>(s: seq<T>, key: T -> real)
    requires |s| > 0 && SortedBy(s, key)
    ensures SortedBy(s[1..], key)
  {
    forall i, j | 0 <= i < j < |s[1..]| ensures key(s[1..][i]) <= key(s[1..][j]) {
      assert s[1..][i] == s[i + 1] && s[1..][j] == s[j + 1];
    }
  }

  /** An element no greater than anything in a sorted list can go in front of it. */
  lemma {:induction false} ConsSorted<T>(h: T, t: seq<T>, key: T -> real)
    requires SortedBy(t, key)
    requires forall i :: 0 <= i < |t| ==> key(h) <= key(t[i])
    ensures SortedBy([h] + t, key)
  {
    var r := [h] + t;
    forall i, j | 0 <= i < j < |r| ensures key(r[i]) <= key(r[j]) {
      assert r[j] == t[j - 1];
      if i > 0 {
        assert r[i] == t[i - 1];
      }
    }
  }

  lemma {:induction false} InsertSorted<T>(x: T, s: seq<T>, key: T -> real)
    requires SortedBy(s, key)
    ensures SortedBy(Insert(x, s, key), key)
  {
    if |s| == 0 {
      assert Insert(x, s, key) == [x];
    } else if key(x) < key(s[0]) {
      assert Insert(x, s, key) == [x] + s;
      forall i | 0 <= i < |s| ensures key(x) <= key(s[i]) {
        assert key(s[0]) <= key(s[i]);
      }
      ConsSorted(x, s, key);
    } else {
      SortedTail(s, key);
      InsertSorted(x, s[1..], key);
      var tail := Insert(x, s[1..], key);
      InsertPermutes(x, s[1..], key);
      forall i | 0 <= i < |tail| ensures key(s[0]) <= key(tail[i]) {
        var y := tail[i];
        assert y in multiset(tail);
        if y != x {
          assert y in multiset(s[1..]);
          var j :| 0 <= j < |s[1..]| && s[1..][j] == y;
          assert s[j + 1] == y;
        }
      }
      ConsSorted(s[0], tail, key);
      assert Insert(x, s, key) == [s[0]] + tail;
    }
  }

  lemma {:induction false} InsertKeepsTies<T>(x: T, s: seq<T>, key: T -> real, k: real)
    requires SortedBy(s, key)
    ensures KeyFilter(Insert(x, s, key), key, k) == KeyFilter(s, key, k) + KeyFilter([x], key, k)
  {
    if |s| == 0 {
      assert Insert(x, s, key) == [x];
    } else if key(x) < key(s[0]) {
      InsertFrontKeepsTies(x, s, key, k);
    } else {
      SortedTail(s, key);
      InsertKeepsTies(x, s[1..], key, k);
      InsertLaterKeepsTies(x, s, key, k);
    }
  }

  lemma {:induction false} InsertFrontKeepsTies<T>(x: T, s: seq<T>, key: T -> real, k: real)
    requires SortedBy(s, key)
    requires |s| > 0 && key(x) < key(s[0])
    ensures KeyFilter(Insert(x, s, key), key, k) == KeyFilter(s, key, k) + KeyFilter([x], key, k)
  {
    assert Insert(x, s, key) == [x] + s;
    KeyFilterAppend([x], s, key, k);
    KeyFilterSingle(x, key, k);
    if key(x) == k {
      forall i | 0 <= i < |s| ensures key(s[i]) != k {
        assert key(s[0]) <= key(s[i]);
      }
      KeyFilterAbsent(s, key, k);
      assert KeyFilter(s, key, k) + [x] == [x] + KeyFilter(s, key, k);
    } else {
      assert KeyFilter(s, key, k) + [] == [] + KeyFilter(s, key, k);
    }
  }

  lemma {:induction false} InsertLaterKeepsTies<T>(x: T, s: seq<T>, key: T -> real, k: real)
    requires |s| > 0 && key(x) >= key(s[0])
    requires KeyFilter(Insert(x, s[1..], key), key, k) == KeyFilter(s[1..], key, k) + KeyFilter([x], key, k)
    ensures KeyFilter(Insert(x, s, key), key, k) == KeyFilter(s, key, k) + KeyFilter([x], key, k)
  {
    var tail := Insert(x, s[1..], key);
    var r := Insert(x, s, key);
    var head := KeyFilter([s[0]], key, k);
    assert r == [s[0]] + tail;
    KeyFilterAppend([s[0]], tail, key, k);
    assert s == [s[0]] + s[1..];
    KeyFilterAppend([s[0]], s[1..], key, k);
    var a, b := KeyFilter(s[1..], key, k), KeyFilter([x], key, k);
    assert head + (a + b) == (head + a) + b;
  }

  /**
   * Sorting `s` by `key`: a permutation of `s`, non-decreasing by `key`,
   * with ties in their original order.
   */
  function Sort<T>(s: seq<T>, key: T -> real): (r: seq<T>)
    ensures |r| == |s|
    ensures multiset(r) == multiset(s)
    ensures SortedBy(r, key)
    ensures SameTies(r, s, key)
  {
    InsertionSortCorrect(s, key);
    InsertionSort(s, key)
  }

  /** Insertion sort: each element in turn is inserted into the sorted prefix before it. */
  function InsertionSort<T>(s: seq<T>, key: T -> real): (r: seq<T>)
    ensures |r| == |s|
  {
    if |s| == 0 then [] else Insert(s[|s| - 1], InsertionSort(s[..|s| - 1], key), key)
  }

  lemma {:induction false} InsertionSortCorrect<T>(s: seq<T>, key: T -> real)
    ensures multiset(InsertionSort(s, key)) == multiset(s)
    ensures SortedBy(InsertionSort(s, key), key)
    ensures SameTies(InsertionSort(s, key), s, key)
  {
    if |s| > 0 {
      var prefix := s[..|s| - 1];
      var last := s[|s| - 1];
      InsertionSortCorrect(prefix, key);
      var sorted := InsertionSort(prefix, key);
      assert s == prefix + [last];
      var r := Insert(last, sorted, key);
      InsertSorted(last, sorted, key);
      InsertPermutes(last, sorted, key);
      forall k ensures KeyFilter(r, key, k) == KeyFilter(s, key, k) {
        InsertKeepsTies(last, sorted, key, k);
        KeyFilterAppend(prefix, [last], key, k);
      }
    }
  }

  /** A list whose neighbours are in order is sorted. */
  lemma {:induction false} SortedByNeighbours<T>(s: seq<T>, key: T -> real)
    requires forall i :: 0 < i < |s| ==> key(s[i - 1]) <= key(s[i])
    ensures SortedBy(s, key)
  {
    if |s| > 1 {
      var prefix := s[..|s| - 1];
      assert forall i :: 0 < i < |prefix| ==> key(prefix[i - 1]) <= key(prefix[i]);
      SortedByNeighbours(prefix, key);
      forall i, j | 0 <= i < j < |s| ensures key(s[i]) <= key(s[j]) {
        if j < |s| - 1 {
          assert s[i] == prefix[i] && s[j] == prefix[j];
        } else if i < j - 1 {
          assert s[i] == prefix[i] && s[j - 1] == prefix[j - 1];
        }
      }
    }
  }

  /** An element whose key is at least every key of `s` goes to the end. */
  lemma {:induction false} InsertLast<T>(x: T, s: seq<T>, key: T -> real)
    requires forall i :: 0 <= i < |s| ==> key(s[i]) <= key(x)
    ensures Insert(x, s, key) == s + [x]
  {
    if |s| > 0 {
      InsertLast(x, s[1..], key);
      assert s == [s[0]] + s[1..];
    }
  }

  /** Sorting an already sorted list leaves it as it is. */
  lemma {:induction false} SortSortedIsIdentity<T>(s: seq<T>, key: T -> real)
    requires SortedBy(s, key)
    ensures Sort(s, key) == s
  {
    InsertionSortOfSorted(s, key);
  }

  lemma {:induction false} InsertionSortOfSorted<T>(s: seq<T>, key: T -> real)
    requires SortedBy(s, key)
    ensures InsertionSort(s, key) == s
  {
    if |s| > 0 {
      var prefix, last := s[..|s| - 1], s[|s| - 1];
      assert SortedBy(prefix, key) by {
        forall i, j | 0 <= i < j < |prefix| ensures key(prefix[i]) <= key(prefix[j]) {
          assert prefix[i] == s[i] && prefix[j] == s[j];
        }
      }
      InsertionSortOfSorted(prefix, key);
      forall i | 0 <= i < |prefix| ensures key(prefix[i]) <= key(last) {
        assert prefix[i] == s[i];
      }
      InsertLast(last, prefix, key);
      assert s == prefix + [last];
    }
  }

  /** Sorting does not change a sum over the elements. */
  lemma {:induction false} SortKeepsSum<T>(s: seq<T>, key: T -> real, val: T -> int)
    ensures SumBy(Sort(s, key), val) == SumBy(s, val)
  {
    InsertionSortKeepsSum(s, key, val);
  }

  lemma {:induction false} InsertionSortKeepsSum<T>(s: seq<T>, key: T -> real, val: T -> int)
    ensures SumBy(InsertionSort(s, key), val) == SumBy(s, val)
  {
    if |s| > 0 {
      var prefix := s[..|s| - 1];
      var last := s[|s| - 1];
      assert s == prefix + [last];
      var sorted := InsertionSort(prefix, key);
      InsertionSortKeepsSum(prefix, key, val);
      InsertAddsToSum(last, sorted, key, val);
      SumByAppend(prefix, [last], val);
    }
  }

  lemma {:induction false} InsertAddsToSum<T>(x: T, s: seq<T>, key: T -> real, val: T -> int)
    ensures SumBy(Insert(x, s, key), val) == SumBy(s, val) + val(x)
  {
    if |s| > 0 && key(x) >= key(s[0]) {
      InsertAddsToSum(x, s[1..], key, val);
      assert ([s[0]] + Insert(x, s[1..], key))[1..] == Insert(x, s[1..], key);
    } else if |s| > 0 {
      assert ([x] + s)[1..] == s;
    }
  }
}

=== FILE: stats.dfy ===
/** Sums and means, as the source computes them with `reduce((a, b) => a + b, 0)`. */
module Stats {

  /** Sum of `val` over `s`, left to right. */
  function SumBy<T>(s: seq<T>, val: T -> int): int {
    if |s| == 0 then 0 else val(s[0]) + SumBy(s[1..], val)
  }

  /** Sum of `val` over `s`, for real-valued fields. */
  function RealSumBy<T>(s: seq<T>, val: T -> real): real {
    if |s| == 0 then 0.0 else val(s[0]) + RealSumBy(s[1..], val)
  }

  lemma {:induction false} SumByAppend<T>(a: seq<T>, b: seq<T>, val: T -> int)
    ensures SumBy(a + b, val) == SumBy(a, val) + SumBy(b, val)
  {
    if |a| == 0 {
      assert a + b == b;
    } else {
      assert (a + b)[1..] == a[1..] + b;
      SumByAppend(a[1..], b, val);
    }
  }

  lemma {:induction false} RealSumByAppend<T>(a: seq<T>, b: seq<T>, val: T -> real)
    ensures RealSumBy(a + b, val) == RealSumBy(a, val) + RealSumBy(b, val)
  {
    if |a| == 0 {
      assert a + b == b;
    } else {
      assert (a + b)[1..] == a[1..] + b;
      RealSumByAppend(a[1..], b, val);
    }
  }

  /** A sum of non-negative terms is non-negative. */
  lemma {:induction false} SumByNonNegative<T>(s: seq<T>, val: T -> int)
    requires forall i :: 0 <= i < |s| ==> val(s[i]) >= 0
    ensures SumBy(s, val) >= 0
  {
    if |s| > 0 {
      SumByNonNegative(s[1..], val);
    }
  }

  /** A sum of terms that are all at least 1 is at least the number of terms. */
  lemma {:induction false} SumByAtLeastLength<T>(s: seq<T>, val: T -> int)
    requires forall i :: 0 <= i < |s| ==> val(s[i]) >= 1
    ensures SumBy(s, val) >= |s|
  {
    if |s| > 0 {
      SumByAtLeastLength(s[1..], val);
    }
  }

  /** Two lists whose terms agree position by position have the same sum. */
  lemma {:induction false} SumByPointwise<A, B>(a: seq<A>, f: A -> int, b: seq<B>, g: B -> int)
    requires |a| == |b|
    requires forall i :: 0 <= i < |a| ==> f(a[i]) == g(b[i])
    ensures SumBy(a, f) == SumBy(b, g)
  {
    if |a| > 0 {
      SumByPointwise(a[1..], f, b[1..], g);
    }
  }

  /** Replacing one term changes the sum by the difference. */
  lemma {:induction false} SumByUpdate<T>(s: seq<T>, i: nat, x: T, val: T -> int)
    requires i < |s|
    ensures SumBy(s[i := x], val) == SumBy(s, val) - val(s[i]) + val(x)
  {
    if i > 0 {
      SumByUpdate(s[1..], i - 1, x, val);
      assert s[i := x][1..] == s[1..][i - 1 := x];
    } else {
      assert s[i := x][1..] == s[1..];
    }
  }

  function Id(x: int): int { x }

  function IdReal(x: real): real { x }

  /** The sum of a list of integers. */
  function Sum(xs: seq<int>): int {
    SumBy(xs, Id)
  }

  /** The sum of a list of reals. */
  function RealSum(xs: seq<real>): real {
    RealSumBy(xs, IdReal)
  }

  /**
   * `xs.length > 0 ? xs.reduce((a, b) => a + b, 0) / xs.length : 0`: the
   * mean, guarded against the empty list.
   */
  function MeanOrZero(xs: seq<int>): (m: real)
    ensures |xs| == 0 ==> m == 0.0
    ensures |xs| > 0 ==> m * (|xs| as real) == Sum(xs) as real
  {
    if |xs| > 0 then (Sum(xs) as real) / (|xs| as real) else 0.0
  }

  /** `total / count` guarded against a zero count. */
  function RatioOrZero(total: real, count: nat): (m: real)
    ensures count == 0 ==> m == 0.0
    ensures count > 0 ==> m * (count as real) == total
  {
    if count > 0 then total / (count as real) else 0.0
  }

  lemma {:induction false} SumBounds(xs: seq<int>, lo: int, hi: int)
    requires forall i :: 0 <= i < |xs| ==> lo <= xs[i] <= hi
    ensures |xs| * lo <= Sum(xs) <= |xs| * hi
  {
    if |xs| > 0 {
      SumBounds(xs[1..], lo, hi);
      assert Sum(xs) == xs[0] + Sum(xs[1..]);
    }
  }

  lemma {:induction false} RealSumBounds(xs: seq<real>, lo: real, hi: real)
    requires forall i :: 0 <= i < |xs| ==> lo <= xs[i] <= hi
    ensures (|xs| as real) * lo <= RealSum(xs) <= (|xs| as real) * hi
  {
    if |xs| > 0 {
      RealSumBounds(xs[1..], lo, hi);
      assert RealSum(xs) == xs[0] + RealSum(xs[1..]);
    }
  }

  /** A mean lies between the least and the greatest possible term. */
  lemma {:induction false} MeanBounds(xs: seq<int>, lo: int, hi: int)
    requires |xs| > 0
    requires forall i :: 0 <= i < |xs| ==> lo <= xs[i] <= hi
    ensures lo as real <= MeanOrZero(xs) <= hi as real
  {
    SumBounds(xs, lo, hi);
    var n := |xs| as real;
    var m := MeanOrZero(xs);
    var total := Sum(xs) as real;
    assert m * n == total;
    assert (|xs| * lo) as real <= total <= (|xs| * hi) as real;
    assert (|xs| * lo) as real == n * (lo as real);
    assert (|xs| * hi) as real == n * (hi as real);
    RealDivBounds(m, n, lo as real, hi as real);
  }

  /** A guarded ratio of a real total lies between the bounds of its terms. */
  lemma {:induction false} RatioBounds(xs: seq<real>, lo: real, hi: real)
    requires |xs| > 0
    requires forall i :: 0 <= i < |xs| ==> lo <= xs[i] <= hi
    ensures lo <= RatioOrZero(RealSum(xs), |xs|) <= hi
  {
    RealSumBounds(xs, lo, hi);
    var n := |xs| as real;
    var m := RatioOrZero(RealSum(xs), |xs|);
    assert m * n == RealSum(xs);
    RealDivBounds(m, n, lo, hi);
  }

  lemma {:induction false} RealDivBounds(m: real, n: real, lo: real, hi: real)
    requires n > 0.0
    requires n * lo <= m * n <= n * hi
    ensures lo <= m <= hi
  {
  }
}

=== FILE: table.dfy ===
/**
 * The tables of the aggregation view (`BrandAggregation`): one row per
 * counted label with its mean position and mean sentiment, sorted by mean
 * position, best first, and the colour tier of that mean.
 */
module AggregationTable {
  import opened Wrappers
  import opened AssocLists
  import opened Stats
  import opened StableSort
  import opened Records
  import opened Aggregation

  /**
   * One table row. `sources` holds the models of a current row (listed by the
   * view) and the questions of a historical row (counted by the view).
   */
  datatype Row = Row(brand: string, count: int, avgPosition: real, avgSentiment: real,
                     totalLinks: int, sources: set<string>)

  /**
   * The two maps of an aggregate agree on their keys, in order, no key
   * repeats, and every entry has at least one mention.
   */
  ghost predicate Consistent(a: Aggregate) {
    |a.counts| == |a.details| && DistinctKeys(a.details) &&
    forall i :: 0 <= i < |a.details| ==>
      a.counts[i].0 == a.details[i].0 && a.counts[i].1 == a.details[i].1.totalMentions >= 1
  }

  /** Every aggregate the memo builds is consistent. */
  lemma {:induction false} AggregateOfIsConsistent(cs: seq<Contribution>)
    ensures Consistent(AggregateOf(cs))
  {
    AggregateConsistent(cs);
  }

  /**
   * The row of label `b`: the mean position (0 without positions), the mean
   * sentiment (total sentiment over mentions), the link total and the sources.
   */
  function RowOf(b: string, count: int, t: Tally): (r: Row)
    requires t.totalMentions > 0
    ensures r.brand == b && r.count == count && r.totalLinks == t.totalLinks && r.sources == t.sources
    ensures |t.positions| > 0 ==> r.avgPosition * (|t.positions| as real) == Sum(t.positions) as real
    ensures |t.positions| == 0 ==> r.avgPosition == 0.0
    ensures r.avgSentiment * (t.totalMentions as real) == t.totalSentiment
  {
    Row(b, count, MeanOrZero(t.positions), t.totalSentiment / (t.totalMentions as real), t.totalLinks, t.sources)
  }

  /** `Object.entries(counts).map(([b, count]) => row of b with details[b])`, before sorting. */
  function UnsortedRows(a: Aggregate): (r: seq<Row>)
    requires Consistent(a)
    ensures |r| == |a.counts|
    ensures forall i :: 0 <= i < |r| ==> r[i] == RowOf(a.counts[i].0, a.counts[i].1, a.details[i].1)
  {
    forall i | 0 <= i < |a.counts| ensures Get(a.details, a.counts[i].0) == Some(a.details[i].1) {
      GetAt(a.details, i);
    }
    seq(|a.counts|, i requires 0 <= i < |a.counts| =>
      RowOf(a.counts[i].0, a.counts[i].1, Get(a.details, a.counts[i].0).value))
  }

  function AvgPosition(r: Row): real {
    r.avgPosition
  }

  /**
   * `.sort((a, b) => a.avgPosition - b.avgPosition)`: the rows in
   * non-decreasing order of mean position, ties in entry order, a
   * permutation of the unsorted rows.
   */
  function Rows(a: Aggregate): (r: seq<Row>)
    requires Consistent(a)
    ensures |r| == |a.counts|
    ensures multiset(r) == multiset(UnsortedRows(a))
    ensures SortedBy(r, AvgPosition)
    ensures SameTies(r, UnsortedRows(a), AvgPosition)
  {
    Sort(UnsortedRows(a), AvgPosition)
  }

  /** Every label of the counts has a row. */
  lemma {:induction false} EveryLabelHasARow(a: Aggregate)
    requires Consistent(a)
    ensures forall j :: 0 <= j < |a.counts| ==> exists i :: 0 <= i < |Rows(a)| && Rows(a)[i].brand == a.counts[j].0
  {
    var u := UnsortedRows(a);
    var r := Rows(a);
    forall j | 0 <= j < |a.counts| ensures exists i :: 0 <= i < |r| && r[i].brand == a.counts[j].0 {
      assert u[j] in multiset(r);
    }
  }

  /** Every row is the row of some label, built from that label's count and details. */
  lemma {:induction false} EveryRowIsALabel(a: Aggregate)
    requires Consistent(a)
    ensures forall i :: 0 <= i < |Rows(a)| ==>
      exists j :: 0 <= j < |a.counts| && Rows(a)[i] == RowOf(a.counts[j].0, a.counts[j].1, a.details[j].1)
  {
    var u := UnsortedRows(a);
    var r := Rows(a);
    forall i | 0 <= i < |r|
      ensures exists j :: 0 <= j < |a.counts| && r[i] == RowOf(a.counts[j].0, a.counts[j].1, a.details[j].1)
    {
      assert r[i] in multiset(u);
    }
  }

  function RowLabel(r: Row): string {
    r.brand
  }

  /** No two rows share a label. */
  lemma {:induction false} NoLabelTwice(a: Aggregate)
    requires Consistent(a)
    ensures forall i, k :: 0 <= i < k < |Rows(a)| ==> Rows(a)[i].brand != Rows(a)[k].brand
  {
    var u := UnsortedRows(a);
    UnsortedRowLabels(a);
    assert forall p, q :: 0 <= p < q < |u| ==> RowLabel(u[p]) != RowLabel(u[q]);
    DistinctKeysSurvivePermutation(u, Rows(a), RowLabel);
  }

  /** Row `p` of the unsorted table carries the label of entry `p`. */
  lemma {:induction false} UnsortedRowLabels(a: Aggregate)
    requires Consistent(a)
    ensures forall p :: 0 <= p < |UnsortedRows(a)| ==> RowLabel(UnsortedRows(a)[p]) == a.details[p].0
  {
  }

  /** A permutation of a list whose elements carry distinct keys carries distinct keys. */
  lemma {:induction false} DistinctKeysSurvivePermutation<T, K>(u: seq<T>, r: seq<T>, key: T -> K)
    requires forall p, q :: 0 <= p < q < |u| ==> key(u[p]) != key(u[q])
    requires multiset(r) == multiset(u)
    ensures forall i, k :: 0 <= i < k < |r| ==> key(r[i]) != key(r[k])
  {
    assert forall p, q :: 0 <= p < q < |u| ==> u[p] != u[q];
    NoDuplicatesSurvivePermutation(u, r);
    forall i, k | 0 <= i < k < |r| ensures key(r[i]) != key(r[k]) {
      assert r[i] in multiset(u) && r[k] in multiset(u);
      var p :| 0 <= p < |u| && u[p] == r[i];
      var q :| 0 <= q < |u| && u[q] == r[k];
      assert p != q;
    }
  }

  /** A permutation of a list without repeated values has none either. */
  lemma {:induction false} NoDuplicatesSurvivePermutation<T>(u: seq<T>, r: seq<T>)
    requires forall p, q :: 0 <= p < q < |u| ==> u[p] != u[q]
    requires multiset(r) == multiset(u)
    ensures forall i, k :: 0 <= i < k < |r| ==> r[i] != r[k]
  {
    forall i, k | 0 <= i < k < |r| ensures r[i] != r[k] {
      if r[i] == r[k] {
        DuplicateCountsTwice(r, i, k);
        assert r[i] in multiset(u);
        var p :| 0 <= p < |u| && u[p] == r[i];
        OnceCountsOnce(u, p);
      }
    }
  }

  /** Two positions holding the same value make it occur twice. */
  lemma {:induction false} DuplicateCountsTwice<T>(r: seq<T>, i: nat, k: nat)
    requires i < k < |r| && r[i] == r[k]
    ensures multiset(r)[r[i]] >= 2
  {
    assert r == r[..i] + [r[i]] + r[i + 1..k] + [r[k]] + r[k + 1..];
  }

  /** A value at exactly one position of `u` occurs once. */
  lemma {:induction false} OnceCountsOnce<T>(u: seq<T>, p: nat)
    requires p < |u|
    requires forall q :: 0 <= q < |u| && q != p ==> u[q] != u[p]
    ensures multiset(u)[u[p]] == 1
  {
    var front, back := u[..p], u[p + 1..];
    assert u == front + [u[p]] + back;
    assert forall q :: 0 <= q < |front| ==> front[q] == u[q];
    assert forall q :: 0 <= q < |back| ==> back[q] == u[p + 1 + q];
    assert u[p] !in front;
    assert u[p] !in back;
  }

  /** The colour of a mean-position badge. */
  datatype Tier = Success | Warning | Info | Grey

  /**
   * `avgPosition <= 3 ? success : <= 5 ? warning : <= 10 ? info : grey`:
   * exactly one tier for every mean, by the ranges (-inf, 3], (3, 5], (5, 10]
   * and (10, +inf).
   */
  function TierOf(avg: real): (t: Tier)
    ensures t == Success <==> avg <= 3.0
    ensures t == Warning <==> 3.0 < avg <= 5.0
    ensures t == Info <==> 5.0 < avg <= 10.0
    ensures t == Grey <==> 10.0 < avg
  {
    if avg <= 3.0 then Success
    else if avg <= 5.0 then Warning
    else if avg <= 10.0 then Info
    else Grey
  }

  /** The tiers from best to worst. */
  function TierRank(t: Tier): nat {
    match t
    case Success => 0
    case Warning => 1
    case Info => 2
    case Grey => 3
  }

  /** A better (lower) mean never gets a worse tier. */
  lemma {:induction false} TierMonotone(x: real, y: real)
    requires x <= y
    ensures TierRank(TierOf(x)) <= TierRank(TierOf(y))
  {
  }

  /** Down a sorted table the badges only get worse, never better. */
  lemma {:induction false} RowTiersDescend(a: Aggregate)
    requires Consistent(a)
    ensures forall i, j :: 0 <= i < j < |Rows(a)| ==>
      TierRank(TierOf(Rows(a)[i].avgPosition)) <= TierRank(TierOf(Rows(a)[j].avgPosition))
  {
    var r := Rows(a);
    forall i, j | 0 <= i < j < |r| ensures TierRank(TierOf(r[i].avgPosition)) <= TierRank(TierOf(r[j].avgPosition)) {
      assert AvgPosition(r[i]) <= AvgPosition(r[j]);
      TierMonotone(r[i].avgPosition, r[j].avgPosition);
    }
  }

  /** A row's mean position lies between its label's best and worst position. */
  lemma {:induction false} RowMeanWithinPositions(b: string, count: int, t: Tally, lo: int, hi: int)
    requires t.totalMentions > 0 && |t.positions| > 0
    requires forall i :: 0 <= i < |t.positions| ==> lo <= t.positions[i] <= hi
    ensures lo as real <= RowOf(b, count, t).avgPosition <= hi as real
  {
    MeanBounds(t.positions, lo, hi);
  }

  /** What the view shows: the current table and the historical table. */
  datatype Tables = Tables(current: seq<Row>, historical: seq<Row>)

  /**
   * The view: nothing when the aggregation is null; otherwise one sorted row
   * per label of each map.
   */
  function TablesOf(current: Option<ResultSet>, hs: seq<HistoricalResult>, brand: string): (r: Option<Tables>)
    ensures r.None? <==> Aggregated(current, hs, brand).None?
    ensures r.Some? ==> |r.value.current| == |Aggregated(current, hs, brand).value.current.counts|
    ensures r.Some? ==> |r.value.historical| == |Aggregated(current, hs, brand).value.historical.counts|
    ensures r.Some? ==> SortedBy(r.value.current, AvgPosition) && SortedBy(r.value.historical, AvgPosition)
  {
    match Aggregated(current, hs, brand)
    case None => None
    case Some(agg) =>
      var cs := if current.Some? then CurrentContributions(current.value) else [];
      assert agg.current == AggregateOf(cs);
      AggregateOfIsConsistent(cs);
      AggregateOfIsConsistent(HistoricalContributions(hs));
      Some(Tables(Rows(agg.current), Rows(agg.historical)))
  }

  /**
   * `questionsCount`: a historical row counts the distinct questions of the
   * previous results whose responses mention its label.
   */
  lemma {:induction false} QuestionsCountIsDistinctQuestions(hs: seq<HistoricalResult>, b: string)
    requires Get(AggregateOf(HistoricalContributions(hs)).details, b).Some?
    ensures Get(AggregateOf(HistoricalContributions(hs)).details, b).value.sources
         == MentioningQuestions(hs, b)
  {
    var t := Get(AggregateOf(HistoricalContributions(hs)).details, b).value;
    var qs := MentioningQuestions(hs, b);
    forall q ensures q in t.sources <==> q in qs {
      HistoricalQuestionsExact(hs, b, q);
    }
    SameMembers(t.sources, qs);
  }

  /** The questions of the previous results whose responses mention `b`. */
  ghost function MentioningQuestions(hs: seq<HistoricalResult>, b: string): (qs: set<string>)
    ensures forall q :: q in qs <==> QuestionMentions(hs, q, b)
  {
    var qs := set i | 0 <= i < |hs| && hs[i].responses.Some? && SetMentions(hs[i].responses.value, b) :: hs[i].question;
    forall q ensures q in qs <==> QuestionMentions(hs, q, b) {
      if QuestionMentions(hs, q, b) {
        var i :| 0 <= i < |hs| && hs[i].question == q && hs[i].responses.Some? && SetMentions(hs[i].responses.value, b);
        assert q in qs;
      }
    }
    qs
  }

  lemma {:induction false} SameMembers<T>(a: set<T>, b: set<T>)
    requires forall x :: x in a <==> x in b
    ensures a == b
  {
  }
}

=== FILE: wrappers.dfy ===
/** Optional values: the model of a JavaScript value that may be `undefined` or `null`. */
module Wrappers {

  datatype Option<+T> = None | Some(value: T) {

    /** Returns the wrapped value, or `default` when there is none. */
    function GetOr(default: T): T {
      match this
      case Some(v) => v
      case None => default
    }
  }
}
